=== FILE: README.md ===
# ja — a verified model of the front end's core

ja is a front end for the Ninja build system. Ninja runs the build and sends
a stream of status messages, each a protobuf message preceded by its length
as a varint. ja reads that stream and draws it on the terminal:
- a progress bar built from a `NINJA_STATUS`-style template;
- one coloured status line per running edge, elided in the middle when it is
  wider than the terminal;
- the output of failed and console edges;
- log messages.

It also runs `cmake` and recolours its output line by line.

This project models that core in Dafny and proves properties of the model.

| module | file | models |
|---|---|---|
| `Wrappers`, `Seqs`, `Strings` | wrappers.dfy, seqs.dfy, strings.dfy | `Option`/`Result`, sequence facts, and the Python `str` operations the code uses (`rstrip`, `strip`, `split`, `join`, `count`, `find`, `'{:17}'` padding) |
| `Framing` | framing.dfy | The varint length prefix and the two ways of reading one frame, as functions over the whole byte stream. A `Reader` class stands for the pipe and may deliver fewer bytes than asked (short reads). |
| `JaFrontend` | ja_frontend.dfy | `Frontend.next` of ja/frontend.py, which retries short reads of the payload |
| `LegacyFrontend` | legacy_frontend.dfy | `Frontend.next` of frontend.py, which reads the payload with a single `read` |
| `Ansi` | ansi.dfy | `strip_ansi_escape_codes` and `elide_middle` of ja/native.py: escape sequences as pieces of a string; their positions, relocated when the visible text is shortened |
| `Rate` | rate.dfy | `SlidingRateInfo`: the sliding window of edge-finish times and the rate computed from it |
| `Printer` | printer.dfy | `LinePrinter`: a class whose methods are proved against step functions over its fields and an append-only standard output |
| `Native` | native.dfy | `NinjaNativeFrontend`: the running-edge registry, `format_progress_status`, `print_status`, and `handle` message by message. It is a class whose methods are proved against step functions on a `Tracker` value. |
| `CMake` | cmake.dfy | The line-by-line recolouring loop of `run_cmake` |

Each stateful entity (the reader, the two frontends, the rate window, the
line printer, the native frontend) is a class that updates its fields in
place. Its methods are proved equal to a step function of the old state,
and the properties the source promises are proved about those step
functions.

Standard output is modelled as a string that only grows. The terminal width
(`cols`), whether the terminal is smart, and the foreign routines are
parameters:
- `decode` stands for `ninja.Status.FromString`;
- `Foreign` holds adler32, `click.style`, `'{:.1f}'` formatting and `humanize.naturaldelta`.

## Model

| member | source | states |
|---|---|---|
| Framing.ReadPrefix | ja/frontend.py:46-59 | A prefix that is read ends after the position it started from, at most 5 bytes later, within the data. |
| Framing.ReadPrefixCharacterised | ja/frontend.py:46-59 | Exactly one of three things happens. The data runs out: EOF. Five bytes all have the continuation bit set: the prefix is overlong. Otherwise the bytes read form a varint prefix whose value is the length returned, and the next position is just after them. |
| Framing.EncodeVarintIsPrefix | ja/frontend.py:52-56 | An encoded length of at most 5 bytes is a well-formed prefix: only its last byte stops. |
| Framing.EncodeVarintLength | ja/frontend.py:57-59 | A number below 128^k encodes in at most k bytes, so every 32-bit length fits in 5. |
| Framing.PrefixFromEncoded | ja/frontend.py:46-56 | The prefix loop reads an encoded number back from any position and shift, and ends right after it. |
| Framing.VarintRoundTrip | ja/frontend.py:46-56 | Reading the prefix of `encode(n) + rest` gives back `n` and the length of the encoding. |
| Framing.NextRetrying | ja/frontend.py:45-75 | One `next` call of the retrying frontend as a function of the stream. It never moves backwards and never past the end. When it yields a message it has consumed at least one byte. |
| Framing.NextSingleRead | frontend.py:46-70 | The same for the single-read frontend, where one `read` may deliver at most `burst` bytes. |
| Framing.Delivered | frontend.py:62-64 | A single read delivers no more than asked for and no more than is left. |
| Framing.NextAtEof | ja/frontend.py:49-51 | (unfolding step) EOF inside the prefix stops iteration in both frontends, with everything consumed. |
| Framing.NextAtOverlong | ja/frontend.py:57-59 | (unfolding step) An overlong prefix is an error in both frontends, reported after five bytes. The source raises a bare string there, which Python 3 turns into a `TypeError`; the model names the error the authors meant. |
| Framing.RetryingCut | ja/frontend.py:61-69 | (unfolding step) A payload cut short by EOF is reported as an unexpected EOF, with the expected size. |
| Framing.RetryingAccepts | ja/frontend.py:71-72 | (unfolding step) A whole payload that decodes is returned, and the stream is positioned right after it. |
| Framing.RetryingRejects | ja/frontend.py:73-75 | (unfolding step) A whole payload that does not decode is recorded, and the result is that of `next` on the rest of the stream. |
| Framing.SingleReadCut | frontend.py:62-64 | (unfolding step) A single read that delivers less than the size is reported as an unexpected EOF. |
| Framing.SingleReadAccepts | frontend.py:66-67 | (unfolding step) A payload delivered whole that decodes is returned. |
| Framing.SingleReadRejects | frontend.py:68-70 | (unfolding step) A payload delivered whole that does not decode is recorded, and reading continues. |
| Framing.OneFrame | ja/frontend.py:46-66 | A framed payload placed anywhere in the stream is read back: its prefix gives its length, and the bytes after the prefix are the payload. |
| Framing.IterateAccepted | ja/frontend.py:71-72 | (unfolding step) Iterating from a whole, decodable frame yields its message, then the iteration of the rest. |
| Framing.IterateRejected | ja/frontend.py:73-75 | (unfolding step) An undecodable frame yields nothing and is recorded, and iteration carries on after it. |
| Framing.IterateFrames | ja/frontend.py:45-75 | Iterating over a stream of framed payloads yields the decoded messages in order, records exactly the undecodable payloads, and stops at the end. |
| Framing.IterateFramesIn | ja/frontend.py:45-75 | Whole frames anywhere in the stream, followed by anything: iteration from their start yields their decoded messages in order and records exactly their undecodable payloads, then goes on with whatever the bytes after them yield. |
| Framing.TruncatedFrameAt | ja/frontend.py:45-69 | A frame cut at any point short of its end, at any position in the stream, gives no message and records no payload, in both frontends (frontend.py:46-64 alike). A cut inside the prefix stops iteration; a cut inside the payload reports an unexpected EOF with the announced size. |
| Framing.TruncatedStream | ja/frontend.py:45-75 | Whole frames followed by a cut-off frame yield the whole frames' decoded messages and undecodable payloads, then end as the cut prescribes: StopIteration inside the prefix, "Unexpected EOF" inside the payload. |
| Framing.SingleReadAgreesWithoutShortReads | frontend.py:46-70 | When reads are never short, the single-read frontend behaves exactly like the retrying one. |
| Framing.ShortReadOnlyFailsWithoutRetry | frontend.py:62-64 | A short read of a whole, decodable frame makes the single-read frontend report an unexpected EOF, while the retrying one returns the message. |
| Framing.Reader.constructor | ja/frontend.py:23-24 | A fresh reader starts at the beginning of the stream. |
| Framing.Reader.Read | ja/frontend.py:61-66 | `read(n)` returns the next bytes of the stream, no more than asked for, and advances past them. |
| JaFrontend.Frontend.constructor | ja/frontend.py:23-25 | A frontend wraps a reader and has recorded no undecodable payloads. |
| JaFrontend.Frontend.ReadSize | ja/frontend.py:46-59 | The byte-by-byte prefix loop computes `ReadPrefix` of the stream and leaves the reader where it says. |
| JaFrontend.Frontend.ReadPayload | ja/frontend.py:61-66 | The retry loop reads exactly `size` bytes when that many remain. Otherwise it reads to EOF and returns fewer. Either way it returns the next bytes of the stream. |
| JaFrontend.Frontend.Next | ja/frontend.py:45-75 | One call returns what `NextRetrying` prescribes, leaves the reader where it says, and records the undecodable payloads it skipped. |
| LegacyFrontend.Frontend.constructor | frontend.py:24-26 | A frontend wraps a reader and has recorded no undecodable payloads. |
| LegacyFrontend.Frontend.ReadSize | frontend.py:47-60 | The prefix loop computes `ReadPrefix` of the stream and leaves the reader where it says. |
| LegacyFrontend.Frontend.Next | frontend.py:46-70 | One call returns what `NextSingleRead` prescribes for the reader's read size, and records the undecodable payloads. |
| Ansi.Scan | ja/native.py:35-37 | Cuts a string into characters and escape sequences that render back to exactly the string. Every escape piece is a well-formed sequence of the given syntax. |
| Ansi.ScanLeftmost | ja/native.py:35-37 | (unfolding step) Matching is leftmost: where a match starts, the scan is that match followed by the scan of the rest; where none starts, it is the first character, even an ESC, followed by the scan of the rest. |
| Ansi.MatchLengthUnique | ja/native.py:35 | A prefix of a string is a complete escape sequence exactly when it is the match found at the start, so no match starts exactly when no prefix is an escape sequence. |
| Ansi.StripNoMatch | ja/native.py:35-37 | Where no match starts, the first character is kept and stripping goes on after it. |
| Ansi.StripKeepsOpenEscape | ja/native.py:35-37 | An ESC not followed by `[`, or after which no letter ever closes the sequence, is kept by `strip_ansi_escape_codes`. |
| Ansi.StripRemovesOnlyEscapes | ja/native.py:35-37 | Stripping removes escape sequences and nothing else: the string is a rendering of pieces whose visible characters are the stripped text. |
| Ansi.StripPlainText | ja/native.py:35-37 | A string without ESC is left unchanged. |
| Ansi.StripPlainThen | ja/native.py:35-37 | Stripping passes an ESC-free front through and strips the rest. |
| Ansi.StripEscapeThen | ja/native.py:35-37 | A leading escape sequence is removed whole. |
| Ansi.RenderLength | ja/native.py:264-268 | A rendered string is as long as its visible text plus all its escape sequences. |
| Ansi.FoundAnchored | ja/native.py:264-268 | An escape's position in the original string exceeds its position in the stripped text by the lengths of the escapes before it, which is the subtraction the loop performs. |
| Ansi.AnchoredOrdered | ja/native.py:264-268 | The positions in the stripped text come in order, within the text, and carry the escapes in their original order. |
| Ansi.ShortenKeepsEnds | ja/native.py:261-270 | A status line too wide for the terminal keeps its first and last `(width - 1) // 2` visible characters around an ellipsis, and then fits. |
| Ansi.ShortenNarrow | ja/native.py:262-270 | With a width of 1 or 2 nothing is kept, and the ellipsis is put before the whole text. This follows Python's `s[-0:]`. |
| Ansi.RelocateMonotone | ja/native.py:272-280 | Moving escape positions into the shortened text keeps them in order. |
| Ansi.PlacedInOrder | ja/native.py:272-282 | Relocated and capped positions are ordered and lie within the shortened text. |
| Ansi.WeaveContents | ja/native.py:272-282 | Inserting escapes at ordered positions keeps the visible text and inserts exactly those escapes, in order. |
| Ansi.WeaveLength | ja/native.py:272-282 | The result is as long as the visible text plus the inserted escapes. |
| Ansi.WeaveInsert | ja/native.py:281-282 | Adding one more escape splices its code into the string at its position plus the lengths already inserted, as the source's slicing does. |
| Ansi.ElidedFits | ja/native.py:261 | A status line that fits is returned unchanged, escapes included. |
| Ansi.ElidedKeepsEscapes | ja/native.py:257-283 | An elided line shows the shortened visible text and keeps every escape sequence of the original, in order. |
| Ansi.EscapePositions | ja/native.py:264-268 | The loop over escape matches computes, for each escape, its position in the stripped text. |
| Ansi.Reinsert | ja/native.py:270-282 | The reinsertion loop computes the shortened text with the relocated escapes woven in. |
| Ansi.ElideMiddle | ja/native.py:257-283 | The method returns the elided status line. |
| Rate.Fresh | ja/native.py:18-21 | A new window is empty, holds no rate (-1), has no last hint (-1), and has the given capacity. |
| Rate.Updated | ja/native.py:23-33 | The window stays within its capacity, and the hint is remembered. A repeated hint changes nothing. A failing update, on an empty window of capacity 0, records the hint and changes nothing else, because the source sets `last_update` before the eviction that raises. Otherwise the latest time becomes the newest sample. |
| Rate.UpdatedTimes | ja/native.py:29-31 | The oldest sample is evicted exactly when the window is full, then the new time is appended. |
| Rate.WindowKeepsLatest | ja/native.py:23-31 | After any run of distinct hints, the window holds the last `capacity` times, and the last hint is remembered. |
| Rate.RateUnknownWhileConstant | ja/native.py:32-33 | While all samples are equal the rate stays unknown (-1). |
| Rate.RateOfRecentHistory | ja/native.py:32-33 | The rate is the number of samples per second over the window of the last `capacity` times. |
| Rate.TwoSamples | ja/native.py:23-33 | Two distinct hints at distinct times, in a window of capacity at least 2, give 2 samples over their span: 2000 / (t1 - t0) per second. Two seconds apart that is 1.0. |
| Rate.SlidingRateInfo.constructor | ja/native.py:18-21 | The object starts as a fresh window. |
| Rate.SlidingRateInfo.UpdateRate | ja/native.py:23-33 | The fields become the updated window. The call fails (the source's `IndexError`) exactly when the update fails. |
| Printer.Initial | ja/native.py:289-306 | A new printer has the given terminal smartness, is at a blank line, unlocked, with a `Full` line type, empty line and output buffers, and nothing written. |
| Printer.PrintLineStep | ja/native.py:317-351 | `print_line` writes the line, elided with clear-to-end-of-line on a smart terminal for a status line. While locked it also keeps the line in the line buffer. It never touches the output buffer. The line type is recorded unless the console is locked, and the printer stays at a blank line only if it was at one and the line was not elided on a smart terminal. |
| Printer.PrintOrBufferStep | ja/native.py:353-358 | Output is buffered while locked and written otherwise. The lock, the line buffer, the blank-line flag and the line type stay as they were. |
| Printer.PrintOnNewLineStep | ja/native.py:360-368 | Unlocked, it writes a newline only if the caret is not at a blank line, then the text. Locked, it writes nothing and buffers the pending line, its newline, the separating newline and the text. Unlocked, only a pending line moves to the output buffer. It records whether the text starts a blank line and keeps the line type. |
| Printer.SetConsoleLockedStep | ja/native.py:370-384 | The lock takes the requested state. Standard output only grows. Unlocking leaves both buffers empty. |
| Printer.LockIdempotent | ja/native.py:371-372 | (unfolding step) Setting the lock to its current state changes nothing. |
| Printer.LockStartsFreshLine | ja/native.py:374-375 | Locking ends the current line and writes one blank line. |
| Printer.UnlockFlushesOutputOnly | ja/native.py:377-384 | Unlocking writes the held-back output on a new line and nothing more. The last line printed while locked is not printed again, because `print_on_new_line` has already moved it into the buffer that is then cleared. |
| Printer.WritesThroughWhileLocked | ja/native.py:317-351 | While locked, `print_line` writes exactly what it would write unlocked, and also keeps the line. |
| Printer.StdoutOnlyGrows | ja/native.py:317-368 | No printer operation takes back anything already written. |
| Printer.LinePrinter.constructor | ja/native.py:289-306 | The object starts in the initial state. |
| Printer.LinePrinter.PrintLine | ja/native.py:317-351 | The fields become `PrintLineStep` of the old fields. |
| Printer.LinePrinter.PrintOrBuffer | ja/native.py:353-358 | The fields become `PrintOrBufferStep` of the old fields. |
| Printer.LinePrinter.PrintOnNewLine | ja/native.py:360-368 | The fields become `PrintOnNewLineStep` of the old fields. |
| Printer.LinePrinter.SetConsoleLocked | ja/native.py:370-384 | The fields become `SetConsoleLockedStep` of the old fields. |
| Native.Lookup | ja/native.py:109 | A running edge is found exactly when its id is registered. |
| Native.Assign | ja/native.py:96 | Registering an edge adds its id, or keeps the ids when it is already there. |
| Native.Remove | ja/native.py:118 | Removing an edge drops its id and adds none. |
| Native.FirstIndex | ja/native.py:109-118 | The position of the first entry with a given id, or the length of the registry when there is none: every earlier entry has another id. |
| Native.FirstIndexFound | ja/native.py:109-118 | The first-entry position is inside the registry exactly when the id is registered. |
| Native.RemoveKeepsOrder | ja/native.py:118-155 | `del` keeps insertion order: removing an absent id leaves the registry as it was, and removing a present one cuts out exactly its first entry, so the first entry (the one the status line shows) is the oldest edge still running. |
| Native.LookupAssign | ja/native.py:96-109 | After registering, the edge is found under its id, and every other id is unaffected. |
| Native.LookupRemove | ja/native.py:109-118 | After removal the edge is no longer found, and every other id is unaffected. |
| Native.RemoveAssign | ja/native.py:96-118 | Registering a new edge and then removing it restores the registry. |
| Native.AssignKeepsUnique | ja/native.py:96 | Registering keeps every id registered at most once. |
| Native.RemoveKeepsUnique | ja/native.py:118 | Removing keeps every id registered at most once. |
| Native.Initial | ja/native.py:40-55 | A new frontend has no running edges, zero counters and time, no last started edge, is not verbose, uses `NINJA_STATUS` when set and ` ETA: %a ` otherwise, keeps a fresh 32-sample rate window, and starts with a new printer of the given smartness. |
| Native.Seconds3 | ja/native.py:217-218 | Elapsed seconds are shown with exactly three decimals. |
| Native.Millis | ja/native.py:217-218 | The three decimals are three digits whose value is the milliseconds below a second. |
| Native.Seconds3Fields | ja/native.py:217-218 | The digits before the point read back as `ms // 1000` and the three after it as `ms % 1000`. |
| Native.RoundHalfEven | ja/native.py:232 | Python's `round(a / b)`: the nearest integer, with ties to the even one. |
| Native.Placeholder | ja/native.py:189-228 | Expanding a placeholder changes no state except the rate window, which only `%c` touches. Any failure is one the status line can raise. |
| Native.CounterPlaceholders | ja/native.py:193-202 | `%s`, `%t` and `%f` show the started, total and finished edge counts as decimal numerals that read back to those counts. |
| Native.RunningPlaceholders | ja/native.py:191-200 | `%%` is a percent sign. `%r` shows the running edges and `%u` the edges not yet started, as signed decimal numerals that read back to those numbers. |
| Native.PercentPlaceholder | ja/native.py:215-216 | `%p` is the finished percentage, rounded down, right-aligned to three characters, then `%`; with the padding stripped the digits read back to the percentage. |
| Native.UnknownPlaceholderFails | ja/native.py:227-228 | (unfolding step) Any other placeholder letter is an error. |
| Native.ExpandFrom | ja/native.py:185-230 | Expansion only appends to the text so far, and its state changes only in the rate window. |
| Native.ExpandLiteral | ja/native.py:185-230 | A template without `%` is copied unchanged and changes nothing. |
| Native.FormatProgressStatusStep | ja/native.py:185-236 | With no edges the status cannot be computed. With a single edge it is empty. Only the rate window changes. |
| Native.NoEdgesNoStatus | ja/native.py:232 | With a total of zero edges the status fails, as the source's division by zero does. |
| Native.StatusShowsPaddedText | ja/native.py:185-236 | With at least two edges, the status succeeds exactly when the template expands, and an expansion without escapes shows as that expansion padded to at least 17 characters between the two bar ends. |
| Native.BarShowsStatus | ja/native.py:231-236 | Without escapes, the bar shows exactly the padded status between the two bar ends, whatever fraction is highlighted. |
| Native.HashNumber | ja/native.py:240-245 | The colour index is below 10, and it is 0 for a description with fewer than three words. |
| Native.Colourise | ja/native.py:246-248 | Colouring a description adds only escape sequences: stripping them gives the description back. |
| Native.EdgeText | ja/native.py:249-250 | A verbose build shows the command, and otherwise the coloured description. |
| Native.PrintStatusStep | ja/native.py:238-254 | Printing a status line changes only the rate window and the printer. Output only grows, and the lock is untouched. |
| Native.BuildStartedStep | ja/native.py:64-71 | A build start resets the counters and the registry and keeps the total and the printer. |
| Native.Duration | ja/native.py:77-85 | The build duration always ends in `s`. |
| Native.DurationFields | ja/native.py:77-85 | The duration reads back to its parts. With hours, the numbers before `h`, `m` and `s` are the hours, the minutes within the hour and the seconds within the minute. Without hours but with minutes there is no `h`, and the same holds for `m` and `s`. Otherwise there is neither `h` nor `m`, and the number before the point is the seconds and the three digits after it the milliseconds. |
| Native.BuildFinishedStep | ja/native.py:73-90 | A build finish unlocks the console, keeps the registry and only appends output. |
| Native.ShowStartedStep | ja/native.py:99-102 | A console edge locks the console. A non-console edge on a dumb terminal changes nothing. |
| Native.EdgeStartedStep | ja/native.py:92-102 | A start registers the edge, counts it as started and running, remembers it as the last started edge, and sets the time. |
| Native.ShowOutput | ja/native.py:120-150 | Printing an edge's output touches only the printer. A successful edge with no output prints nothing. |
| Native.Unregister | ja/native.py:117-118 | A finished edge leaves the registry and the running count. |
| Native.AnnounceStep | ja/native.py:111-115 | A finished console edge unlocks the console. |
| Native.ResumeStep | ja/native.py:152-159 | After a failure, or with nothing running, nothing is redrawn. The result is whether the edge failed. |
| Native.FinishStartedStep | ja/native.py:111-159 | When no exception is raised, a known finished edge is removed and reported as failed exactly when its status is non-zero. Whatever happens, the registry is either unchanged or has exactly that edge removed: an exception from the status line at ja/native.py:114-115 comes before `del`, one from the redraw at ja/native.py:157 after it. |
| Native.EdgeFinishedStep | ja/native.py:104-159 | A finish always counts the edge and sets the time. An unknown id is the source's `KeyError` and changes nothing else. Otherwise, when no exception is raised, the edge is removed and its failure reported. With an exception, the registry is either unchanged or has exactly that edge removed, depending on whether the exception came before `del` (ja/native.py:114-115, for example `ZeroDivisionError` with no total) or after it (ja/native.py:157). |
| Native.MessageStep | ja/native.py:161-177 | A log message leaves the registry, the rate window and the edge counters alone, and only appends output. It fails exactly for an unknown level, and an error-level message reports failure. |
| Native.Prelude | ja/native.py:60-90 | The total-edges, build-started and build-finished fields set the total, reset the registry, or keep it. |
| Native.StartedField | ja/native.py:92-102 | An edge-started field keeps ids unique and the counters consistent. |
| Native.FinishedField | ja/native.py:104-159 | An edge-finished field reports failure exactly when the edge failed. |
| Native.MessageField | ja/native.py:161-177 | A message field leaves the registry alone and reports failure exactly for an error. |
| Native.LaterFields | ja/native.py:92-182 | The result is whether an edge failed or an error was logged. |
| Native.HandleStep | ja/native.py:57-182 | Handling a message only appends output and keeps ids unique. When no exception is raised, it keeps the counters consistent and its result is whether anything failed. An exception leaves the state as far as `handle` got, so the counter invariant holds only for messages handled without error (`finished_edges` is counted before the `KeyError` of an unknown id). |
| Native.EmptyMessage | ja/native.py:57-182 | (unfolding step) A message with no fields changes nothing and reports no failure. |
| Native.NinjaNativeFrontend.constructor | ja/native.py:40-55 | The object starts in `Initial`. |
| Native.NinjaNativeFrontend.RateText | ja/native.py:209-214 | `%c` on the object does what `Placeholder` prescribes, updating the shared rate window in place. |
| Native.NinjaNativeFrontend.ExpandPlaceholder | ja/native.py:189-228 | One placeholder expanded on the object. |
| Native.NinjaNativeFrontend.FormatProgressStatus | ja/native.py:185-236 | The template loop computes `FormatProgressStatusStep` and leaves the object in its new state. |
| Native.NinjaNativeFrontend.PrintStatus | ja/native.py:238-254 | The object's fields become `PrintStatusStep` of the old ones. |
| Native.NinjaNativeFrontend.BuildFinished | ja/native.py:73-90 | The fields become `BuildFinishedStep` of the old ones. |
| Native.NinjaNativeFrontend.ShowStarted | ja/native.py:99-102 | The fields become `ShowStartedStep` of the old ones. |
| Native.NinjaNativeFrontend.EdgeStarted | ja/native.py:92-102 | The fields become `EdgeStartedStep` of the old ones. |
| Native.NinjaNativeFrontend.EdgeFinished | ja/native.py:104-159 | The fields become `EdgeFinishedStep` of the old ones. |
| Native.NinjaNativeFrontend.FinishStarted | ja/native.py:111-159 | The fields become `FinishStartedStep` of the old ones. |
| Native.NinjaNativeFrontend.Retire | ja/native.py:117-118 | The fields become `Unregister` of the old ones. |
| Native.NinjaNativeFrontend.Announce | ja/native.py:111-115 | The fields become `AnnounceStep` of the old ones. |
| Native.NinjaNativeFrontend.Resume | ja/native.py:152-159 | The fields become `ResumeStep` of the old ones. |
| Native.NinjaNativeFrontend.PrintOutput | ja/native.py:120-150 | The fields become `ShowOutput` of the old ones. |
| Native.NinjaNativeFrontend.Message | ja/native.py:161-177 | The fields become `MessageStep` of the old ones. |
| Native.NinjaNativeFrontend.HandlePrelude | ja/native.py:60-90 | The fields become `Prelude` of the old ones. |
| Native.NinjaNativeFrontend.HandleLater | ja/native.py:92-182 | The fields become `LaterFields` of the old ones. |
| Native.NinjaNativeFrontend.Handle | ja/native.py:57-182 | The fields become `HandleStep` of the old ones, so every property proved of `HandleStep` holds of the object. |
| CMake.StatusColour | ja/cmake.py:26-30 | Success words are green, failure words red, anything else blue. |
| CMake.Result | ja/cmake.py:21-25 | The status after a check line is drawn from the text after that line, and is no longer than it. |
| CMake.NextColour | ja/cmake.py:37-49 | The colour of a line is always one of the line colours. |
| CMake.IndentedKeepsColour | ja/cmake.py:37-39 | Blank and indented lines keep the previous colour. |
| CMake.ArrowedUncoloured | ja/cmake.py:39-43 | A `-- ` line is not coloured. |
| CMake.ErrorsRed | ja/cmake.py:45-46 | `CMake Error` and `Failed to ` lines are red. |
| CMake.WarningsYellow | ja/cmake.py:47-49 | `CMake Warning ` and `Could NOT ` lines are yellow. |
| CMake.OtherLinesPlain | ja/cmake.py:39-49 | Every other non-indented line is uncoloured. |
| CMake.Step | ja/cmake.py:20-58 | One loop iteration keeps the colour a line colour. |
| CMake.Feed | ja/cmake.py:16-58 | The colour after any sequence of lines is a line colour. |
| CMake.LastSeparator | ja/cmake.py:52-56 | `front`, `: ` and `back` make up the line again, neither half holds an escape, and `back` holds no `: `: it is the text after the last separator. |
| CMake.EmphasisedText | ja/cmake.py:52-58 | Emphasising the text after the last `: ` only adds escape sequences: stripping them gives the line back. |
| CMake.StatusText | ja/cmake.py:31 | The coloured status shows `: `, the status and a newline, once escapes are stripped. |
| CMake.StepText | ja/cmake.py:20-58 | Once escapes are stripped, what one iteration prints is the plain rendering of the line: the status after a check line, or else a pending newline, the rstripped line with `▸` and `•` substituted. |
| CMake.CheckThenResult | ja/cmake.py:20-41 | A check line printed and then repeated with a result shows the result on the same line. |
| CMake.ColourLine | ja/cmake.py:20-58 | The loop body computes `Step`: the new previous line and colour, and the text printed. |
| CMake.ColouriseOutput | ja/cmake.py:16-61 | The loop over all lines prints what `Output` prescribes, ending with the pending newline. |
| Strings.NatToStringValue | ja/native.py:193-202 | `str(n)` of a natural number is a numeral that reads back to `n`, with no leading zero. |
| Strings.IntToStringValue | ja/native.py:197-200 | `str(i)` of any integer reads back to `i`, with a minus sign for a negative one. |
| Strings.PadLeftNumeral | ja/native.py:215-216 | Left-padding a numeral with spaces and stripping them again gives the numeral back. |
| Strings.RStrip | ja/cmake.py:34 | `rstrip` removes exactly the trailing white space. |
| Strings.SplitOn | ja/cmake.py:52 | `split` gives one piece exactly when the separator does not occur, and no piece contains the separator. |
| Strings.BeforeFirstFree | ja/cmake.py:52 | The text before the first occurrence of the separator contains no occurrence of it. |
| Strings.JoinSplit | ja/cmake.py:52-53 | Joining the pieces of a split with the separator gives back the string. |
| Strings.JoinInit | ja/cmake.py:53-54 | The front joined with the separator and the back is the whole line. |
| Strings.PadRight | ja/native.py:231 | `'{:17}'` pads on the right to at least 17 characters and keeps the text. |

## Left out

- Foreign routines are parameters of the model and are not modelled. These are adler32 (the hash behind the description colour), `click.style` (the bold coloured log messages), `'{:.1f}'` formatting and `humanize.naturaldelta` (`Foreign`), and `ninja.Status.FromString` (`decode`).
- Native.RoundHalfEven: computes Python's `round(a / b)` exactly on integers. The source divides in floating point first, so it can differ for quotients not exactly representable as floats.
- Rate.SampleRate: uses exact reals, not floating point.
- Native.Seconds3: models `'{:.3f}'` of a whole number of milliseconds. The protobuf times are integers in milliseconds.
- Terminal queries are left out: `isatty`, `TERM`, the `ioctl` and `os.get_terminal_size` width, and the Windows console branches of `LinePrinter.__init__` and `print_line`. Smartness and `cols` are parameters.
- `NinjaNativeFrontend.console_locked` is never used by the source and is not modelled.
- Strings.IsSpace: the fixed set of characters Python's `str.isspace` accepts, with no Unicode database behind it.
- ja/__init__.py, server.py, test.py and setup.py are not part of this model, nor are the protobuf schema, the default stdin reader and the command-line driver.
- `run_cmake` starts a subprocess, logs the command line, reads standard output as UTF-8 text and returns the exit code. Only the recolouring of the lines is modelled, with the lines as a sequence of strings. The verbose branch, which passes output straight through, is not modelled.
- A payload that does not decode makes `next` call itself (ja/frontend.py:73-75, frontend.py:68-70). Python stops that after about a thousand undecodable frames in a row with a `RecursionError`. The model recurses without bound.
- The overlong-prefix error (ja/frontend.py:59, frontend.py:60) and frontend.py's short-read error (frontend.py:64) raise a bare string. In Python 3 that raises a `TypeError` instead, so the message never reaches the caller. The model keeps the error the code means (`NotVarint32`, `UnexpectedEof`).
- Native.Placeholder: `%o` and `%a` hand the foreign formatters exact rationals, where the source computes them in floating point (ja/native.py:203-208, 219-226).
- Framing.Reader: a short read is modelled by a fixed maximum `burst` per read. Real pipes deliver varying amounts, which is not captured.
- Where the documented behaviour disagrees with the code, the model follows the code:
  - EOF inside a length prefix ends iteration quietly (`StopIteration`, ja/frontend.py:49-51).
  - `print_line` writes the line even while the console is locked.
  - `set_console_locked(False)` never reprints the line buffer, since `print_on_new_line` has just emptied it.
  - The rate is the number of retained samples per second of their span (ja/native.py:32-33). The documented behaviour counts intervals instead, as (samples - 1) per second, and gives 0.5 for two samples 2000 ms apart; the code gives 1.0.
  - A template ending in a lone `%` is an error (`DanglingPercent`), as the source's `next(fmt_iter)` raises `StopIteration` there (ja/native.py:190).
- `elide_middle` with an even width keeps one visible character fewer than fits, because it keeps `(width - 1) // 2` on each side. The model keeps that behaviour as written.

=== FILE: ansi.dfy ===
/**
 * ANSI escape handling of ja/native.py: the two regular expressions
 * (`strip_ansi_re`, `\x1B\[[^a-zA-Z]*[a-zA-Z]`, and `ansi_escape`,
 * `\x1b[^m]*m`) written as a scanner that cuts a string into visible
 * characters and escape sequences, `strip_ansi_escape_codes`, and
 * `elide_middle`, which shortens a status line in the middle and puts every
 * escape sequence back.
 */
module Ansi {
  import opened Wrappers
  import opened Seqs

  const Esc: char := '\U{1B}'
  const Ellipsis: char := '\U{2026}'

  /** A string seen as visible characters and escape sequences. */
  datatype Piece = Text(c: char) | Escape(code: string)

  /** The characters a piece stands for in the rendered string. */
  function Show(p: Piece): string {
    match p
    case Text(c) => [c]
    case Escape(e) => e
  }

  function Render(ps: seq<Piece>): string {
    if ps == [] then [] else Show(ps[0]) + Render(ps[1..])
  }

  /** What a piece contributes to the visible text. */
  function Seen(p: Piece): string {
    match p
    case Text(c) => [c]
    case Escape(_) => []
  }

  /** What a piece contributes to the escape sequences. */
  function Code(p: Piece): seq<string> {
    match p
    case Text(_) => []
    case Escape(e) => [e]
  }

  /** The visible characters, in order. */
  function Visible(ps: seq<Piece>): string {
    if ps == [] then [] else Seen(ps[0]) + Visible(ps[1..])
  }

  /** The escape sequences, in order. */
  function Codes(ps: seq<Piece>): seq<string> {
    if ps == [] then [] else Code(ps[0]) + Codes(ps[1..])
  }

  function Texts(s: string): (ps: seq<Piece>)
    ensures |ps| == |s|
  {
    if s == [] then [] else [Text(s[0])] + Texts(s[1..])
  }

  function SumLen(codes: seq<string>): nat {
    if codes == [] then 0 else |codes[0]| + SumLen(codes[1..])
  }

  lemma {:induction false} RenderConcat(a: seq<Piece>, b: seq<Piece>)
    ensures Render(a + b) == Render(a) + Render(b)
  {
    if a == [] {
      assert a + b == b;
    } else {
      var ab := a + b;
      assert ab[0] == a[0] && ab[1..] == a[1..] + b;
      RenderConcat(a[1..], b);
      var x, y, z := Show(a[0]), Render(a[1..]), Render(b);
      assert Render(ab) == x + (y + z);
      assert Render(a) == x + y;
      assert x + (y + z) == (x + y) + z;
    }
  }

  lemma {:induction false} VisibleConcat(a: seq<Piece>, b: seq<Piece>)
    ensures Visible(a + b) == Visible(a) + Visible(b)
  {
    if a == [] {
      assert a + b == b;
    } else {
      var ab := a + b;
      assert ab[0] == a[0] && ab[1..] == a[1..] + b;
      VisibleConcat(a[1..], b);
      var x, y, z := Seen(a[0]), Visible(a[1..]), Visible(b);
      assert Visible(ab) == x + (y + z);
      assert Visible(a) == x + y;
      assert x + (y + z) == (x + y) + z;
    }
  }

  lemma {:induction false} CodesConcat(a: seq<Piece>, b: seq<Piece>)
    ensures Codes(a + b) == Codes(a) + Codes(b)
  {
    if a == [] {
      assert a + b == b;
    } else {
      var ab := a + b;
      assert ab[0] == a[0] && ab[1..] == a[1..] + b;
      CodesConcat(a[1..], b);
      var x, y, z := Code(a[0]), Codes(a[1..]), Codes(b);
      assert Codes(ab) == x + (y + z);
      assert Codes(a) == x + y;
      assert x + (y + z) == (x + y) + z;
    }
  }

  lemma ConcatPieces(a: seq<Piece>, b: seq<Piece>)
    ensures Render(a + b) == Render(a) + Render(b)
    ensures Visible(a + b) == Visible(a) + Visible(b)
    ensures Codes(a + b) == Codes(a) + Codes(b)
  {
    RenderConcat(a, b);
    VisibleConcat(a, b);
    CodesConcat(a, b);
  }

  lemma {:induction false} TextsOnly(s: string)
    ensures Render(Texts(s)) == s && Visible(Texts(s)) == s && Codes(Texts(s)) == []
  {
    if s != [] {
      TextsOnly(s[1..]);
    }
  }

  lemma {:induction false} SumLenAppend(a: seq<string>, b: seq<string>)
    ensures SumLen(a + b) == SumLen(a) + SumLen(b)
  {
    if a == [] {
      assert a + b == b;
    } else {
      SumLenAppend(a[1..], b);
      assert (a + b)[1..] == a[1..] + b;
    }
  }

  /** The rendered length: visible characters plus escape bytes. */
  lemma {:induction false} RenderLength(ps: seq<Piece>)
    ensures |Render(ps)| == |Visible(ps)| + SumLen(Codes(ps))
  {
    if ps != [] {
      RenderLength(ps[1..]);
      match ps[0]
      case Text(c) =>
        assert Render(ps) == [c] + Render(ps[1..]);
        assert Visible(ps) == [c] + Visible(ps[1..]);
        assert Codes(ps) == Codes(ps[1..]);
      case Escape(e) =>
        assert Render(ps) == e + Render(ps[1..]);
        assert Visible(ps) == Visible(ps[1..]);
        assert Codes(ps) == [e] + Codes(ps[1..]);
    }
  }

  // ---------------------------------------------------------------------------
  // The two escape syntaxes

  datatype Syntax =
    | Csi   // `\x1B\[[^a-zA-Z]*[a-zA-Z]`, used by strip_ansi_escape_codes
    | Sgr   // `\x1b[^m]*m`, used by elide_middle

  predicate IsLetter(c: char) {
    'a' <= c <= 'z' || 'A' <= c <= 'Z'
  }

  /** The character that closes an escape of the syntax. */
  predicate Closes(c: char, syn: Syntax) {
    match syn
    case Csi => IsLetter(c)
    case Sgr => c == 'm'
  }

  /** Where the escape's body starts: after `ESC [` or after `ESC`. */
  function BodyStart(syn: Syntax): nat {
    match syn
    case Csi => 2
    case Sgr => 1
  }

  /** The first index at or after `from` holding a closing character. */
  function CloserFrom(s: string, from: nat, syn: Syntax): (r: Option<nat>)
    ensures r.Some? ==> from <= r.value < |s| && Closes(s[r.value], syn)
    ensures r.Some? ==> forall k :: from <= k < r.value ==> !Closes(s[k], syn)
    ensures r.None? ==> forall k :: from <= k < |s| ==> !Closes(s[k], syn)
    decreases |s| - from
  {
    if from >= |s| then None
    else if Closes(s[from], syn) then Some(from)
    else CloserFrom(s, from + 1, syn)
  }

  /** A complete escape sequence of the syntax, as the regular expression matches it. */
  predicate IsEscape(code: string, syn: Syntax) {
    && |code| > BodyStart(syn)
    && code[0] == Esc
    && (syn == Csi ==> code[1] == '[')
    && Closes(code[|code| - 1], syn)
    && forall k :: BodyStart(syn) <= k < |code| - 1 ==> !Closes(code[k], syn)
  }

  /** The length of the match starting at `s[0]`, or 0 when none starts there. */
  function MatchLength(s: string, syn: Syntax): (n: nat)
    ensures n <= |s|
    ensures n > 0 ==> IsEscape(s[..n], syn)
  {
    if |s| < BodyStart(syn) || s[0] != Esc || (syn == Csi && s[1] != '[') then 0
    else
      match CloserFrom(s, BodyStart(syn), syn)
      case Some(j) => j + 1
      case None => 0
  }

  /** Every escape piece is a complete escape sequence of the syntax. */
  predicate AllEscapes(ps: seq<Piece>, syn: Syntax) {
    ps != [] ==> (ps[0].Escape? ==> IsEscape(ps[0].code, syn)) && AllEscapes(ps[1..], syn)
  }

  /** One more piece in front. */
  lemma PrependPiece(p: Piece, rest: seq<Piece>, syn: Syntax)
    ensures Render([p] + rest) == Show(p) + Render(rest)
    ensures AllEscapes([p] + rest, syn) == ((p.Escape? ==> IsEscape(p.code, syn)) && AllEscapes(rest, syn))
  {
    var ps := [p] + rest;
    assert ps[0] == p && ps[1..] == rest;
  }

  /**
   * The regular expression applied left to right: the string cut into
   * escapes (each a leftmost match) and the characters between them.
   */
  function Scan(s: string, syn: Syntax): (ps: seq<Piece>)
    ensures Render(ps) == s
    ensures AllEscapes(ps, syn)
    decreases |s|
  {
    if s == [] then []
    else
      var n := MatchLength(s, syn);
      if n > 0 then
        var rest := Scan(s[n..], syn);
        ScanEscape(s, n, rest, syn);
        [Escape(s[..n])] + rest
      else
        var rest := Scan(s[1..], syn);
        ScanChar(s, rest, syn);
        [Text(s[0])] + rest
  }

  /**
   * The scan matches leftmost: where a match starts, the first piece is
   * that match; where none starts, the first piece is the first character.
   */
  lemma ScanLeftmost(s: string, syn: Syntax)
    requires s != []
    ensures var n := MatchLength(s, syn);
      && (n > 0 ==> Scan(s, syn) == [Escape(s[..n])] + Scan(s[n..], syn))
      && (n == 0 ==> Scan(s, syn) == [Text(s[0])] + Scan(s[1..], syn))
  {
  }

  /** An escape in front of the scan of what follows it. */
  lemma ScanEscape(s: string, n: nat, rest: seq<Piece>, syn: Syntax)
    requires 0 < n <= |s| && IsEscape(s[..n], syn)
    requires Render(rest) == s[n..] && AllEscapes(rest, syn)
    ensures Render([Escape(s[..n])] + rest) == s && AllEscapes([Escape(s[..n])] + rest, syn)
  {
    PrependPiece(Escape(s[..n]), rest, syn);
    SplitAt(s, n);
  }

  /** A visible character in front of the scan of what follows it. */
  lemma ScanChar(s: string, rest: seq<Piece>, syn: Syntax)
    requires s != [] && Render(rest) == s[1..] && AllEscapes(rest, syn)
    ensures Render([Text(s[0])] + rest) == s && AllEscapes([Text(s[0])] + rest, syn)
  {
    PrependPiece(Text(s[0]), rest, syn);
    HeadCons(s);
  }

  /** `re.sub(pattern, '', s)`: the visible characters of `s`. */
  function Strip(s: string, syn: Syntax): string {
    Visible(Scan(s, syn))
  }

  /** `strip_ansi_escape_codes`. */
  function StripAnsiEscapeCodes(s: string): string {
    Strip(s, Csi)
  }

  /**
   * Stripping deletes complete escape sequences and nothing else: `s` is
   * the stripped text with escape sequences interleaved.
   */
  lemma StripRemovesOnlyEscapes(s: string, syn: Syntax)
    ensures exists ps: seq<Piece> :: Render(ps) == s && Visible(ps) == Strip(s, syn)
                      && AllEscapes(ps, syn)
  {
    var ps := Scan(s, syn);
    assert Render(ps) == s && Visible(ps) == Strip(s, syn);
  }

  /** Text without an ESC character is left as it is. */
  lemma {:induction false} StripPlainText(s: string, syn: Syntax)
    requires Esc !in s
    ensures Strip(s, syn) == s
    decreases |s|
  {
    if s != [] {
      assert MatchLength(s, syn) == 0;
      StripPlainText(s[1..], syn);
    }
  }

  /**
   * A string where no match starts keeps its first character, even when
   * that character is an ESC that opens no complete escape sequence.
   */
  lemma StripNoMatch(s: string, syn: Syntax)
    requires s != [] && MatchLength(s, syn) == 0
    ensures Strip(s, syn) == [s[0]] + Strip(s[1..], syn)
  {
    var rest := Scan(s[1..], syn);
    var ps := [Text(s[0])] + rest;
    assert Scan(s, syn) == ps;
    assert ps[0] == Text(s[0]) && ps[1..] == rest;
  }

  /**
   * An ESC that is not followed by `[`, or after which no letter ever
   * closes the sequence, is kept by `strip_ansi_escape_codes`.
   */
  lemma StripKeepsOpenEscape(s: string)
    requires s != [] && s[0] == Esc
    requires |s| < 2 || s[1] != '[' || forall k :: 2 <= k < |s| ==> !IsLetter(s[k])
    ensures StripAnsiEscapeCodes(s) == [Esc] + StripAnsiEscapeCodes(s[1..])
  {
    assert MatchLength(s, Csi) == 0;
    StripNoMatch(s, Csi);
  }

  /** A string that does not start with ESC starts with a visible character. */
  lemma ScanText(s: string, syn: Syntax)
    requires s != [] && s[0] != Esc
    ensures Strip(s, syn) == [s[0]] + Strip(s[1..], syn)
  {
    StripNoMatch(s, syn);
  }

  /**
   * The match at the start of `s` is the only complete escape sequence
   * that `s` starts with: no prefix is one exactly when MatchLength is 0.
   */
  lemma MatchLengthUnique(s: string, syn: Syntax, n: nat)
    requires 0 < n <= |s|
    ensures IsEscape(s[..n], syn) <==> n == MatchLength(s, syn)
  {
    if IsEscape(s[..n], syn) {
      var e := s[..n];
      assert e[n - 1] == s[n - 1] && e[0] == s[0];
      assert BodyStart(syn) < n;
      assert syn == Csi ==> s[1] == e[1];
      forall k | BodyStart(syn) <= k < n - 1 ensures !Closes(s[k], syn) {
        assert s[k] == e[k];
      }
      CloserFromFinds(s, BodyStart(syn), n - 1, syn);
    }
  }

  /** Plain text in front of anything is kept as it is. */
  lemma {:induction false} StripPlainThen(a: string, b: string, syn: Syntax)
    requires Esc !in a
    ensures Strip(a + b, syn) == a + Strip(b, syn)
    decreases |a|
  {
    if a != [] {
      StripPlainThen(a[1..], b, syn);
      StripPlainStep(a, b, syn);
    } else {
      assert a + b == b;
    }
  }

  /** The step of StripPlainThen. */
  lemma StripPlainStep(a: string, b: string, syn: Syntax)
    requires a != [] && a[0] != Esc
    requires Strip(a[1..] + b, syn) == a[1..] + Strip(b, syn)
    ensures Strip(a + b, syn) == a + Strip(b, syn)
  {
    HeadTail(a, b);
    ScanText(a + b, syn);
    Assoc([a[0]], a[1..], Strip(b, syn));
    HeadCons(a);
  }

  /** The first closing character is found wherever the search starts before it. */
  lemma {:induction false} CloserFromFinds(s: string, from: nat, j: nat, syn: Syntax)
    requires from <= j < |s| && Closes(s[j], syn)
    requires forall k :: from <= k < j ==> !Closes(s[k], syn)
    ensures CloserFrom(s, from, syn) == Some(j)
    decreases j - from
  {
    if from < j {
      CloserFromFinds(s, from + 1, j, syn);
    }
  }

  /** A complete escape sequence in front of anything is deleted, and only it. */
  lemma StripEscapeThen(e: string, b: string, syn: Syntax)
    requires IsEscape(e, syn)
    ensures Strip(e + b, syn) == Strip(b, syn)
  {
    var s := e + b;
    assert s[..|e|] == e && s[|e|..] == b;
    CloserFromFinds(s, BodyStart(syn), |e| - 1, syn);
    assert MatchLength(s, syn) == |e|;
    var rest := Scan(b, syn);
    var ps := [Escape(e)] + rest;
    assert Scan(s, syn) == ps;
    assert ps[0] == Escape(e) && ps[1..] == rest;
    assert Visible(ps) == Visible(rest);
  }

  // ---------------------------------------------------------------------------
  // Where the escapes are

  /** An escape sequence and an index: into the rendered string, or into the visible text. */
  datatype Anchor = Anchor(at: nat, code: string)

  /** `ansi_escape.finditer(s)`: each escape with `m.start()`, its index in the rendered string. */
  function Found(ps: seq<Piece>, base: nat): (r: seq<Anchor>)
    ensures |r| == |Codes(ps)|
  {
    if ps == [] then []
    else match ps[0]
      case Text(_) => Found(ps[1..], base + 1)
      case Escape(e) => [Anchor(base, e)] + Found(ps[1..], base + |e|)
  }

  /** Each escape with the number of visible characters before it. */
  function Anchored(ps: seq<Piece>, base: nat): (r: seq<Anchor>)
    ensures |r| == |Codes(ps)|
  {
    if ps == [] then []
    else match ps[0]
      case Text(_) => Anchored(ps[1..], base + 1)
      case Escape(e) => [Anchor(base, e)] + Anchored(ps[1..], base)
  }

  function CodesOf(anchors: seq<Anchor>): seq<string> {
    seq(|anchors|, i requires 0 <= i < |anchors| => anchors[i].code)
  }

  /**
   * `m.start()` minus the lengths of the escapes before it is the escape's
   * visible index: what the first loop of elide_middle computes.
   */
  lemma {:induction false} FoundAnchored(ps: seq<Piece>, b1: nat, b2: nat, k: nat)
    requires k < |Codes(ps)|
    ensures Found(ps, b1)[k].code == Anchored(ps, b2)[k].code == Codes(ps)[k]
    ensures Found(ps, b1)[k].at - b1 == Anchored(ps, b2)[k].at - b2 + SumLen(Codes(ps)[..k])
  {
    match ps[0]
    case Text(_) =>
      assert Codes(ps) == Codes(ps[1..]);
      assert Found(ps, b1) == Found(ps[1..], b1 + 1);
      assert Anchored(ps, b2) == Anchored(ps[1..], b2 + 1);
      FoundAnchored(ps[1..], b1 + 1, b2 + 1, k);
    case Escape(e) =>
      var cs := Codes(ps[1..]);
      assert Codes(ps) == [e] + cs;
      var f, a := Found(ps[1..], b1 + |e|), Anchored(ps[1..], b2);
      assert Found(ps, b1) == [Anchor(b1, e)] + f;
      assert Anchored(ps, b2) == [Anchor(b2, e)] + a;
      if k > 0 {
        FoundAnchored(ps[1..], b1 + |e|, b2, k - 1);
        assert Found(ps, b1)[k] == f[k - 1] && Anchored(ps, b2)[k] == a[k - 1];
        var pre := Codes(ps)[..k];
        assert pre == [e] + cs[..k - 1];
        assert pre[0] == e && pre[1..] == cs[..k - 1];
        assert SumLen(pre) == |e| + SumLen(cs[..k - 1]);
      } else {
        assert Codes(ps)[..k] == [];
      }
  }

  /** Anchors in order, from `lo` on, none after `hi`. */
  predicate Ordered(anchors: seq<Anchor>, lo: nat, hi: nat) {
    lo <= hi && (anchors != [] ==> lo <= anchors[0].at <= hi && Ordered(anchors[1..], anchors[0].at, hi))
  }

  lemma OrderedLower(anchors: seq<Anchor>, lo: nat, lo': nat, hi: nat)
    requires lo <= lo' && Ordered(anchors, lo', hi)
    ensures Ordered(anchors, lo, hi)
  {
  }

  lemma {:induction false} OrderedPrefix(anchors: seq<Anchor>, lo: nat, hi: nat, i: nat)
    requires Ordered(anchors, lo, hi) && i <= |anchors|
    ensures Ordered(anchors[..i], lo, hi)
  {
    if i > 0 {
      OrderedPrefix(anchors[1..], anchors[0].at, hi, i - 1);
      assert anchors[..i][1..] == anchors[1..][..i - 1];
    }
  }

  lemma {:induction false} OrderedInit(anchors: seq<Anchor>, a: Anchor, lo: nat, hi: nat)
    requires Ordered(anchors + [a], lo, hi)
    ensures Ordered(anchors, lo, hi) && lo <= a.at <= hi
  {
    if anchors == [] {
      assert [a][1..] == [];
    } else {
      assert (anchors + [a])[1..] == anchors[1..] + [a];
      OrderedInit(anchors[1..], a, anchors[0].at, hi);
    }
  }

  lemma CodesOfCons(anchors: seq<Anchor>)
    requires anchors != []
    ensures CodesOf(anchors) == [anchors[0].code] + CodesOf(anchors[1..])
  {
    assert forall i :: 0 < i < |anchors| ==> CodesOf(anchors)[i] == CodesOf(anchors[1..])[i - 1];
  }

  lemma {:induction false} AnchoredCodes(ps: seq<Piece>, base: nat)
    ensures CodesOf(Anchored(ps, base)) == Codes(ps)
  {
    if ps != [] {
      match ps[0]
      case Text(c) =>
        AnchoredCodes(ps[1..], base + 1);
        assert Codes(ps) == Codes(ps[1..]);
        assert Anchored(ps, base) == Anchored(ps[1..], base + 1);
      case Escape(e) =>
        AnchoredCodes(ps[1..], base);
        var a := Anchored(ps, base);
        assert Codes(ps) == [e] + Codes(ps[1..]);
        assert a == [Anchor(base, e)] + Anchored(ps[1..], base);
        assert a[0].code == e && a[1..] == Anchored(ps[1..], base);
        CodesOfCons(a);
    }
  }

  lemma {:induction false} AnchoredInOrder(ps: seq<Piece>, base: nat)
    ensures Ordered(Anchored(ps, base), base, base + |Visible(ps)|)
  {
    if ps != [] {
      match ps[0]
      case Text(c) =>
        AnchoredInOrder(ps[1..], base + 1);
        assert |Visible(ps)| == 1 + |Visible(ps[1..])|;
        assert Anchored(ps, base) == Anchored(ps[1..], base + 1);
        OrderedLower(Anchored(ps, base), base, base + 1, base + |Visible(ps)|);
      case Escape(e) =>
        AnchoredInOrder(ps[1..], base);
        assert Visible(ps) == Visible(ps[1..]);
        assert Anchored(ps, base) == [Anchor(base, e)] + Anchored(ps[1..], base);
        ConsParts(Anchor(base, e), Anchored(ps[1..], base));
    }
  }

  /** The visible indices are in order, and the escapes are those of the pieces. */
  lemma AnchoredOrdered(ps: seq<Piece>, base: nat)
    ensures Ordered(Anchored(ps, base), base, base + |Visible(ps)|)
    ensures CodesOf(Anchored(ps, base)) == Codes(ps)
  {
    AnchoredInOrder(ps, base);
    AnchoredCodes(ps, base);
  }

  // ---------------------------------------------------------------------------
  // elide_middle

  /** Python's normalisation of a slice bound `i` on a string of length `n`. */
  function SliceBound(i: int, n: nat): (r: nat)
    ensures r <= n
  {
    if i < 0 then (if i + n < 0 then 0 else i + n) else if i > n then n else i
  }

  /** `s[a:b]`. */
  function PySlice(s: string, a: int, b: int): string {
    var lo, hi := SliceBound(a, |s|), SliceBound(b, |s|);
    if lo <= hi then s[lo..hi] else []
  }

  /** How many visible characters are kept on each side: `(width - margin) // 2`. */
  function Kept(width: nat): int {
    (width - 1) / 2
  }

  /** The visible text after elision: `stripped[0:e] + "…" + stripped[-e:]`. */
  function ShortenVisible(v: string, width: nat): string {
    var e := Kept(width);
    PySlice(v, 0, e) + [Ellipsis] + PySlice(v, -e, |v|)
  }

  /**
   * The index elide_middle gives an escape that stood before visible
   * character `pos` of an `n`-character line: unchanged in the kept head,
   * shifted by `n - width` in the tail, and moved up to `width - e` when it
   * fell in the elided middle.
   */
  function Relocate(pos: nat, n: nat, width: nat): (r: nat)
  {
    var e := Kept(width);
    if pos > e then
      var p := pos - (n - width);
      if p < width - e then width - e else p
    else pos
  }

  lemma RelocateMonotone(p: nat, q: nat, n: nat, width: nat)
    requires p <= q
    ensures Relocate(p, n, width) <= Relocate(q, n, width)
  {
  }

  /** Python's slice clamping: an index past the end means the end. */
  function Cap(p: nat, limit: nat): nat {
    if p > limit then limit else p
  }

  /** Each escape at its new visible index. */
  function Place(anchors: seq<Anchor>, n: nat, width: nat, limit: nat): (r: seq<Anchor>)
    ensures |r| == |anchors| && CodesOf(r) == CodesOf(anchors)
  {
    seq(|anchors|, i requires 0 <= i < |anchors| =>
      Anchor(Cap(Relocate(anchors[i].at, n, width), limit), anchors[i].code))
  }

  lemma {:induction false} PlaceOrdered(anchors: seq<Anchor>, lo: nat, n: nat, width: nat, limit: nat)
    requires Ordered(anchors, lo, n)
    ensures Ordered(Place(anchors, n, width, limit), Cap(Relocate(lo, n, width), limit), limit)
  {
    if anchors != [] {
      RelocateMonotone(lo, anchors[0].at, n, width);
      PlaceOrdered(anchors[1..], anchors[0].at, n, width, limit);
      assert Place(anchors, n, width, limit)[1..] == Place(anchors[1..], n, width, limit);
    }
  }

  /** The relocated escapes are in order and inside the shortened text. */
  lemma PlacedInOrder(anchors: seq<Anchor>, n: nat, width: nat, limit: nat)
    requires Ordered(anchors, 0, n)
    ensures Ordered(Place(anchors, n, width, limit), 0, limit)
  {
    PlaceOrdered(anchors, 0, n, width, limit);
    OrderedLower(Place(anchors, n, width, limit), 0, Cap(Relocate(0, n, width), limit), limit);
  }

  /**
   * The visible text `vis` with the escapes of `anchors` put in from
   * visible index `from` on: text up to the first anchor, its escape, and
   * so on.
   */
  function Weave(vis: string, anchors: seq<Anchor>, from: nat): seq<Piece>
    requires from <= |vis| && Ordered(anchors, from, |vis|)
    decreases |anchors|
  {
    if anchors == [] then Texts(vis[from..])
    else
      var a := anchors[0];
      Texts(vis[from..a.at]) + [Escape(a.code)] + Weave(vis, anchors[1..], a.at)
  }

  lemma WeaveRenderNil(vis: string, from: nat)
    requires from <= |vis|
    ensures Ordered([], from, |vis|) && Render(Weave(vis, [], from)) == vis[from..]
  {
    TextsOnly(vis[from..]);
  }

  /** A run of text followed by one escape. */
  lemma TextThenEscape(s: string, code: string)
    ensures Render(Texts(s) + [Escape(code)]) == s + code
    ensures Visible(Texts(s) + [Escape(code)]) == s
    ensures Codes(Texts(s) + [Escape(code)]) == [code]
  {
    var e := [Escape(code)];
    assert e[1..] == [];
    TextsOnly(s);
    ConcatPieces(Texts(s), e);
  }

  /** Weave unfolded once: the head piece list and the rest woven in behind it. */
  lemma WeaveCons(vis: string, anchors: seq<Anchor>, from: nat)
    requires from <= |vis| && Ordered(anchors, from, |vis|) && anchors != []
    ensures Ordered(anchors[1..], anchors[0].at, |vis|)
    ensures Weave(vis, anchors, from)
      == (Texts(vis[from..anchors[0].at]) + [Escape(anchors[0].code)]) + Weave(vis, anchors[1..], anchors[0].at)
  {
  }

  /** Text up to the first anchor, its escape, and the rest woven in behind it. */
  lemma WeaveRenderCons(vis: string, anchors: seq<Anchor>, from: nat)
    requires from <= |vis| && Ordered(anchors, from, |vis|) && anchors != []
    ensures Render(Weave(vis, anchors, from))
      == (vis[from..anchors[0].at] + anchors[0].code) + Render(Weave(vis, anchors[1..], anchors[0].at))
  {
    var a := anchors[0];
    WeaveCons(vis, anchors, from);
    TextThenEscape(vis[from..a.at], a.code);
    RenderConcat(Texts(vis[from..a.at]) + [Escape(a.code)], Weave(vis, anchors[1..], a.at));
  }

  lemma {:induction false} WeaveVisible(vis: string, anchors: seq<Anchor>, from: nat)
    requires from <= |vis| && Ordered(anchors, from, |vis|)
    ensures Visible(Weave(vis, anchors, from)) == vis[from..]
    decreases |anchors|
  {
    if anchors == [] {
      TextsOnly(vis[from..]);
    } else {
      WeaveCons(vis, anchors, from);
      WeaveVisible(vis, anchors[1..], anchors[0].at);
      WeaveVisibleCons(vis, anchors, from);
    }
  }

  /** The step of WeaveVisible. */
  lemma WeaveVisibleCons(vis: string, anchors: seq<Anchor>, from: nat)
    requires from <= |vis| && Ordered(anchors, from, |vis|) && anchors != []
    requires Ordered(anchors[1..], anchors[0].at, |vis|)
    requires Visible(Weave(vis, anchors[1..], anchors[0].at)) == vis[anchors[0].at..]
    ensures Visible(Weave(vis, anchors, from)) == vis[from..]
  {
    var a := anchors[0];
    var head, tail := Texts(vis[from..a.at]) + [Escape(a.code)], Weave(vis, anchors[1..], a.at);
    WeaveCons(vis, anchors, from);
    TextThenEscape(vis[from..a.at], a.code);
    VisibleConcat(head, tail);
    SliceSplit(vis, from, a.at);
  }

  lemma {:induction false} WeaveCodes(vis: string, anchors: seq<Anchor>, from: nat)
    requires from <= |vis| && Ordered(anchors, from, |vis|)
    ensures Codes(Weave(vis, anchors, from)) == CodesOf(anchors)
    decreases |anchors|
  {
    if anchors == [] {
      TextsOnly(vis[from..]);
    } else {
      WeaveCons(vis, anchors, from);
      WeaveCodes(vis, anchors[1..], anchors[0].at);
      WeaveCodesCons(vis, anchors, from);
    }
  }

  /** The step of WeaveCodes. */
  lemma WeaveCodesCons(vis: string, anchors: seq<Anchor>, from: nat)
    requires from <= |vis| && Ordered(anchors, from, |vis|) && anchors != []
    requires Ordered(anchors[1..], anchors[0].at, |vis|)
    requires Codes(Weave(vis, anchors[1..], anchors[0].at)) == CodesOf(anchors[1..])
    ensures Codes(Weave(vis, anchors, from)) == CodesOf(anchors)
  {
    var a := anchors[0];
    WeaveCons(vis, anchors, from);
    TextThenEscape(vis[from..a.at], a.code);
    CodesConcat(Texts(vis[from..a.at]) + [Escape(a.code)], Weave(vis, anchors[1..], a.at));
    CodesOfCons(anchors);
  }

  lemma WeaveContents(vis: string, anchors: seq<Anchor>, from: nat)
    requires from <= |vis| && Ordered(anchors, from, |vis|)
    ensures Visible(Weave(vis, anchors, from)) == vis[from..]
    ensures Codes(Weave(vis, anchors, from)) == CodesOf(anchors)
  {
    WeaveVisible(vis, anchors, from);
    WeaveCodes(vis, anchors, from);
  }

  lemma WeaveLength(vis: string, anchors: seq<Anchor>, from: nat)
    requires from <= |vis| && Ordered(anchors, from, |vis|)
    ensures |Render(Weave(vis, anchors, from))| == |vis| - from + SumLen(CodesOf(anchors))
  {
    WeaveContents(vis, anchors, from);
    RenderLength(Weave(vis, anchors, from));
  }

  /**
   * Appending one more anchor, at or after all the others, is inserting its
   * escape into the rendered string at its visible index plus the lengths
   * of the escapes already in: the second loop of elide_middle.
   */
  lemma {:induction false} WeaveInsert(vis: string, anchors: seq<Anchor>, a: Anchor, from: nat)
    requires from <= |vis| && Ordered(anchors + [a], from, |vis|)
    ensures Ordered(anchors, from, |vis|)
    ensures var r := Render(Weave(vis, anchors, from)); var k := a.at - from + SumLen(CodesOf(anchors));
      0 <= k <= |r| && Render(Weave(vis, anchors + [a], from)) == r[..k] + a.code + r[k..]
    decreases |anchors|, 1
  {
    OrderedInit(anchors, a, from, |vis|);
    WeaveLength(vis, anchors, from);
    if anchors == [] {
      WeaveInsertFirst(vis, a, from);
    } else {
      WeaveInsertBehind(vis, anchors, a, from);
    }
  }

  /** The step of WeaveInsert: the new escape goes in behind the first one. */
  lemma {:induction false} WeaveInsertBehind(vis: string, anchors: seq<Anchor>, a: Anchor, from: nat)
    requires from <= |vis| && Ordered(anchors + [a], from, |vis|) && anchors != []
    requires Ordered(anchors, from, |vis|) && from <= a.at
    requires a.at - from + SumLen(CodesOf(anchors)) <= |Render(Weave(vis, anchors, from))|
    ensures var r := Render(Weave(vis, anchors, from)); var k := a.at - from + SumLen(CodesOf(anchors));
      Render(Weave(vis, anchors + [a], from)) == r[..k] + a.code + r[k..]
    decreases |anchors|, 0
  {
    var b := anchors[0];
    var rest := anchors[1..];
    var whole := anchors + [a];
    AppendBehind(anchors, a);
    assert Ordered(rest + [a], b.at, |vis|);
    WeaveRenderCons(vis, whole, from);
    WeaveInsert(vis, rest, a, b.at);
    WeaveRenderCons(vis, anchors, from);
    SumLenCons(anchors);
    var w, t := Render(Weave(vis, whole, from)), Render(Weave(vis, rest + [a], b.at));
    var r, r1 := Render(Weave(vis, anchors, from)), Render(Weave(vis, rest, b.at));
    var head := vis[from..b.at] + b.code;
    var k1, k := a.at - b.at + SumLen(CodesOf(rest)), a.at - from + SumLen(CodesOf(anchors));
    assert A: 0 <= k1 <= |r1|;
    assert B: w == head + t;
    assert C: t == r1[..k1] + a.code + r1[k1..];
    assert D: r == head + r1;
    assert E: k == |head| + k1;
    Chain(w, t, r, head, r1, k1, k, a.code);
  }

  lemma AppendBehind(anchors: seq<Anchor>, a: Anchor)
    requires anchors != []
    ensures (anchors + [a])[0] == anchors[0] && (anchors + [a])[1..] == anchors[1..] + [a]
  {
  }

  lemma SumLenCons(anchors: seq<Anchor>)
    requires anchors != []
    ensures SumLen(CodesOf(anchors)) == |anchors[0].code| + SumLen(CodesOf(anchors[1..]))
  {
    CodesOfCons(anchors);
    var cs := CodesOf(anchors);
    assert cs[0] == anchors[0].code && cs[1..] == CodesOf(anchors[1..]);
  }

  /** Splicing behind a head, in terms of the whole strings. */
  lemma Chain(w: string, t: string, r: string, head: string, r1: string, k1: int, k: int, code: string)
    requires 0 <= k1 <= |r1| && w == head + t && t == r1[..k1] + code + r1[k1..]
    requires r == head + r1 && k == |head| + k1
    ensures 0 <= k <= |r| && w == r[..k] + code + r[k..]
  {
    Splice(head, r1, k1, code);
  }

  lemma WeaveInsertFirst(vis: string, a: Anchor, from: nat)
    requires from <= a.at <= |vis|
    ensures Ordered([a], from, |vis|)
    ensures var r := Render(Weave(vis, [], from)); var k := a.at - from;
      0 <= k <= |r| && Render(Weave(vis, [a], from)) == r[..k] + a.code + r[k..]
  {
    assert [a][0] == a && [a][1..] == [];
    WeaveRenderCons(vis, [a], from);
    WeaveRenderNil(vis, from);
    WeaveRenderNil(vis, a.at);
    var r, k := vis[from..], a.at - from;
    assert r[..k] == vis[from..a.at] && r[k..] == vis[a.at..];
  }

  /** Inserting behind a fixed head. */
  lemma Splice(head: string, r: string, k: nat, code: string)
    requires k <= |r|
    ensures var s := head + r; var j := |head| + k;
      s[..j] + code + s[j..] == head + (r[..k] + code + r[k..])
  {
    var s := head + r;
    assert s[..|head| + k] == head + r[..k];
    assert s[|head| + k..] == r[k..];
  }

  /**
   * What `elide_middle(status, width)` returns: `status` itself when its
   * visible text and one more character fit; otherwise the shortened visible
   * text with every escape put back at its relocated index.
   */
  function Elided(status: string, width: nat): string {
    var ps := Scan(status, Sgr);
    var v := Visible(ps);
    if |v| + 1 <= width then status
    else
      var vis := ShortenVisible(v, width);
      AnchoredOrdered(ps, 0);
      PlacedInOrder(Anchored(ps, 0), |v|, width, |vis|);
      Render(Weave(vis, Place(Anchored(ps, 0), |v|, width, |vis|), 0))
  }

  /** A line whose visible text fits, with room for one more character, is printed as it is. */
  lemma ElidedFits(status: string, width: nat)
    requires |Strip(status, Sgr)| + 1 <= width
    ensures Elided(status, width) == status
  {
  }

  /**
   * An elided line is the shortened visible text interleaved with all of
   * the original escape sequences, verbatim and in their original order.
   */
  lemma ElidedKeepsEscapes(status: string, width: nat)
    requires |Strip(status, Sgr)| + 1 > width
    ensures exists ps: seq<Piece> :: Render(ps) == Elided(status, width)
                      && Visible(ps) == ShortenVisible(Strip(status, Sgr), width)
                      && Codes(ps) == Codes(Scan(status, Sgr))
  {
    var scanned := Scan(status, Sgr);
    var v := Visible(scanned);
    var vis := ShortenVisible(v, width);
    AnchoredOrdered(scanned, 0);
    PlacedInOrder(Anchored(scanned, 0), |v|, width, |vis|);
    var placed := Place(Anchored(scanned, 0), |v|, width, |vis|);
    WeaveContents(vis, placed, 0);
    var ps := Weave(vis, placed, 0);
    assert Render(ps) == Elided(status, width);
  }

  /**
   * From width 3 on, the visible text of an elided line is the first and
   * the last `(width - 1) / 2` characters around one ellipsis, and fits.
   */
  lemma ShortenKeepsEnds(v: string, width: nat)
    requires width >= 3 && |v| + 1 > width
    ensures var e := Kept(width);
      ShortenVisible(v, width) == v[..e] + [Ellipsis] + v[|v| - e..]
      && |ShortenVisible(v, width)| == 2 * e + 1 <= width
  {
  }

  /**
   * Below width 3 nothing is kept on either side, and Python's `s[-0:]`
   * is the whole string: the "shortened" text is the ellipsis followed by
   * all of it.
   */
  lemma ShortenNarrow(v: string, width: nat)
    requires 1 <= width <= 2
    ensures ShortenVisible(v, width) == [Ellipsis] + v
  {
  }

  /**
   * The first loop of `elide_middle`: each escape's `m.start()` minus the
   * lengths of the escapes before it, i.e. its visible index.
   */
  method EscapePositions(status: string) returns (escapes: seq<Anchor>)
    ensures escapes == Anchored(Scan(status, Sgr), 0)
  {
    ghost var scanned := Scan(status, Sgr);
    var matches := Found(Scan(status, Sgr), 0);
    escapes := [];
    var added: nat := 0;
    for i := 0 to |matches|
      invariant escapes == Anchored(scanned, 0)[..i]
      invariant added == SumLen(Codes(scanned)[..i])
    {
      PositionStep(scanned, i, escapes, added);
      escapes := escapes + [Anchor(matches[i].at - added, matches[i].code)];
      added := added + |matches[i].code|;
    }
    assert Anchored(scanned, 0)[..|matches|] == Anchored(scanned, 0);
  }

  /** One round of the first loop: the next match, moved back by the escapes before it. */
  lemma PositionStep(ps: seq<Piece>, i: nat, escapes: seq<Anchor>, added: nat)
    requires i < |Codes(ps)|
    requires escapes == Anchored(ps, 0)[..i] && added == SumLen(Codes(ps)[..i])
    ensures var m := Found(ps, 0)[i];
      && m.at - added == Anchored(ps, 0)[i].at
      && escapes + [Anchor(m.at - added, m.code)] == Anchored(ps, 0)[..i + 1]
      && added + |m.code| == SumLen(Codes(ps)[..i + 1])
  {
    var m := Found(ps, 0)[i];
    FoundAnchored(ps, 0, 0, i);
    TakeOneMore(Codes(ps), i);
    SumLenAppend(Codes(ps)[..i], [m.code]);
    SumLenOne(m.code);
    TakeOneMore(Anchored(ps, 0), i);
  }

  /**
   * The second loop of `elide_middle`: each escape, in order, spliced into
   * the shortened text at its relocated index plus the lengths of the
   * escapes already put back.
   */
  method Reinsert(vis: string, escapes: seq<Anchor>, n: nat, width: nat) returns (r: string)
    requires Ordered(escapes, 0, n)
    ensures Ordered(Place(escapes, n, width, |vis|), 0, |vis|)
    ensures r == Render(Weave(vis, Place(escapes, n, width, |vis|), 0))
  {
    var elideSize := (width - 1) / 2;
    ghost var placed := Place(escapes, n, width, |vis|);
    PlacedInOrder(escapes, n, width, |vis|);
    r := vis;
    var added := 0;
    OrderedPrefix(placed, 0, |vis|, 0);
    WeaveRenderNil(vis, 0);
    assert placed[..0] == [];
    for i := 0 to |escapes|
      invariant Ordered(placed[..i], 0, |vis|)
      invariant r == Render(Weave(vis, placed[..i], 0))
      invariant added == SumLen(CodesOf(placed[..i]))
    {
      var pos: int := escapes[i].at;
      if pos > elideSize {
        pos := pos - (n - width);
        if pos < width - elideSize {
          pos := width - elideSize;
        }
      }
      pos := pos + added;
      assert pos - added == Relocate(escapes[i].at, n, width);
      WeaveLength(vis, placed[..i], 0);
      var cut := if pos > |r| then |r| else pos;
      ReinsertCut(escapes, i, n, width, |vis|, added, |r|, pos);
      ReinsertStep(vis, placed, i, r, cut);
      r := r[..cut] + escapes[i].code + r[cut..];
      added := added + |escapes[i].code|;
    }
    assert placed[..|escapes|] == placed;
  }

  /** Where the second loop cuts: the escape's place, behind the escapes already in. */
  lemma ReinsertCut(escapes: seq<Anchor>, i: nat, n: nat, width: nat, limit: nat, added: nat, len: nat, pos: int)
    requires i < |escapes| && len == limit + added && pos - added == Relocate(escapes[i].at, n, width)
    ensures (if pos > len then len else pos) == Place(escapes, n, width, limit)[i].at + added
  {
  }

  /** One round of the second loop: the next escape goes in at its place. */
  lemma ReinsertStep(vis: string, placed: seq<Anchor>, i: nat, r: string, cut: nat)
    requires Ordered(placed, 0, |vis|) && i < |placed|
    requires Ordered(placed[..i], 0, |vis|) && r == Render(Weave(vis, placed[..i], 0))
    requires cut == placed[i].at + SumLen(CodesOf(placed[..i]))
    ensures Ordered(placed[..i + 1], 0, |vis|) && cut <= |r|
    ensures Render(Weave(vis, placed[..i + 1], 0)) == r[..cut] + placed[i].code + r[cut..]
    ensures SumLen(CodesOf(placed[..i + 1])) == SumLen(CodesOf(placed[..i])) + |placed[i].code|
  {
    var pre, next := placed[..i], placed[i];
    OrderedPrefix(placed, 0, |vis|, i + 1);
    TakeOneMore(placed, i);
    WeaveInsert(vis, pre, next, 0);
    SumLenAppendOne(pre, next);
  }

  lemma SumLenAppendOne(anchors: seq<Anchor>, a: Anchor)
    ensures SumLen(CodesOf(anchors + [a])) == SumLen(CodesOf(anchors)) + |a.code|
  {
    assert CodesOf(anchors + [a]) == CodesOf(anchors) + [a.code];
    SumLenAppend(CodesOf(anchors), [a.code]);
    SumLenOne(a.code);
  }

  lemma SumLenOne(code: string)
    ensures SumLen([code]) == |code|
  {
    assert [code][1..] == [];
  }

  /** The escapes the first loop of elide_middle records are in order along the visible text. */
  lemma EscapesInOrder(status: string, stripped: string, escapes: seq<Anchor>)
    requires stripped == Strip(status, Sgr) && escapes == Anchored(Scan(status, Sgr), 0)
    ensures Ordered(escapes, 0, |stripped|)
  {
    AnchoredInOrder(Scan(status, Sgr), 0);
  }

  /** The text elide_middle builds is the shortened visible text. */
  lemma ShortenedText(stripped: string, width: nat, vis: string)
    requires vis == PySlice(stripped, 0, (width - 1) / 2) + [Ellipsis] + PySlice(stripped, -((width - 1) / 2), |stripped|)
    ensures vis == ShortenVisible(stripped, width)
  {
  }

  /** What the second loop of elide_middle builds is the elided line. */
  lemma ElidedLong(status: string, width: nat, vis: string, escapes: seq<Anchor>, r: string)
    requires |Strip(status, Sgr)| + 1 > width
    requires vis == ShortenVisible(Strip(status, Sgr), width) && escapes == Anchored(Scan(status, Sgr), 0)
    requires Ordered(Place(escapes, |Strip(status, Sgr)|, width, |vis|), 0, |vis|)
    requires r == Render(Weave(vis, Place(escapes, |Strip(status, Sgr)|, width, |vis|), 0))
    ensures r == Elided(status, width)
  {
  }

  /**
   * `elide_middle`: strips the escapes, and when the line is too wide
   * records where each escape was, builds the shortened text and
   * re-inserts them one by one.
   */
  method ElideMiddle(status: string, width: nat) returns (r: string)
    ensures r == Elided(status, width)
  {
    var margin := 1;
    var stripped := Strip(status, Sgr);
    r := status;
    if |stripped| + margin > width {
      var elideSize := (width - margin) / 2;
      var escapes := EscapePositions(status);
      var vis := PySlice(stripped, 0, elideSize) + [Ellipsis] + PySlice(stripped, -elideSize, |stripped|);
      EscapesInOrder(status, stripped, escapes);
      ShortenedText(stripped, width, vis);
      r := Reinsert(vis, escapes, |stripped|, width);
      ElidedLong(status, width, vis, escapes, r);
    } else {
      ElidedFits(status, width);
    }
  }
}

=== FILE: cmake.dfy ===
/**
 * The output filter of `run_cmake` in ja/cmake.py: CMake's configure
 * output is read line by line and reprinted with colours. A line that
 * repeats the previous line and adds a result ("-- Looking for x - found")
 * is shown as a coloured status after the previous line; other lines get
 * a colour chosen from their start and a bold last part.
 */
module CMake {
  import opened Wrappers
  import opened Strings
  import opened Seqs
  import Ansi

  const Reset: string := "\U{1B}[0m"
  const Bold: string := "\U{1B}[1m"
  const StatusBlue: string := "\U{1B}[1;34m"
  const StatusGreen: string := "\U{1B}[1;32m"
  const StatusRed: string := "\U{1B}[1;31m"
  const LineRed: string := "\U{1B}[31m"
  const LineYellow: string := "\U{1B}[33m"

  const GoodResults: seq<string> := ["works", "found", "Success", "yes", "TRUE"]
  const BadResults: seq<string> := ["Failed", "failed", "not found", "no", "NOTFOUND"]

  /** The colours a line can carry. */
  predicate LineColour(colour: string) {
    colour == "" || colour == LineRed || colour == LineYellow
  }

  /** What the loop carries from one line to the next. */
  datatype Colourer = Colourer(previousLine: string, colour: string)

  const Start: Colourer := Colourer("", "")

  // ---------------------------------------------------------------------------
  // Results of checks

  /** Green for a success, red for a failure, bold blue for anything else. */
  function StatusColour(status: string): (r: string)
    ensures status in GoodResults ==> r == StatusGreen
    ensures status in BadResults ==> r == StatusRed
    ensures status !in GoodResults && status !in BadResults ==> r == StatusBlue
  {
    var r1 := if status in GoodResults then StatusGreen else StatusBlue;
    if status in BadResults then StatusRed else r1
  }

  /** The result a continuation line adds: stripped, without a leading `- ` and then `-- `. */
  function Result(rest: string): (r: string)
    ensures |r| <= |rest|
    ensures forall c :: c in r ==> c in rest
  {
    var s1 := Strip(rest);
    var s2 := if StartsWith(s1, "- ") then s1[2..] else s1;
    var s3 := if StartsWith(s2, "-- ") then s2[3..] else s2;
    ResultWithin(rest, s1, s2, s3);
    s3
  }

  lemma ResultWithin(rest: string, s1: string, s2: string, s3: string)
    requires s1 == Strip(rest)
    requires s2 == s1 || (|s1| >= 2 && s2 == s1[2..])
    requires s3 == s2 || (|s2| >= 3 && s3 == s2[3..])
    ensures |s3| <= |rest| && forall c :: c in s3 ==> c in rest
  {
    var r := RStrip(rest);
    PrefixWithin(r, rest);
    SuffixWithin(s1, r);
    if s2 != s1 {
      SuffixWithin(s2, s1);
    }
    if s3 != s2 {
      SuffixWithin(s3, s2);
    }
  }

  // ---------------------------------------------------------------------------
  // Other lines

  /** `-- ` becomes a triangle and ` * ` a bullet; the colour checks see the line between the two. */
  function Arrowed(line: string): string {
    if StartsWith(line, "-- ") then "\U{25B8}" + line[2..] else line
  }

  function Bulleted(line: string): string {
    if StartsWith(line, " * ") then " \U{2022} " + line[3..] else line
  }

  /**
   * The colour for a line: kept for blank and indented lines and reset
   * for others, then red for failures and errors and yellow for warnings.
   */
  function NextColour(colour: string, line: string): (r: string)
    ensures LineColour(colour) ==> LineColour(r)
  {
    var kept := if line == "" || StartsWith(line, "  ") then colour else "";
    var arrowed := Arrowed(line);
    var red := if StartsWith(arrowed, "Failed to ") || StartsWith(arrowed, "CMake Error") then LineRed else kept;
    if StartsWith(arrowed, "CMake Warning ") || StartsWith(arrowed, "Could NOT ")
       || StartsWith(arrowed, "CMake Deprecation Warning") then LineYellow
    else red
  }

  /**
   * A line in its colour; when it holds `: ` and the text before the last
   * `: ` has balanced parentheses, the part after it is bold.
   */
  function Emphasised(line: string, colour: string): string {
    var parts := SplitOn(line, ": ");
    var front := Join(": ", parts[..|parts| - 1]);
    var back := parts[|parts| - 1];
    if |parts| > 1 && Count(front, '(') == Count(front, ')') then colour + ((front + ": ") + (Bold + (back + Reset)))
    else colour + (line + Reset)
  }

  /** One line of CMake's output: what is printed for it, and what is carried on. */
  function Step(c: Colourer, line: string): (r: (Colourer, string))
    ensures LineColour(c.colour) ==> LineColour(r.0.colour)
  {
    if |c.previousLine| > 0 && StartsWith(line, c.previousLine) then
      var status := Result(line[|c.previousLine|..]);
      (Colourer("", c.colour), ": " + (StatusColour(status) + (status + (Reset + "\n"))))
    else
      var stripped := RStrip(line);
      var pending := if c.previousLine != "" then "\n" else "";
      var blank := if stripped == "" then "\n" else "";
      var colour := NextColour(c.colour, stripped);
      (Colourer(stripped, colour), (pending + blank) + Emphasised(Bulleted(Arrowed(stripped)), colour))
  }

  /** The lines fed in turn from the start. */
  function Feed(lines: seq<string>): (r: (Colourer, string))
    ensures LineColour(r.0.colour)
  {
    if lines == [] then (Start, "")
    else
      var n := |lines| - 1;
      var before := Feed(lines[..n]);
      var after := Step(before.0, lines[n]);
      (after.0, before.1 + after.1)
  }

  /** Everything printed for the lines, with the newline a pending line still needs. */
  function Output(lines: seq<string>): string {
    var (c, out) := Feed(lines);
    out + (if c.previousLine != "" then "\n" else "")
  }

  /** The loop of `run_cmake`, printing to `out`. */
  method ColouriseOutput(lines: seq<string>) returns (out: string)
    ensures out == Output(lines)
  {
    var previousLine := "";
    var colour := "";
    out := "";
    for i := 0 to |lines|
      invariant (Colourer(previousLine, colour), out) == Feed(lines[..i])
    {
      assert lines[..i + 1][..i] == lines[..i];
      var next, text := ColourLine(previousLine, colour, lines[i]);
      previousLine, colour := next.previousLine, next.colour;
      out := out + text;
    }
    assert lines[..|lines|] == lines;
    if previousLine != "" {
      out := out + "\n";
    }
  }

  /** The body of the loop: one line, and what it prints. */
  method ColourLine(previousLine: string, colour: string, line: string) returns (next: Colourer, text: string)
    ensures (next, text) == Step(Colourer(previousLine, colour), line)
  {
    if |previousLine| > 0 && StartsWith(line, previousLine) {
      var status := Strip(line[|previousLine|..]);
      if StartsWith(status, "- ") {
        status := status[2..];
      }
      if StartsWith(status, "-- ") {
        status := status[3..];
      }
      var resultColour := StatusBlue;
      if status in GoodResults {
        resultColour := StatusGreen;
      }
      if status in BadResults {
        resultColour := StatusRed;
      }
      assert status == Result(line[|previousLine|..]) && resultColour == StatusColour(status);
      return Colourer("", colour), ": " + (resultColour + (status + (Reset + "\n")));
    }
    text := "";
    var shown := RStrip(line);
    if previousLine != "" {
      text := text + "\n";
    }
    var lineColour := colour;
    if shown == "" {
      text := text + "\n";
    } else if !StartsWith(shown, "  ") {
      lineColour := "";
    }
    next := Colourer(shown, lineColour);
    if StartsWith(shown, "-- ") {
      shown := "\U{25B8}" + shown[2..];
    }
    if StartsWith(shown, "Failed to ") || StartsWith(shown, "CMake Error") {
      lineColour := LineRed;
    }
    if StartsWith(shown, "CMake Warning ") || StartsWith(shown, "Could NOT ")
       || StartsWith(shown, "CMake Deprecation Warning") {
      lineColour := LineYellow;
    }
    next := next.(colour := lineColour);
    assert lineColour == NextColour(colour, next.previousLine);
    if StartsWith(shown, " * ") {
      shown := " \U{2022} " + shown[3..];
    }
    assert shown == Bulleted(Arrowed(next.previousLine));
    assert text == (if previousLine != "" then "\n" else "") + (if next.previousLine == "" then "\n" else "");
    text := text + Emphasised(shown, lineColour);
  }

  // ---------------------------------------------------------------------------
  // What the colouring keeps

  /** What a reader sees of one step: the text without its colours. */
  function Plain(c: Colourer, line: string): string {
    if |c.previousLine| > 0 && StartsWith(line, c.previousLine) then
      ": " + Result(line[|c.previousLine|..]) + "\n"
    else
      var stripped := RStrip(line);
      (if c.previousLine != "" then "\n" else "") + (if stripped == "" then "\n" else "")
      + Bulleted(Arrowed(stripped))
  }

  /** A colour, or none, in front of plain text is invisible. */
  lemma StripColoured(colour: string, t: string)
    requires LineColour(colour) || colour in {Reset, Bold, StatusBlue, StatusGreen, StatusRed}
    ensures Ansi.StripAnsiEscapeCodes(colour + t) == Ansi.StripAnsiEscapeCodes(t)
  {
    if colour == "" {
      assert colour + t == t;
    } else {
      Ansi.StripEscapeThen(colour, t, Ansi.Csi);
    }
  }

  lemma StripReset()
    ensures Ansi.StripAnsiEscapeCodes(Reset) == []
  {
    Ansi.StripEscapeThen(Reset, [], Ansi.Csi);
    Ansi.StripPlainText([], Ansi.Csi);
    assert Reset + [] == Reset;
  }

  /** Emphasis only adds escape sequences: the text of the line is unchanged. */
  lemma EmphasisedText(line: string, colour: string)
    requires LineColour(colour) && Ansi.Esc !in line
    ensures Ansi.StripAnsiEscapeCodes(Emphasised(line, colour)) == line
  {
    var parts := SplitOn(line, ": ");
    var front := Join(": ", parts[..|parts| - 1]);
    var back := parts[|parts| - 1];
    if |parts| > 1 && Count(front, '(') == Count(front, ')') {
      LastSeparator(line);
      BoldText(front, back, colour);
      BoldForm(line, colour, parts, front, back);
    } else {
      PlainLineText(line, colour);
      PlainForm(line, colour, parts, front);
    }
  }

  lemma BoldForm(line: string, colour: string, parts: seq<string>, front: string, back: string)
    requires parts == SplitOn(line, ": ") && |parts| > 1
    requires front == Join(": ", parts[..|parts| - 1]) && back == parts[|parts| - 1]
    requires Count(front, '(') == Count(front, ')')
    ensures Emphasised(line, colour) == colour + ((front + ": ") + (Bold + (back + Reset)))
  {
  }

  lemma PlainForm(line: string, colour: string, parts: seq<string>, front: string)
    requires parts == SplitOn(line, ": ") && front == Join(": ", parts[..|parts| - 1])
    requires !(|parts| > 1 && Count(front, '(') == Count(front, ')'))
    ensures Emphasised(line, colour) == colour + (line + Reset)
  {
  }

  /** The text before the last `: ` and the text after it make up the line. */
  lemma LastSeparator(line: string)
    requires |SplitOn(line, ": ")| > 1 && Ansi.Esc !in line
    ensures var parts := SplitOn(line, ": ");
      var front, back := Join(": ", parts[..|parts| - 1]), parts[|parts| - 1];
      front + ": " + back == line && Ansi.Esc !in front && Ansi.Esc !in back
    ensures FirstIndexFrom(SplitOn(line, ": ")[|SplitOn(line, ": ")| - 1], ": ", 0).None?
  {
    var parts := SplitOn(line, ": ");
    var front, back := Join(": ", parts[..|parts| - 1]), parts[|parts| - 1];
    JoinInit(": ", parts);
    JoinSplit(line, ": ");
    assert front == line[..|front|];
    assert back == line[|front| + 2..];
  }

  /** The bold form of a line, without its escapes. */
  lemma BoldText(front: string, back: string, colour: string)
    requires LineColour(colour) && Ansi.Esc !in front && Ansi.Esc !in back
    ensures Ansi.StripAnsiEscapeCodes(colour + ((front + ": ") + (Bold + (back + Reset)))) == front + ": " + back
  {
    StripReset();
    Ansi.StripPlainThen(back, Reset, Ansi.Csi);
    assert back + [] == back;
    Ansi.StripEscapeThen(Bold, back + Reset, Ansi.Csi);
    Ansi.StripPlainThen(front + ": ", Bold + (back + Reset), Ansi.Csi);
    StripColoured(colour, (front + ": ") + (Bold + (back + Reset)));
  }

  /** The plain form of a line, without its escapes. */
  lemma PlainLineText(line: string, colour: string)
    requires LineColour(colour) && Ansi.Esc !in line
    ensures Ansi.StripAnsiEscapeCodes(colour + (line + Reset)) == line
  {
    StripReset();
    Ansi.StripPlainThen(line, Reset, Ansi.Csi);
    assert line + [] == line;
    StripColoured(colour, line + Reset);
  }

  /** Escape sequences are never part of the text the colouring derives from a line. */
  lemma ShownHasNoEscapes(line: string)
    requires Ansi.Esc !in line
    ensures Ansi.Esc !in Bulleted(Arrowed(RStrip(line)))
  {
    var stripped := RStrip(line);
    assert Ansi.Esc !in stripped by {
      assert stripped == line[..|stripped|];
    }
    var arrowed := Arrowed(stripped);
    assert Ansi.Esc !in arrowed by {
      if StartsWith(stripped, "-- ") {
        assert arrowed == "\U{25B8}" + stripped[2..];
      }
    }
    if StartsWith(arrowed, " * ") {
      assert Bulleted(arrowed) == " \U{2022} " + arrowed[3..];
    }
  }

  /** The status of a continuation line is shown with its colour and a reset around it. */
  lemma StatusText(status: string)
    requires Ansi.Esc !in status
    ensures Ansi.StripAnsiEscapeCodes(": " + (StatusColour(status) + (status + (Reset + "\n")))) == ": " + status + "\n"
  {
    var tail := Reset + "\n";
    var coloured := StatusColour(status) + (status + tail);
    assert Ansi.StripAnsiEscapeCodes(tail) == "\n" by {
      Ansi.StripPlainText("\n", Ansi.Csi);
      Ansi.StripEscapeThen(Reset, "\n", Ansi.Csi);
    }
    assert Ansi.StripAnsiEscapeCodes(coloured) == status + "\n" by {
      Ansi.StripPlainThen(status, tail, Ansi.Csi);
      StripColoured(StatusColour(status), status + tail);
    }
    Ansi.StripPlainThen(": ", coloured, Ansi.Csi);
    assert ": " + (status + "\n") == ": " + status + "\n";
  }

  /**
   * Without its colours, what is printed for a line is the line itself,
   * with the arrow and bullet substitutions, or `: ` and the result of a
   * check: colouring changes no text.
   */
  lemma StepText(c: Colourer, line: string)
    requires LineColour(c.colour) && Ansi.Esc !in line
    ensures Ansi.StripAnsiEscapeCodes(Step(c, line).1) == Plain(c, line)
  {
    if |c.previousLine| > 0 && StartsWith(line, c.previousLine) {
      var status := Result(line[|c.previousLine|..]);
      assert Ansi.Esc !in status;
      StatusText(status);
    } else {
      var stripped := RStrip(line);
      var pending := if c.previousLine != "" then "\n" else "";
      var blank := if stripped == "" then "\n" else "";
      var colour := NextColour(c.colour, stripped);
      var shown := Bulleted(Arrowed(stripped));
      ShownHasNoEscapes(line);
      EmphasisedText(shown, colour);
      assert Ansi.Esc !in pending + blank;
      Ansi.StripPlainThen(pending + blank, Emphasised(shown, colour), Ansi.Csi);
    }
  }

  // ---------------------------------------------------------------------------
  // How a line's colour is chosen

  /** A line starting with a prefix has that prefix's characters at the front. */
  lemma PrefixChar(line: string, prefix: string, i: nat)
    requires StartsWith(line, prefix) && i < |prefix|
    ensures line[i] == prefix[i]
  {
    assert line[..|prefix|][i] == line[i];
  }

  /** A line that differs from a prefix in one of its characters does not start with it. */
  lemma NotPrefix(line: string, prefix: string, i: nat)
    requires i < |line| && i < |prefix| && line[i] != prefix[i]
    ensures !StartsWith(line, prefix)
  {
    if |prefix| <= |line| {
      assert line[..|prefix|][i] != prefix[i];
    }
  }

  /** An indented or blank line keeps the colour before it: no trigger starts with a space. */
  lemma IndentedKeepsColour(colour: string, line: string)
    requires line == "" || StartsWith(line, "  ")
    ensures NextColour(colour, line) == colour
  {
    if line != "" {
      PrefixChar(line, "  ", 0);
      NotPrefix(line, "-- ", 0);
      NotPrefix(line, "Failed to ", 0);
      NotPrefix(line, "CMake Error", 0);
      NotPrefix(line, "CMake Warning ", 0);
      NotPrefix(line, "Could NOT ", 0);
      NotPrefix(line, "CMake Deprecation Warning", 0);
    }
  }

  /** A `-- ` line is never coloured: after the arrow no trigger can match. */
  lemma ArrowedUncoloured(colour: string, line: string)
    requires StartsWith(line, "-- ")
    ensures NextColour(colour, line) == ""
  {
    PrefixChar(line, "-- ", 0);
    NotPrefix(line, "  ", 0);
    var arrowed := Arrowed(line);
    assert arrowed[0] == '\U{25B8}';
    NotPrefix(arrowed, "Failed to ", 0);
    NotPrefix(arrowed, "CMake Error", 0);
    NotPrefix(arrowed, "CMake Warning ", 0);
    NotPrefix(arrowed, "Could NOT ", 0);
    NotPrefix(arrowed, "CMake Deprecation Warning", 0);
  }

  /** Errors and failures are red. */
  lemma ErrorsRed(colour: string, line: string)
    requires StartsWith(line, "CMake Error") || StartsWith(line, "Failed to ")
    ensures NextColour(colour, line) == LineRed
  {
    if StartsWith(line, "CMake Error") {
      PrefixChar(line, "CMake Error", 0);
      PrefixChar(line, "CMake Error", 6);
      PrefixChar(line, "CMake Error", 1);
      NotPrefix(line, "Could NOT ", 1);
      if StartsWith(line, "CMake Warning ") {
        PrefixChar(line, "CMake Warning ", 6);
      }
      if StartsWith(line, "CMake Deprecation Warning") {
        PrefixChar(line, "CMake Deprecation Warning", 6);
      }
    } else {
      PrefixChar(line, "Failed to ", 0);
      NotPrefix(line, "CMake Warning ", 0);
      NotPrefix(line, "Could NOT ", 0);
      NotPrefix(line, "CMake Deprecation Warning", 0);
    }
    NotPrefix(line, "-- ", 0);
  }

  /** Warnings are yellow. */
  lemma WarningsYellow(colour: string, line: string)
    requires StartsWith(line, "CMake Warning ") || StartsWith(line, "Could NOT ")
             || StartsWith(line, "CMake Deprecation Warning")
    ensures NextColour(colour, line) == LineYellow
  {
    if StartsWith(line, "Could NOT ") {
      PrefixChar(line, "Could NOT ", 0);
    } else if StartsWith(line, "CMake Warning ") {
      PrefixChar(line, "CMake Warning ", 0);
    } else {
      PrefixChar(line, "CMake Deprecation Warning", 0);
    }
    NotPrefix(line, "-- ", 0);
  }

  /** Any other line that is neither blank nor indented is shown without colour. */
  lemma OtherLinesPlain(colour: string, line: string)
    requires line != "" && !StartsWith(line, "  ")
    requires !StartsWith(line, "CMake Error") && !StartsWith(line, "Failed to ")
    requires !StartsWith(line, "CMake Warning ") && !StartsWith(line, "Could NOT ")
    requires !StartsWith(line, "CMake Deprecation Warning")
    ensures NextColour(colour, line) == ""
  {
    if StartsWith(line, "-- ") {
      ArrowedUncoloured(colour, line);
    }
  }

  // ---------------------------------------------------------------------------
  // A check and its result

  /**
   * The line announcing a check and the line repeating it with its result
   * come out as one line: the check, then `: ` and the result in its
   * colour, and no line is left pending.
   */
  lemma CheckThenResult(check: string, result: string)
    requires check != "" && !IsSpace(check[|check| - 1])
    ensures var shown := Step(Start, check + "\n").1;
      var status := Result(result);
      Output([check + "\n", check + result])
        == shown + (": " + (StatusColour(status) + (status + (Reset + "\n"))))
  {
    var first := check + "\n";
    var second := check + result;
    var lines := [first, second];
    assert RStrip(first) == check by {
      assert first[..|first| - 1] == check;
    }
    var c1 := Step(Start, first);
    assert c1.0.previousLine == check;
    assert lines[..1] == [first] && lines[..1][..0] == [];
    assert Feed(lines[..1]) == c1 by {
      assert Feed(lines[..1][..0]) == (Start, "");
      assert "" + c1.1 == c1.1;
    }
    assert StartsWith(second, check) && second[|check|..] == result by {
      assert second[..|check|] == check;
    }
    var status := Result(result);
    var c2 := Step(c1.0, second);
    assert c2 == (Colourer("", c1.0.colour), ": " + (StatusColour(status) + (status + (Reset + "\n"))));
    assert lines[..2] == lines && lines[..2][..1] == lines[..1];
    assert Feed(lines) == (c2.0, c1.1 + c2.1);
    assert Output(lines) == c1.1 + c2.1 + "";
    assert c1.1 + c2.1 + "" == c1.1 + c2.1;
  }
}

=== FILE: framing.dfy ===
/**
 * The wire format shared by both copies of `Frontend.next`: a stream of frames,
 * each a little-endian base-128 length prefix (at most five bytes, continuation
 * bit 0x80, as in the Protocol Buffers varint encoding) followed by exactly that
 * many payload bytes.  The payload parse (protobuf `FromString`) is a parameter
 * `decode`; `None` stands for its `DecodeError`.
 */
module Framing {
  import opened Wrappers
  import opened Seqs

  type byte = b: int | 0 <= b < 256

  /** Number of prefix bytes after which a still-set continuation bit is an error. */
  const MaxPrefixBytes: nat := 5

  /** `v << (7 * shift)`: `v` multiplied by 128, `shift` times. */
  function Shift7(v: nat, shift: nat): (r: nat)
    ensures v <= r
  {
    if shift == 0 then v else 128 * Shift7(v, shift - 1)
  }

  function Pow128(i: nat): (r: nat)
    ensures r >= 1
  {
    if i == 0 then 1 else 128 * Pow128(i - 1)
  }

  // ---------------------------------------------------------------------------
  // The length prefix

  /** What reading a length prefix yields. */
  datatype Prefix =
    | PrefixEof                           // a read returned nothing: StopIteration
    | PrefixOverlong                      // fifth byte still had 0x80 set
    | PrefixLength(size: nat, next: nat)  // the size and the index just after the prefix

  /**
   * The prefix loop from its `shift`-th byte on, at stream index `pos`, with
   * `acc` the size gathered so far.  `b % 128` is `b & 0x7f`, `b < 128` is
   * `(b & 0x80) == 0` and `Shift7(v, shift)` is `v << (shift * 7)`.
   */
  function PrefixFrom(data: seq<byte>, pos: nat, shift: nat, acc: nat): (r: Prefix)
    requires shift < MaxPrefixBytes
    ensures r.PrefixLength? ==> pos < r.next <= pos + MaxPrefixBytes - shift && r.next <= |data|
    decreases MaxPrefixBytes - shift
  {
    if pos >= |data| then PrefixEof
    else
      var b := data[pos];
      var acc' := acc + Shift7(b % 128, shift);
      if b < 128 then PrefixLength(acc', pos + 1)
      else if shift + 1 >= MaxPrefixBytes then PrefixOverlong
      else PrefixFrom(data, pos + 1, shift + 1, acc')
  }

  function ReadPrefix(data: seq<byte>, pos: nat): (r: Prefix)
    ensures r.PrefixLength? ==> pos < r.next <= pos + MaxPrefixBytes && r.next <= |data|
  {
    PrefixFrom(data, pos, 0, 0)
  }

  /** The little-endian base-128 value of prefix bytes: the sum of (b_i & 0x7f) * 128^i. */
  function PrefixValue(bs: seq<byte>): nat {
    if bs == [] then 0 else bs[0] % 128 + 128 * PrefixValue(bs[1..])
  }

  /** Every byte of `bs` has its continuation bit set. */
  predicate AllContinue(bs: seq<byte>) {
    forall i :: 0 <= i < |bs| ==> bs[i] >= 128
  }

  /** A well-formed prefix: continuation bytes, then one final byte below 0x80, five at most. */
  predicate IsPrefix(bs: seq<byte>) {
    1 <= |bs| <= MaxPrefixBytes && AllContinue(bs[..|bs| - 1]) && bs[|bs| - 1] < 128
  }

  lemma {:induction false} PrefixValueStep(bs: seq<byte>, k: nat)
    requires k < |bs|
    ensures PrefixValue(bs[..k + 1]) == PrefixValue(bs[..k]) + Shift7(bs[k] % 128, k)
  {
    if k > 0 {
      PrefixValueStep(bs[1..], k - 1);
      PrefixValueShift(bs, k);
    }
  }

  /** The step of PrefixValueStep: the first byte, then the value of the others shifted by 7 bits. */
  lemma PrefixValueShift(bs: seq<byte>, k: nat)
    requires 0 < k < |bs|
    requires PrefixValue(bs[1..][..k]) == PrefixValue(bs[1..][..k - 1]) + Shift7(bs[k] % 128, k - 1)
    ensures PrefixValue(bs[..k + 1]) == PrefixValue(bs[..k]) + Shift7(bs[k] % 128, k)
  {
    var lo, hi := bs[..k], bs[..k + 1];
    assert hi[0] == bs[0] && hi[1..] == bs[1..][..k];
    assert lo[0] == bs[0] && lo[1..] == bs[1..][..k - 1];
  }

  /** The value of the prefix bytes from `start`, one byte further on. */
  lemma GatheredValue(data: seq<byte>, start: nat, pos: nat)
    requires start <= pos < |data|
    ensures PrefixValue(data[start..pos + 1]) == PrefixValue(data[start..pos]) + Shift7(data[pos] % 128, pos - start)
  {
    PrefixValueStep(data[start..], pos - start);
    assert data[start..][..pos - start + 1] == data[start..pos + 1];
    assert data[start..][..pos - start] == data[start..pos];
  }

  /** The bytes read so far by the prefix loop: `shift` continuation bytes ending before `pos`. */
  predicate Gathered(data: seq<byte>, pos: nat, shift: nat) {
    shift <= pos <= |data| && AllContinue(data[pos - shift..pos])
  }

  lemma GatherMore(data: seq<byte>, pos: nat, shift: nat)
    requires Gathered(data, pos, shift) && pos < |data| && data[pos] >= 128
    ensures Gathered(data, pos + 1, shift + 1)
  {
    var w := data[pos - shift..pos + 1];
    assert forall i :: 0 <= i < shift ==> w[i] == data[pos - shift..pos][i];
  }

  lemma {:induction false} PrefixFromLength(data: seq<byte>, start: nat, pos: nat, shift: nat)
    requires start + shift == pos
    requires shift < MaxPrefixBytes && Gathered(data, pos, shift)
    ensures var r := PrefixFrom(data, pos, shift, PrefixValue(data[start..pos]));
      r.PrefixLength? ==> IsPrefix(data[start..r.next])
                          && r.size == PrefixValue(data[start..r.next])
    decreases MaxPrefixBytes - shift
  {
    if pos < |data| && data[pos] >= 128 && shift + 1 < MaxPrefixBytes {
      GatherMore(data, pos, shift);
      PrefixFromLength(data, start, pos + 1, shift + 1);
      GatheredValue(data, start, pos);
      LengthStep(data, start, pos, shift);
    } else {
      LengthLast(data, start, pos, shift);
    }
  }

  /** PrefixFromLength where the loop does not go on: the prefix ends here, or it does not end well. */
  lemma LengthLast(data: seq<byte>, start: nat, pos: nat, shift: nat)
    requires start + shift == pos
    requires shift < MaxPrefixBytes && Gathered(data, pos, shift)
    requires !(pos < |data| && data[pos] >= 128 && shift + 1 < MaxPrefixBytes)
    ensures var r := PrefixFrom(data, pos, shift, PrefixValue(data[start..pos]));
      r.PrefixLength? ==> IsPrefix(data[start..r.next])
                          && r.size == PrefixValue(data[start..r.next])
  {
    var acc := PrefixValue(data[start..pos]);
    if pos >= |data| {
      EofUnfold(data, pos, shift, acc);
    } else if data[pos] >= 128 {
      OverlongUnfold(data, pos, shift, acc);
    } else {
      GatheredValue(data, start, pos);
      StopUnfold(data, pos, shift, acc);
      FinalByte(data, start, pos, shift);
    }
  }

  // PrefixFrom unfolded once, case by case.

  lemma EofUnfold(data: seq<byte>, pos: nat, shift: nat, acc: nat)
    requires shift < MaxPrefixBytes && pos >= |data|
    ensures PrefixFrom(data, pos, shift, acc) == PrefixEof
  {
  }

  lemma StopUnfold(data: seq<byte>, pos: nat, shift: nat, acc: nat)
    requires shift < MaxPrefixBytes && pos < |data| && data[pos] < 128
    ensures PrefixFrom(data, pos, shift, acc) == PrefixLength(acc + Shift7(data[pos] % 128, shift), pos + 1)
  {
  }

  lemma OverlongUnfold(data: seq<byte>, pos: nat, shift: nat, acc: nat)
    requires shift < MaxPrefixBytes && pos < |data| && data[pos] >= 128 && shift + 1 >= MaxPrefixBytes
    ensures PrefixFrom(data, pos, shift, acc) == PrefixOverlong
  {
  }

  /** The step of PrefixFromLength: a continuation byte, and the prefix read from the next byte on. */
  lemma LengthStep(data: seq<byte>, start: nat, pos: nat, shift: nat)
    requires start + shift == pos
    requires shift + 1 < MaxPrefixBytes && pos < |data| && shift <= pos && data[pos] >= 128
    requires var acc' := PrefixValue(data[start..pos + 1]);
      acc' == PrefixValue(data[start..pos]) + Shift7(data[pos] % 128, shift)
    requires var r := PrefixFrom(data, pos + 1, shift + 1, PrefixValue(data[start..pos + 1]));
      r.PrefixLength? ==> IsPrefix(data[start..r.next]) && r.size == PrefixValue(data[start..r.next])
    ensures var r := PrefixFrom(data, pos, shift, PrefixValue(data[start..pos]));
      r.PrefixLength? ==> IsPrefix(data[start..r.next]) && r.size == PrefixValue(data[start..r.next])
  {
    ContinueGathered(data, start, pos, shift);
  }

  /** A continuation byte: the loop goes on with the value of the bytes gathered one further. */
  lemma ContinueGathered(data: seq<byte>, start: nat, pos: nat, shift: nat)
    requires start + shift == pos
    requires shift + 1 < MaxPrefixBytes && pos < |data| && shift <= pos && data[pos] >= 128
    requires PrefixValue(data[start..pos + 1])
          == PrefixValue(data[start..pos]) + Shift7(data[pos] % 128, shift)
    ensures PrefixFrom(data, pos, shift, PrefixValue(data[start..pos]))
         == PrefixFrom(data, pos + 1, shift + 1, PrefixValue(data[start..pos + 1]))
  {
    ContinueUnfold(data, pos, shift, PrefixValue(data[start..pos]), PrefixValue(data[start..pos + 1]));
  }

  lemma ContinueUnfold(data: seq<byte>, pos: nat, shift: nat, acc: nat, acc': nat)
    requires shift + 1 < MaxPrefixBytes && pos < |data| && data[pos] >= 128
    requires acc' == acc + Shift7(data[pos] % 128, shift)
    ensures PrefixFrom(data, pos, shift, acc) == PrefixFrom(data, pos + 1, shift + 1, acc')
  {
  }

  /** A byte below 0x80 after the continuation bytes gathered so far ends a well-formed prefix. */
  lemma FinalByte(data: seq<byte>, start: nat, pos: nat, shift: nat)
    requires start + shift == pos
    requires shift < MaxPrefixBytes && Gathered(data, pos, shift) && pos < |data| && data[pos] < 128
    ensures IsPrefix(data[start..pos + 1])
  {
    assert data[start..pos + 1][..shift] == data[start..pos];
  }

  lemma {:induction false} PrefixFromOverlong(data: seq<byte>, start: nat, pos: nat, shift: nat)
    requires start + shift == pos
    requires shift < MaxPrefixBytes && Gathered(data, pos, shift)
    ensures var r := PrefixFrom(data, pos, shift, PrefixValue(data[start..pos]));
      r.PrefixOverlong? <==> start + MaxPrefixBytes <= |data|
                             && AllContinue(data[start..start + MaxPrefixBytes])
    decreases MaxPrefixBytes - shift
  {
    if pos < |data| && data[pos] >= 128 && shift + 1 < MaxPrefixBytes {
      GatherMore(data, pos, shift);
      PrefixFromOverlong(data, start, pos + 1, shift + 1);
      GatheredValue(data, start, pos);
      OverlongStep(data, start, pos, shift);
    } else {
      OverlongLast(data, start, pos, shift);
    }
  }

  /** The step of PrefixFromOverlong. */
  lemma OverlongStep(data: seq<byte>, start: nat, pos: nat, shift: nat)
    requires start + shift == pos
    requires shift + 1 < MaxPrefixBytes && pos < |data| && shift <= pos && data[pos] >= 128
    requires var acc' := PrefixValue(data[start..pos + 1]);
      acc' == PrefixValue(data[start..pos]) + Shift7(data[pos] % 128, shift)
    requires var r := PrefixFrom(data, pos + 1, shift + 1, PrefixValue(data[start..pos + 1]));
      r.PrefixOverlong? <==> start + MaxPrefixBytes <= |data|
                             && AllContinue(data[start..start + MaxPrefixBytes])
    ensures var r := PrefixFrom(data, pos, shift, PrefixValue(data[start..pos]));
      r.PrefixOverlong? <==> start + MaxPrefixBytes <= |data|
                             && AllContinue(data[start..start + MaxPrefixBytes])
  {
    ContinueGathered(data, start, pos, shift);
  }

  /** PrefixFromOverlong where the loop does not go on. */
  lemma OverlongLast(data: seq<byte>, start: nat, pos: nat, shift: nat)
    requires start + shift == pos
    requires shift < MaxPrefixBytes && Gathered(data, pos, shift)
    requires !(pos < |data| && data[pos] >= 128 && shift + 1 < MaxPrefixBytes)
    ensures var r := PrefixFrom(data, pos, shift, PrefixValue(data[start..pos]));
      r.PrefixOverlong? <==> start + MaxPrefixBytes <= |data|
                             && AllContinue(data[start..start + MaxPrefixBytes])
  {
    var acc := PrefixValue(data[start..pos]);
    if pos >= |data| {
      EofUnfold(data, pos, shift, acc);
    } else if data[pos] < 128 {
      StopUnfold(data, pos, shift, acc);
      if start + MaxPrefixBytes <= |data| {
        assert data[start..start + MaxPrefixBytes][shift] == data[pos];
      }
    } else {
      OverlongUnfold(data, pos, shift, acc);
      GatherMore(data, pos, shift);
      assert data[start..pos + 1] == data[start..start + MaxPrefixBytes];
    }
  }

  lemma {:induction false} PrefixFromEof(data: seq<byte>, start: nat, pos: nat, shift: nat)
    requires start + shift == pos
    requires shift < MaxPrefixBytes && Gathered(data, pos, shift)
    ensures var r := PrefixFrom(data, pos, shift, PrefixValue(data[start..pos]));
      r.PrefixEof? <==> start + MaxPrefixBytes > |data| && AllContinue(data[start..])
    decreases MaxPrefixBytes - shift
  {
    if pos < |data| && data[pos] >= 128 && shift + 1 < MaxPrefixBytes {
      GatherMore(data, pos, shift);
      PrefixFromEof(data, start, pos + 1, shift + 1);
      GatheredValue(data, start, pos);
      EofStep(data, start, pos, shift);
    } else {
      EofLast(data, start, pos, shift);
    }
  }

  /** The step of PrefixFromEof. */
  lemma EofStep(data: seq<byte>, start: nat, pos: nat, shift: nat)
    requires start + shift == pos
    requires shift + 1 < MaxPrefixBytes && pos < |data| && shift <= pos && data[pos] >= 128
    requires var acc' := PrefixValue(data[start..pos + 1]);
      acc' == PrefixValue(data[start..pos]) + Shift7(data[pos] % 128, shift)
    requires var r := PrefixFrom(data, pos + 1, shift + 1, PrefixValue(data[start..pos + 1]));
      r.PrefixEof? <==> start + MaxPrefixBytes > |data| && AllContinue(data[start..])
    ensures var r := PrefixFrom(data, pos, shift, PrefixValue(data[start..pos]));
      r.PrefixEof? <==> start + MaxPrefixBytes > |data| && AllContinue(data[start..])
  {
    ContinueGathered(data, start, pos, shift);
  }

  /** PrefixFromEof where the loop does not go on. */
  lemma EofLast(data: seq<byte>, start: nat, pos: nat, shift: nat)
    requires start + shift == pos
    requires shift < MaxPrefixBytes && Gathered(data, pos, shift)
    requires !(pos < |data| && data[pos] >= 128 && shift + 1 < MaxPrefixBytes)
    ensures var r := PrefixFrom(data, pos, shift, PrefixValue(data[start..pos]));
      r.PrefixEof? <==> start + MaxPrefixBytes > |data| && AllContinue(data[start..])
  {
    var acc := PrefixValue(data[start..pos]);
    if pos >= |data| {
      EofUnfold(data, pos, shift, acc);
      assert data[start..] == data[start..pos];
    } else if data[pos] < 128 {
      StopUnfold(data, pos, shift, acc);
      assert data[start..][shift] == data[pos];
    } else {
      OverlongUnfold(data, pos, shift, acc);
    }
  }

  /**
   * The prefix reader, all cases: a length, exactly when the bytes at `pos`
   * form a well-formed prefix, whose value is the size; an error when five
   * continuation bytes follow; StopIteration when the stream ends within a
   * run of continuation bytes, at a frame boundary included.
   */
  lemma ReadPrefixCharacterised(data: seq<byte>, pos: nat)
    requires pos <= |data|
    ensures var r := ReadPrefix(data, pos);
      && (r.PrefixLength? ==> IsPrefix(data[pos..r.next]) && r.size == PrefixValue(data[pos..r.next]))
      && (r.PrefixOverlong? <==> pos + MaxPrefixBytes <= |data|
                                 && AllContinue(data[pos..pos + MaxPrefixBytes]))
      && (r.PrefixEof? <==> pos + MaxPrefixBytes > |data| && AllContinue(data[pos..]))
  {
    assert data[pos..pos] == [];
    PrefixFromLength(data, pos, pos, 0);
    PrefixFromOverlong(data, pos, pos, 0);
    PrefixFromEof(data, pos, pos, 0);
  }

  // ---------------------------------------------------------------------------
  // Encoding, the writer's side (the engine produces it)

  /** The Protocol Buffers varint encoding of `n`. */
  function EncodeVarint(n: nat): (r: seq<byte>)
    ensures |r| >= 1
    decreases n
  {
    if n < 128 then [n] else [n % 128 + 128] + EncodeVarint(n / 128)
  }

  lemma {:induction false} EncodeVarintLength(n: nat, k: nat)
    requires k >= 1 && n < Pow128(k)
    ensures |EncodeVarint(n)| <= k
    decreases n
  {
    if n >= 128 {
      assert k >= 2;
      assert Pow128(k) == 128 * Pow128(k - 1);
      assert EncodeVarint(n) == [n % 128 + 128] + EncodeVarint(n / 128);
      assert n / 128 < Pow128(k - 1);
      EncodeVarintLength(n / 128, k - 1);
    }
  }

  lemma {:induction false} PrefixFromEncoded(data: seq<byte>, pos: nat, shift: nat, acc: nat, n: nat)
    requires shift + |EncodeVarint(n)| <= MaxPrefixBytes
    requires pos + |EncodeVarint(n)| <= |data| && data[pos..pos + |EncodeVarint(n)|] == EncodeVarint(n)
    ensures PrefixFrom(data, pos, shift, acc) == PrefixLength(acc + Shift7(n, shift), pos + |EncodeVarint(n)|)
    decreases n
  {
    if n >= 128 {
      EncodedTail(data, pos, n);
      PrefixFromEncoded(data, pos + 1, shift + 1, acc + Shift7(n % 128, shift), n / 128);
      EncodedStep(data, pos, shift, acc, n);
    } else {
      assert data[pos] == data[pos..pos + 1][0];
    }
  }

  /** The first byte of an encoding of at least 128 and the encoding of the rest behind it. */
  lemma EncodedTail(data: seq<byte>, pos: nat, n: nat)
    requires n >= 128
    requires pos + |EncodeVarint(n)| <= |data| && data[pos..pos + |EncodeVarint(n)|] == EncodeVarint(n)
    ensures data[pos] == n % 128 + 128
    ensures var tail := EncodeVarint(n / 128);
      |EncodeVarint(n)| == 1 + |tail| && data[pos + 1..pos + 1 + |tail|] == tail
  {
    var enc, tail := EncodeVarint(n), EncodeVarint(n / 128);
    assert enc == [n % 128 + 128] + tail;
    assert data[pos] == data[pos..pos + |enc|][0];
    assert data[pos + 1..pos + 1 + |tail|] == data[pos..pos + |enc|][1..];
  }

  /** The step of PrefixFromEncoded: a continuation byte, then the rest of the encoding. */
  lemma EncodedStep(data: seq<byte>, pos: nat, shift: nat, acc: nat, n: nat)
    requires n >= 128 && shift + |EncodeVarint(n)| <= MaxPrefixBytes
    requires pos < |data| && data[pos] == n % 128 + 128 && |EncodeVarint(n)| == 1 + |EncodeVarint(n / 128)|
    requires var acc' := acc + Shift7(n % 128, shift);
      PrefixFrom(data, pos + 1, shift + 1, acc')
        == PrefixLength(acc' + Shift7(n / 128, shift + 1), pos + 1 + |EncodeVarint(n / 128)|)
    ensures PrefixFrom(data, pos, shift, acc) == PrefixLength(acc + Shift7(n, shift), pos + |EncodeVarint(n)|)
  {
    assert |EncodeVarint(n / 128)| >= 1;
    assert data[pos] % 128 == n % 128;
    ContinueUnfold(data, pos, shift, acc, acc + Shift7(n % 128, shift));
    ShiftDigits(n, shift);
  }

  /** Splitting off the low seven bits: `(n & 0x7f) << 7s` plus `(n >> 7) << 7(s + 1)` is `n << 7s`. */
  lemma {:induction false} ShiftDigits(n: nat, shift: nat)
    ensures Shift7(n % 128, shift) + Shift7(n / 128, shift + 1) == Shift7(n, shift)
  {
    if shift > 0 {
      ShiftDigits(n, shift - 1);
    }
  }

  /** Reading back the varint encoding of any n < 2^35 (five 7-bit groups) yields n. */
  lemma VarintRoundTrip(n: nat, rest: seq<byte>)
    requires n < Pow128(MaxPrefixBytes)
    ensures ReadPrefix(EncodeVarint(n) + rest, 0) == PrefixLength(n, |EncodeVarint(n)|)
  {
    EncodeVarintLength(n, MaxPrefixBytes);
    var data := EncodeVarint(n) + rest;
    LeadingPart(EncodeVarint(n), rest);
    PrefixFromEncoded(data, 0, 0, 0, n);
  }

  // ---------------------------------------------------------------------------
  // One call of `next()`

  /** What one call of `next()` produces. */
  datatype Pull<M> =
    | Event(msg: M)              // the decoded message
    | Stopped                    // StopIteration: end of stream while reading a prefix
    | NotVarint32                // "Expected varint32 length-delimeted message"
    | UnexpectedEof(size: nat)   // "Unexpected EOF reading <size> bytes"

  /**
   * The result of `next()` at stream index `pos`: what it returns, the index
   * the reader stands at afterwards, and the payloads it reported as
   * undecodable (and skipped) on the way.
   */
  datatype Step<M> = Step(pull: Pull<M>, next: nat, rejected: seq<seq<byte>>)

  /** The frame size announced at `pos`, or nothing if no well-formed prefix starts there. */
  function FrameSize(data: seq<byte>, pos: nat): Option<nat> {
    match ReadPrefix(data, pos)
    case PrefixLength(size, _) => Some(size)
    case _ => None
  }

  /**
   * `next()` of ja/frontend.py: payload reads are repeated until `size` bytes
   * arrived or a read comes back empty, so the outcome does not depend on how
   * the reader splits the stream.
   */
  function NextRetrying<M>(data: seq<byte>, pos: nat, decode: seq<byte> -> Option<M>): (r: Step<M>)
    requires pos <= |data|
    ensures pos <= r.next <= |data|
    ensures r.pull.Event? ==> pos < r.next
    decreases |data| - pos
  {
    match ReadPrefix(data, pos)
    case PrefixEof => Step(Stopped, |data|, [])
    case PrefixOverlong => Step(NotVarint32, pos + MaxPrefixBytes, [])
    case PrefixLength(size, start) =>
      if |data| - start < size then Step(UnexpectedEof(size), |data|, [])
      else
        var payload := data[start..start + size];
        match decode(payload)
        case Some(m) => Step(Event(m), start + size, [])
        case None =>
          var s := NextRetrying(data, start + size, decode);
          Step(s.pull, s.next, [payload] + s.rejected)
  }

  /** How many bytes one `read(n)` delivers when `burst` is the most the pipe hands over at once. */
  function Delivered(n: nat, available: nat, burst: nat): (k: nat)
    ensures k <= n && k <= available
  {
    if n <= available && n <= burst then n else if available <= burst then available else burst
  }

  /**
   * `next()` of frontend.py: one `read(size)` for the payload; if it returns
   * fewer bytes than announced, the frame fails.
   */
  function NextSingleRead<M>(data: seq<byte>, pos: nat, burst: nat, decode: seq<byte> -> Option<M>): (r: Step<M>)
    requires pos <= |data|
    ensures pos <= r.next <= |data|
    ensures r.pull.Event? ==> pos < r.next
    decreases |data| - pos
  {
    match ReadPrefix(data, pos)
    case PrefixEof => Step(Stopped, |data|, [])
    case PrefixOverlong => Step(NotVarint32, pos + MaxPrefixBytes, [])
    case PrefixLength(size, start) =>
      var got := Delivered(size, |data| - start, burst);
      if got != size then Step(UnexpectedEof(size), start + got, [])
      else
        var payload := data[start..start + size];
        match decode(payload)
        case Some(m) => Step(Event(m), start + size, [])
        case None =>
          var s := NextSingleRead(data, start + size, burst, decode);
          Step(s.pull, s.next, [payload] + s.rejected)
  }

  // The two `next()` functions unfolded once, outcome by outcome.

  lemma NextAtEof<M>(data: seq<byte>, pos: nat, burst: nat, decode: seq<byte> -> Option<M>)
    requires pos <= |data| && ReadPrefix(data, pos).PrefixEof?
    ensures NextRetrying(data, pos, decode) == Step(Stopped, |data|, [])
    ensures NextSingleRead(data, pos, burst, decode) == Step(Stopped, |data|, [])
  {
  }

  lemma NextAtOverlong<M>(data: seq<byte>, pos: nat, burst: nat, decode: seq<byte> -> Option<M>)
    requires pos <= |data| && ReadPrefix(data, pos).PrefixOverlong?
    ensures NextRetrying(data, pos, decode) == Step(NotVarint32, pos + MaxPrefixBytes, [])
    ensures NextSingleRead(data, pos, burst, decode) == Step(NotVarint32, pos + MaxPrefixBytes, [])
  {
  }

  lemma RetryingCut<M>(data: seq<byte>, pos: nat, decode: seq<byte> -> Option<M>, size: nat, start: nat)
    requires pos <= |data| && ReadPrefix(data, pos) == PrefixLength(size, start) && |data| - start < size
    ensures NextRetrying(data, pos, decode) == Step(UnexpectedEof(size), |data|, [])
  {
  }

  lemma RetryingAccepts<M>(data: seq<byte>, pos: nat, decode: seq<byte> -> Option<M>, size: nat, start: nat, m: M)
    requires pos <= |data| && ReadPrefix(data, pos) == PrefixLength(size, start) && start + size <= |data|
    requires decode(data[start..start + size]) == Some(m)
    ensures NextRetrying(data, pos, decode) == Step(Event(m), start + size, [])
  {
  }

  lemma RetryingRejects<M>(data: seq<byte>, pos: nat, decode: seq<byte> -> Option<M>, size: nat, start: nat)
    requires pos <= |data| && ReadPrefix(data, pos) == PrefixLength(size, start) && start + size <= |data|
    requires decode(data[start..start + size]).None?
    ensures var s := NextRetrying(data, start + size, decode);
      NextRetrying(data, pos, decode) == Step(s.pull, s.next, [data[start..start + size]] + s.rejected)
  {
  }

  lemma SingleReadCut<M>(data: seq<byte>, pos: nat, burst: nat, decode: seq<byte> -> Option<M>, size: nat, start: nat)
    requires pos <= |data| && ReadPrefix(data, pos) == PrefixLength(size, start)
    requires Delivered(size, |data| - start, burst) != size
    ensures NextSingleRead(data, pos, burst, decode)
         == Step(UnexpectedEof(size), start + Delivered(size, |data| - start, burst), [])
  {
  }

  lemma SingleReadAccepts<M>(data: seq<byte>, pos: nat, burst: nat, decode: seq<byte> -> Option<M>, size: nat, start: nat, m: M)
    requires pos <= |data| && ReadPrefix(data, pos) == PrefixLength(size, start)
    requires Delivered(size, |data| - start, burst) == size
    requires decode(data[start..start + size]) == Some(m)
    ensures NextSingleRead(data, pos, burst, decode) == Step(Event(m), start + size, [])
  {
  }

  lemma SingleReadRejects<M>(data: seq<byte>, pos: nat, burst: nat, decode: seq<byte> -> Option<M>, size: nat, start: nat)
    requires pos <= |data| && ReadPrefix(data, pos) == PrefixLength(size, start)
    requires Delivered(size, |data| - start, burst) == size
    requires decode(data[start..start + size]).None?
    ensures var s := NextSingleRead(data, start + size, burst, decode);
      NextSingleRead(data, pos, burst, decode) == Step(s.pull, s.next, [data[start..start + size]] + s.rejected)
  {
  }

  // ---------------------------------------------------------------------------
  // Whole streams

  /** A frame as the engine writes it. */
  function EncodeFrame(payload: seq<byte>): seq<byte> {
    EncodeVarint(|payload|) + payload
  }

  function EncodeFrames(payloads: seq<seq<byte>>): seq<byte> {
    if payloads == [] then [] else EncodeFrame(payloads[0]) + EncodeFrames(payloads[1..])
  }

  /** Every payload fits the five-byte prefix. */
  predicate Framable(payloads: seq<seq<byte>>) {
    forall i :: 0 <= i < |payloads| ==> |payloads[i]| < Pow128(MaxPrefixBytes)
  }

  /** The messages of the payloads that decode, in order. */
  function Decoded<M>(payloads: seq<seq<byte>>, decode: seq<byte> -> Option<M>): seq<M> {
    if payloads == [] then []
    else (match decode(payloads[0]) case Some(m) => [m] case None => []) + Decoded(payloads[1..], decode)
  }

  /** The payloads that do not decode, in order. */
  function Undecodable<M>(payloads: seq<seq<byte>>, decode: seq<byte> -> Option<M>): seq<seq<byte>> {
    if payloads == [] then []
    else (if decode(payloads[0]).None? then [payloads[0]] else []) + Undecodable(payloads[1..], decode)
  }

  /** Iterating `next()` of ja/frontend.py from `pos` until it stops returning messages. */
  datatype Run<M> = Run(events: seq<M>, last: Pull<M>, rejected: seq<seq<byte>>)

  function Iterate<M>(data: seq<byte>, pos: nat, decode: seq<byte> -> Option<M>): Run<M>
    requires pos <= |data|
    decreases |data| - pos
  {
    var s := NextRetrying(data, pos, decode);
    if s.pull.Event? then
      var rest := Iterate(data, s.next, decode);
      Run([s.pull.msg] + rest.events, rest.last, s.rejected + rest.rejected)
    else Run([], s.pull, s.rejected)
  }

  /** A well-formed frame at `pos` is consumed exactly: prefix plus `size` payload bytes. */
  lemma {:induction false} OneFrame<M>(data: seq<byte>, pos: nat, payload: seq<byte>, decode: seq<byte> -> Option<M>)
    requires |payload| < Pow128(MaxPrefixBytes)
    requires pos + |EncodeFrame(payload)| <= |data| && data[pos..pos + |EncodeFrame(payload)|] == EncodeFrame(payload)
    ensures ReadPrefix(data, pos) == PrefixLength(|payload|, pos + |EncodeVarint(|payload|)|)
    ensures data[pos + |EncodeVarint(|payload|)|..pos + |EncodeFrame(payload)|] == payload
  {
    var enc := EncodeVarint(|payload|);
    EncodeVarintLength(|payload|, MaxPrefixBytes);
    assert data[pos..pos + |enc|] == enc by {
      assert data[pos..pos + |enc|] == data[pos..pos + |EncodeFrame(payload)|][..|enc|];
    }
    PrefixFromEncoded(data, pos, 0, 0, |payload|);
    assert data[pos + |enc|..pos + |EncodeFrame(payload)|] == data[pos..pos + |EncodeFrame(payload)|][|enc|..];
  }

  /** A complete frame starts at `pos`: a well-formed prefix and all of its payload. */
  predicate WholeFrameAt(data: seq<byte>, pos: nat) {
    var p := ReadPrefix(data, pos);
    p.PrefixLength? && p.next + p.size <= |data|
  }

  /** The payload of the complete frame at `pos`. */
  function PayloadAt(data: seq<byte>, pos: nat): seq<byte>
    requires WholeFrameAt(data, pos)
  {
    var p := ReadPrefix(data, pos);
    data[p.next..p.next + p.size]
  }

  /** The index just after the complete frame at `pos`. */
  function FrameEnd(data: seq<byte>, pos: nat): (e: nat)
    requires WholeFrameAt(data, pos)
    ensures pos < e <= |data|
  {
    var p := ReadPrefix(data, pos);
    p.next + p.size
  }

  /** A frame whose payload decodes: `next()` returns its message, and iteration goes on after it. */
  lemma IterateAccepted<M>(data: seq<byte>, pos: nat, decode: seq<byte> -> Option<M>)
    requires pos <= |data| && WholeFrameAt(data, pos) && decode(PayloadAt(data, pos)).Some?
    ensures var r := Iterate(data, FrameEnd(data, pos), decode);
      Iterate(data, pos, decode) == Run([decode(PayloadAt(data, pos)).value] + r.events, r.last, r.rejected)
  {
  }

  /**
   * A frame whose payload does not decode is reported and skipped: the
   * iteration yields exactly what it yields from the next frame on.
   */
  lemma IterateRejected<M>(data: seq<byte>, pos: nat, decode: seq<byte> -> Option<M>)
    requires pos <= |data| && WholeFrameAt(data, pos) && decode(PayloadAt(data, pos)).None?
    ensures var r := Iterate(data, FrameEnd(data, pos), decode);
      Iterate(data, pos, decode) == Run(r.events, r.last, [PayloadAt(data, pos)] + r.rejected)
  {
    var p, e := ReadPrefix(data, pos), FrameEnd(data, pos);
    RetryingRejects(data, pos, decode, p.size, p.next);
    var s := NextRetrying(data, e, decode);
    IterateUnfold(data, pos, decode);
    IterateUnfold(data, e, decode);
    if s.pull.Event? {
      Assoc([PayloadAt(data, pos)], s.rejected, Iterate(data, s.next, decode).rejected);
    }
  }

  /** Iterate unfolded once. */
  lemma IterateUnfold<M>(data: seq<byte>, pos: nat, decode: seq<byte> -> Option<M>)
    requires pos <= |data|
    ensures var s := NextRetrying(data, pos, decode);
      Iterate(data, pos, decode)
        == if s.pull.Event? then
             var rest := Iterate(data, s.next, decode);
             Run([s.pull.msg] + rest.events, rest.last, s.rejected + rest.rejected)
           else Run([], s.pull, s.rejected)
  {
  }

  /**
   * N well-formed frames yield, in order, the messages of the payloads that
   * decode; every payload that does not decode is reported and skipped, and
   * the stream then ends with StopIteration at the frame boundary.
   */
  lemma IterateFrames<M>(payloads: seq<seq<byte>>, decode: seq<byte> -> Option<M>)
    requires Framable(payloads)
    ensures Iterate(EncodeFrames(payloads), 0, decode)
         == Run(Decoded(payloads, decode), Stopped, Undecodable(payloads, decode))
  {
    var data := EncodeFrames(payloads);
    assert data[0..|data|] == data;
    IterateFramesIn(data, 0, payloads, decode);
    assert Iterate(data, |data|, decode) == Run([], Stopped, []);
    assert Decoded(payloads, decode) + [] == Decoded(payloads, decode);
    assert Undecodable(payloads, decode) + [] == Undecodable(payloads, decode);
  }

  /**
   * Whole frames anywhere in the stream: iteration from their start yields
   * their decodable messages and reports the rest, then goes on with
   * whatever the bytes after them yield.
   */
  lemma {:induction false} IterateFramesIn<M>(data: seq<byte>, pos: nat, payloads: seq<seq<byte>>,
                                               decode: seq<byte> -> Option<M>)
    requires Framable(payloads)
    requires pos + |EncodeFrames(payloads)| <= |data|
    requires data[pos..pos + |EncodeFrames(payloads)|] == EncodeFrames(payloads)
    ensures var r := Iterate(data, pos + |EncodeFrames(payloads)|, decode);
      Iterate(data, pos, decode)
        == Run(Decoded(payloads, decode) + r.events, r.last, Undecodable(payloads, decode) + r.rejected)
    decreases |payloads|
  {
    if payloads == [] {
      NoFrames(data, pos, payloads, decode);
    } else {
      var p, rest := payloads[0], payloads[1..];
      var frame := EncodeFrame(p);
      assert EncodeFrames(payloads) == frame + EncodeFrames(rest);
      SliceParts(data, pos, frame, EncodeFrames(rest));
      FrameAt(data, pos, p, decode);
      FramableRest(payloads);
      var mid, end := pos + |frame|, pos + |EncodeFrames(payloads)|;
      IterateFramesIn(data, mid, rest, decode);
      assert mid + |EncodeFrames(rest)| == end;
      var r := Iterate(data, end, decode);
      assert Iterate(data, mid, decode)
          == Run(Decoded(rest, decode) + r.events, r.last, Undecodable(rest, decode) + r.rejected);
      FramesStep(data, pos, mid, end, payloads, decode);
    }
  }

  /** IterateFramesIn for no frames at all. */
  lemma NoFrames<M>(data: seq<byte>, pos: nat, payloads: seq<seq<byte>>, decode: seq<byte> -> Option<M>)
    requires payloads == [] && pos <= |data|
    ensures var r := Iterate(data, pos + |EncodeFrames(payloads)|, decode);
      Iterate(data, pos, decode)
        == Run(Decoded(payloads, decode) + r.events, r.last, Undecodable(payloads, decode) + r.rejected)
  {
    assert EncodeFrames(payloads) == [];
    var r := Iterate(data, pos, decode);
    assert Decoded(payloads, decode) == [] && Undecodable(payloads, decode) == [];
    assert [] + r.events == r.events && [] + r.rejected == r.rejected;
  }

  /** The step of IterateFramesIn: the first frame, then the frames after it. */
  lemma FramesStep<M>(data: seq<byte>, pos: nat, mid: nat, end: nat, payloads: seq<seq<byte>>,
                      decode: seq<byte> -> Option<M>)
    requires payloads != [] && pos <= |data| && mid <= end <= |data|
    requires WholeFrameAt(data, pos) && PayloadAt(data, pos) == payloads[0] && FrameEnd(data, pos) == mid
    requires var r := Iterate(data, end, decode);
      Iterate(data, mid, decode)
        == Run(Decoded(payloads[1..], decode) + r.events, r.last, Undecodable(payloads[1..], decode) + r.rejected)
    ensures var r := Iterate(data, end, decode);
      Iterate(data, pos, decode)
        == Run(Decoded(payloads, decode) + r.events, r.last, Undecodable(payloads, decode) + r.rejected)
  {
    var p := payloads[0];
    var d, u := Decoded(payloads[1..], decode), Undecodable(payloads[1..], decode);
    var x, y, r := Iterate(data, pos, decode), Iterate(data, mid, decode), Iterate(data, end, decode);
    if decode(p).Some? {
      IterateAccepted(data, pos, decode);
      RunAccepted(x, y, decode(p).value, d, u, r);
      assert Decoded(payloads, decode) == [decode(p).value] + d;
      assert Undecodable(payloads, decode) == [] + u == u;
    } else {
      IterateRejected(data, pos, decode);
      RunRejected(x, y, p, d, u, r);
      assert Decoded(payloads, decode) == [] + d == d;
      assert Undecodable(payloads, decode) == [p] + u;
    }
  }

  /** The frame of `payload`, found at `pos`. */
  lemma FrameAt<M>(data: seq<byte>, pos: nat, payload: seq<byte>, decode: seq<byte> -> Option<M>)
    requires |payload| < Pow128(MaxPrefixBytes)
    requires pos + |EncodeFrame(payload)| <= |data| && data[pos..pos + |EncodeFrame(payload)|] == EncodeFrame(payload)
    ensures WholeFrameAt(data, pos) && PayloadAt(data, pos) == payload
    ensures FrameEnd(data, pos) == pos + |EncodeFrame(payload)|
  {
    OneFrame(data, pos, payload, decode);
  }

  lemma FramableRest(payloads: seq<seq<byte>>)
    requires Framable(payloads) && payloads != []
    ensures Framable(payloads[1..])
  {
    forall i | 0 <= i < |payloads[1..]| ensures |payloads[1..][i]| < Pow128(MaxPrefixBytes) {
      assert payloads[1..][i] == payloads[i + 1];
    }
  }

  /** Putting a decoded message in front of the messages after it. */
  lemma RunAccepted<M>(x: Run<M>, y: Run<M>, m: M, d: seq<M>, u: seq<seq<byte>>, r: Run<M>)
    requires y == Run(d + r.events, r.last, u + r.rejected)
    requires x == Run([m] + y.events, y.last, y.rejected)
    ensures x == Run(([m] + d) + r.events, r.last, u + r.rejected)
  {
  }

  /** Putting a rejected payload in front of the payloads rejected after it. */
  lemma RunRejected<M>(x: Run<M>, y: Run<M>, p: seq<byte>, d: seq<M>, u: seq<seq<byte>>, r: Run<M>)
    requires y == Run(d + r.events, r.last, u + r.rejected)
    requires x == Run(y.events, y.last, [p] + y.rejected)
    ensures x == Run(d + r.events, r.last, ([p] + u) + r.rejected)
  {
  }

  /**
   * Where the stream ends inside a frame, `next()` of either copy ends in
   * "Unexpected EOF" when the cut falls inside the payload, and in
   * StopIteration when it falls inside the length prefix; it reports no
   * payload on the way.
   */
  lemma TruncatedFrameAt<M>(data: seq<byte>, pos: nat, payload: seq<byte>, cut: nat, burst: nat,
                            decode: seq<byte> -> Option<M>)
    requires |payload| < Pow128(MaxPrefixBytes) && cut < |EncodeFrame(payload)|
    requires pos <= |data| && data[pos..] == EncodeFrame(payload)[..cut]
    ensures var want := if cut < |EncodeVarint(|payload|)| then Stopped else UnexpectedEof(|payload|);
      && NextRetrying(data, pos, decode).pull == want && NextRetrying(data, pos, decode).rejected == []
      && NextSingleRead(data, pos, burst, decode).pull == want
      && NextSingleRead(data, pos, burst, decode).rejected == []
  {
    var enc := EncodeVarint(|payload|);
    EncodeVarintLength(|payload|, MaxPrefixBytes);
    assert |data| == pos + cut;
    if cut >= |enc| {
      assert data[pos..pos + |enc|] == data[pos..][..|enc|] == EncodeFrame(payload)[..cut][..|enc|] == enc;
      PrefixFromEncoded(data, pos, 0, 0, |payload|);
      assert ReadPrefix(data, pos) == PrefixLength(|payload|, pos + |enc|);
      assert Delivered(|payload|, |data| - (pos + |enc|), burst) < |payload|;
    } else {
      EncodeVarintIsPrefix(|payload|);
      assert AllContinue(data[pos..]) by {
        forall i | 0 <= i < |data[pos..]| ensures data[pos..][i] >= 128 {
          assert data[pos..][i] == enc[..|enc| - 1][i];
        }
      }
      ReadPrefixCharacterised(data, pos);
    }
  }

  /**
   * Whole frames followed by a cut-off frame: the whole frames yield what
   * IterateFrames says, and the cut-off one ends the iteration as
   * TruncatedFrameAt says.
   */
  lemma TruncatedStream<M>(payloads: seq<seq<byte>>, payload: seq<byte>, cut: nat, decode: seq<byte> -> Option<M>)
    requires Framable(payloads) && |payload| < Pow128(MaxPrefixBytes) && cut < |EncodeFrame(payload)|
    ensures Iterate(EncodeFrames(payloads) + EncodeFrame(payload)[..cut], 0, decode)
         == Run(Decoded(payloads, decode),
                if cut < |EncodeVarint(|payload|)| then Stopped else UnexpectedEof(|payload|),
                Undecodable(payloads, decode))
  {
    var tail := EncodeFrame(payload)[..cut];
    var data := EncodeFrames(payloads) + tail;
    var pos := |EncodeFrames(payloads)|;
    assert data[0..pos] == EncodeFrames(payloads);
    IterateFramesIn(data, 0, payloads, decode);
    assert data[pos..] == tail;
    TruncatedFrameAt(data, pos, payload, cut, 0, decode);
    var r := Iterate(data, pos, decode);
    assert r.events == [] && r.rejected == [];
    assert Decoded(payloads, decode) + [] == Decoded(payloads, decode);
    assert Undecodable(payloads, decode) + [] == Undecodable(payloads, decode);
  }

  /** The encoding of a number is itself a well-formed prefix when it fits in five bytes. */
  lemma {:induction false} EncodeVarintIsPrefix(n: nat)
    requires |EncodeVarint(n)| <= MaxPrefixBytes
    ensures IsPrefix(EncodeVarint(n))
    decreases n
  {
    if n >= 128 {
      EncodeVarintIsPrefix(n / 128);
      var t := EncodeVarint(n / 128);
      assert EncodeVarint(n)[..|EncodeVarint(n)| - 1] == [n % 128 + 128] + t[..|t| - 1];
    }
  }

  // ---------------------------------------------------------------------------
  // The two copies compared

  /** When no read is ever cut short, the copy without retries behaves like the one with them. */
  lemma {:induction false} SingleReadAgreesWithoutShortReads<M>(data: seq<byte>, pos: nat, burst: nat, decode: seq<byte> -> Option<M>)
    requires pos <= |data| && burst >= |data|
    ensures NextSingleRead(data, pos, burst, decode) == NextRetrying(data, pos, decode)
    decreases |data| - pos
  {
    match ReadPrefix(data, pos)
    case PrefixEof =>
    case PrefixOverlong =>
    case PrefixLength(size, start) =>
      if |data| - start >= size {
        var payload := data[start..start + size];
        if decode(payload).None? {
          SingleReadAgreesWithoutShortReads(data, start + size, burst, decode);
        }
      }
  }

  /**
   * A complete frame larger than one read delivers: frontend.py reports
   * "Unexpected EOF" where ja/frontend.py, retrying, returns the message.
   */
  lemma ShortReadOnlyFailsWithoutRetry<M>(data: seq<byte>, pos: nat, burst: nat, decode: seq<byte> -> Option<M>)
    requires pos <= |data| && WholeFrameAt(data, pos) && decode(PayloadAt(data, pos)).Some?
    requires burst < ReadPrefix(data, pos).size
    ensures NextSingleRead(data, pos, burst, decode).pull == UnexpectedEof(ReadPrefix(data, pos).size)
    ensures NextRetrying(data, pos, decode).pull == Event(decode(PayloadAt(data, pos)).value)
  {
  }

  // ---------------------------------------------------------------------------
  // The byte source

  /**
   * The reader behind `self.reader`: the bytes the engine will ever write,
   * the index of the next unread byte, and `burst`, the most bytes one
   * `read(n)` hands over (a pipe delivers what has arrived, at least one byte
   * unless the writer has closed it).
   */
  class Reader {
    const data: seq<byte>
    const burst: nat
    var pos: nat

    ghost predicate Valid()
      reads this
    {
      burst >= 1 && pos <= |data|
    }

    constructor (data: seq<byte>, burst: nat)
      requires burst >= 1
      ensures Valid() && this.data == data && this.burst == burst && pos == 0
    {
      this.data := data;
      this.burst := burst;
      pos := 0;
    }

    /** `read(n)`: the next `Delivered(n, ...)` bytes; empty only at the end of the stream or for n == 0. */
    method Read(n: nat) returns (b: seq<byte>)
      requires Valid()
      modifies this
      ensures Valid()
      ensures |b| == Delivered(n, |data| - old(pos), burst)
      ensures pos == old(pos) + |b| && b == data[old(pos)..pos]
    {
      var k := Delivered(n, |data| - pos, burst);
      b := data[pos..pos + k];
      pos := pos + k;
    }
  }
}

=== FILE: ja_frontend.dfy ===
/**
 * `Frontend.next` of ja/frontend.py: reads one length-delimited frame from
 * the reader, retrying short payload reads, and returns the decoded status
 * message; a payload the decoder rejects is reported and the next frame read.
 */
module JaFrontend {
  import opened Wrappers
  import opened Framing
  import opened Seqs

  class Frontend<M> {
    const reader: Reader
    const decode: seq<byte> -> Option<M>
    /** The payloads reported as undecodable (`print(err)`), oldest first. */
    var reported: seq<seq<byte>>

    constructor (reader: Reader, decode: seq<byte> -> Option<M>)
      ensures this.reader == reader && this.decode == decode && reported == []
    {
      this.reader := reader;
      this.decode := decode;
      reported := [];
    }

    /**
     * The prefix loop of `next()`: single-byte reads, `size` and `shift`
     * updated byte by byte.
     */
    method ReadSize() returns (p: Prefix)
      requires reader.Valid()
      modifies reader
      ensures reader.Valid()
      ensures p == ReadPrefix(reader.data, old(reader.pos))
      ensures p.PrefixLength? ==> reader.pos == p.next
      ensures p.PrefixEof? ==> reader.pos == |reader.data|
      ensures p.PrefixOverlong? ==> reader.pos == old(reader.pos) + MaxPrefixBytes
    {
      ghost var pos0 := reader.pos;
      var size: nat, shift: nat := 0, 0;
      while true
        invariant reader.Valid() && shift < MaxPrefixBytes && reader.pos == pos0 + shift
        invariant PrefixFrom(reader.data, reader.pos, shift, size) == ReadPrefix(reader.data, pos0)
        decreases MaxPrefixBytes - shift
      {
        ghost var at, acc := reader.pos, size;
        var b := reader.Read(1);
        if |b| == 0 {
          EofUnfold(reader.data, at, shift, acc);
          return PrefixEof;
        }
        var x := b[0];
        assert x == reader.data[at];
        size := size + Shift7(x % 128, shift);
        if x < 128 {
          StopUnfold(reader.data, at, shift, acc);
          return PrefixLength(size, reader.pos);
        }
        shift := shift + 1;
        if shift > 4 {
          OverlongUnfold(reader.data, at, shift - 1, acc);
          return PrefixOverlong;
        }
        ContinueUnfold(reader.data, at, shift - 1, acc, size);
      }
    }

    /**
     * The payload loop of ja/frontend.py: reads until `size` bytes arrived
     * or a read comes back empty.
     */
    method ReadPayload(size: nat) returns (message: seq<byte>)
      requires reader.Valid()
      modifies reader
      ensures reader.Valid()
      ensures |reader.data| - old(reader.pos) >= size ==> |message| == size && reader.pos == old(reader.pos) + size
      ensures |reader.data| - old(reader.pos) < size ==> |message| < size && reader.pos == |reader.data|
      ensures message == reader.data[old(reader.pos)..reader.pos]
    {
      message := reader.Read(size);
      while |message| < size
        invariant reader.Valid() && old(reader.pos) <= reader.pos
        invariant message == reader.data[old(reader.pos)..reader.pos]
        invariant |message| <= size
        decreases size - |message|
      {
        var more := reader.Read(size - |message|);
        if |more| == 0 {
          break;
        }
        message := message + more;
      }
    }

    /**
     * One `next()`: what it returns, where the reader then stands and what
     * it reported are those of `NextRetrying`, whatever sizes the reads
     * deliver.
     */
    method Next() returns (r: Pull<M>)
      requires reader.Valid()
      modifies this, reader
      ensures reader.Valid()
      ensures var s := NextRetrying(reader.data, old(reader.pos), decode);
        r == s.pull && reader.pos == s.next && reported == old(reported) + s.rejected
      decreases |reader.data| - reader.pos
    {
      ghost var pos0 := reader.pos;
      var p := ReadSize();
      match p
      case PrefixEof =>
        NextAtEof(reader.data, pos0, 0, decode);
        return Stopped;
      case PrefixOverlong =>
        NextAtOverlong(reader.data, pos0, 0, decode);
        return NotVarint32;
      case PrefixLength(size, start) =>
        var message := ReadPayload(size);
        if |message| != size {
          RetryingCut(reader.data, pos0, decode, size, start);
          return UnexpectedEof(size);
        }
        match decode(message)
        case Some(m) =>
          RetryingAccepts(reader.data, pos0, decode, size, start, m);
          return Event(m);
        case None =>
          RetryingRejects(reader.data, pos0, decode, size, start);
          ghost var before := reported;
          reported := reported + [message];
          r := Next();
          Assoc(before, [message], NextRetrying(reader.data, start + size, decode).rejected);
    }
  }
}

=== FILE: legacy_frontend.dfy ===
/**
 * `Frontend.next` of the older top-level frontend.py: the same framing as
 * ja/frontend.py, but the payload is fetched with one `read(size)`, and a
 * read cut short is an error rather than retried.
 */
module LegacyFrontend {
  import opened Wrappers
  import opened Framing
  import opened Seqs

  class Frontend<M> {
    const reader: Reader
    const decode: seq<byte> -> Option<M>
    /** The payloads reported as undecodable (`print(err)`), oldest first. */
    var reported: seq<seq<byte>>

    constructor (reader: Reader, decode: seq<byte> -> Option<M>)
      ensures this.reader == reader && this.decode == decode && reported == []
    {
      this.reader := reader;
      this.decode := decode;
      reported := [];
    }

    /** The prefix loop of `next()`, as in ja/frontend.py. */
    method ReadSize() returns (p: Prefix)
      requires reader.Valid()
      modifies reader
      ensures reader.Valid()
      ensures p == ReadPrefix(reader.data, old(reader.pos))
      ensures p.PrefixLength? ==> reader.pos == p.next
      ensures p.PrefixEof? ==> reader.pos == |reader.data|
      ensures p.PrefixOverlong? ==> reader.pos == old(reader.pos) + MaxPrefixBytes
    {
      ghost var pos0 := reader.pos;
      var size: nat, shift: nat := 0, 0;
      while true
        invariant reader.Valid() && shift < MaxPrefixBytes && reader.pos == pos0 + shift
        invariant PrefixFrom(reader.data, reader.pos, shift, size) == ReadPrefix(reader.data, pos0)
        decreases MaxPrefixBytes - shift
      {
        ghost var at, acc := reader.pos, size;
        var b := reader.Read(1);
        if |b| == 0 {
          EofUnfold(reader.data, at, shift, acc);
          return PrefixEof;
        }
        var x := b[0];
        assert x == reader.data[at];
        size := size + Shift7(x % 128, shift);
        if x < 128 {
          StopUnfold(reader.data, at, shift, acc);
          return PrefixLength(size, reader.pos);
        }
        shift := shift + 1;
        if shift > 4 {
          OverlongUnfold(reader.data, at, shift - 1, acc);
          return PrefixOverlong;
        }
        ContinueUnfold(reader.data, at, shift - 1, acc, size);
      }
    }

    /**
     * One `next()`: its outcome is that of `NextSingleRead`, which depends
     * on how many bytes one read delivers.
     */
    method Next() returns (r: Pull<M>)
      requires reader.Valid()
      modifies this, reader
      ensures reader.Valid()
      ensures var s := NextSingleRead(reader.data, old(reader.pos), reader.burst, decode);
        r == s.pull && reader.pos == s.next && reported == old(reported) + s.rejected
      decreases |reader.data| - reader.pos
    {
      ghost var pos0 := reader.pos;
      var p := ReadSize();
      match p
      case PrefixEof =>
        NextAtEof(reader.data, pos0, reader.burst, decode);
        return Stopped;
      case PrefixOverlong =>
        NextAtOverlong(reader.data, pos0, reader.burst, decode);
        return NotVarint32;
      case PrefixLength(size, start) =>
        var message := reader.Read(size);
        if |message| != size {
          SingleReadCut(reader.data, pos0, reader.burst, decode, size, start);
          return UnexpectedEof(size);
        }
        match decode(message)
        case Some(m) =>
          SingleReadAccepts(reader.data, pos0, reader.burst, decode, size, start, m);
          return Event(m);
        case None =>
          SingleReadRejects(reader.data, pos0, reader.burst, decode, size, start);
          ghost var before := reported;
          reported := reported + [message];
          r := Next();
          Assoc(before, [message], NextSingleRead(reader.data, start + size, reader.burst, decode).rejected);
    }
  }
}

=== FILE: native.dfy ===
/**
 * `NinjaNativeFrontend` of ja/native.py: follows the build through the
 * status messages ninja sends, keeps the edge counters and the registry
 * of running edges, and renders status lines, command output and log
 * messages through the `LinePrinter`.
 *
 * Foreign code the frontend calls (zlib's adler32, click's `style`,
 * Python's `'{:.1f}'` float rendering and humanize's `naturaldelta`) is a
 * parameter; the environment variable NINJA_STATUS, the terminal's
 * capabilities and its width are parameters too.
 */
module Native {
  import opened Wrappers
  import opened Strings
  import opened Seqs
  import Ansi
  import Printer
  import Rate

  // ---------------------------------------------------------------------------
  // Messages

  datatype EdgeStarted = EdgeStarted(id: nat, startTime: nat, desc: string, command: string, console: bool)
  datatype EdgeFinished = EdgeFinished(id: nat, endTime: nat, status: int, output: string)
  datatype BuildStarted = BuildStarted(parallelism: nat, verbose: bool)
  datatype LogMessage = LogMessage(level: int, text: string)

  /**
   * One status message. Every field is optional and `handle` looks at
   * each one present, in this order.
   */
  datatype Status = Status(
    totalEdges: Option<nat>,
    buildStarted: Option<BuildStarted>,
    buildFinished: bool,
    edgeStarted: Option<EdgeStarted>,
    edgeFinished: Option<EdgeFinished>,
    message: Option<LogMessage>)

  // ---------------------------------------------------------------------------
  // Foreign code and errors

  datatype Colour = Green | Magenta | Red

  datatype Foreign = Foreign(
    adler32: string -> nat,               // zlib.adler32 of the UTF-8 encoding
    style: (string, Colour) -> string,    // click.style(text, fg=colour, bold=True)
    oneDecimal: real -> string,           // '{:.1f}'.format(x)
    naturalDelta: real -> string)         // humanize.naturaldelta of x seconds

  /** The exceptions `handle` can raise. */
  datatype Fault =
    | UnknownPlaceholder(c: char)   // format_progress_status: a letter it does not know
    | DanglingPercent               // format_progress_status: '%' ends the template
    | ZeroDivision                  // %p or the bar length with total_edges == 0
    | EmptyRateWindow               // %c with a rate window of capacity 0
    | UnknownEdge(id: nat)          // edge_finished for an id that is not running
    | UnknownLevel(level: int)      // a message level other than 0, 1, 2

  /** The exceptions rendering a status line can raise. */
  predicate StatusFault(f: Fault) {
    f.UnknownPlaceholder? || f.DanglingPercent? || f.ZeroDivision? || f.EmptyRateWindow?
  }

  // ---------------------------------------------------------------------------
  // The registry of running edges: an insertion-ordered dictionary

  type Registry = seq<(nat, EdgeStarted)>

  function Ids(reg: Registry): (r: seq<nat>)
    ensures |r| == |reg|
  {
    seq(|reg|, i requires 0 <= i < |reg| => reg[i].0)
  }

  lemma IdsCons(reg: Registry)
    requires reg != []
    ensures Ids(reg) == [reg[0].0] + Ids(reg[1..])
  {
  }

  /** No id is registered twice. */
  predicate UniqueIds(reg: Registry) {
    var ids := Ids(reg);
    forall i, j :: 0 <= i < j < |ids| ==> ids[i] != ids[j]
  }

  /** `running.get(id)`: the first entry with that id. */
  function Lookup(reg: Registry, id: nat): (r: Option<EdgeStarted>)
    ensures r.None? <==> id !in Ids(reg)
  {
    if reg == [] then None
    else
      IdsCons(reg);
      if reg[0].0 == id then Some(reg[0].1) else Lookup(reg[1..], id)
  }

  /** `running[id] = e`: replaces the entry in place, or appends a new one. */
  function Assign(reg: Registry, id: nat, e: EdgeStarted): (r: Registry)
    ensures Ids(r) == if id in Ids(reg) then Ids(reg) else Ids(reg) + [id]
  {
    if reg == [] then [(id, e)]
    else
      IdsCons(reg);
      var r := if reg[0].0 == id then [(id, e)] + reg[1..] else [reg[0]] + Assign(reg[1..], id, e);
      IdsCons(r);
      assert r[1..] == if reg[0].0 == id then reg[1..] else Assign(reg[1..], id, e);
      r
  }

  /** `del running[id]`: the first entry with that id removed. */
  function Remove(reg: Registry, id: nat): (r: Registry)
    ensures |r| == if id in Ids(reg) then |reg| - 1 else |reg|
    ensures forall k :: k in Ids(r) ==> k in Ids(reg)
  {
    if reg == [] then []
    else
      IdsCons(reg);
      if reg[0].0 == id then reg[1..]
      else
        var r := [reg[0]] + Remove(reg[1..], id);
        IdsCons(r);
        assert r[1..] == Remove(reg[1..], id);
        r
  }

  /** The index of the first entry with the given id, or `|reg|` when there is none. */
  function FirstIndex(reg: Registry, id: nat): (i: nat)
    ensures i <= |reg| && (i < |reg| ==> reg[i].0 == id)
    ensures forall k :: 0 <= k < i ==> reg[k].0 != id
  {
    if reg == [] then 0
    else
      if reg[0].0 == id then 0
      else
        var j := FirstIndex(reg[1..], id);
        assert forall k :: 1 <= k < j + 1 ==> reg[k] == reg[1..][k - 1];
        j + 1
  }

  /** FirstIndex finds an entry exactly when the id is registered. */
  lemma FirstIndexFound(reg: Registry, id: nat)
    ensures FirstIndex(reg, id) < |reg| <==> id in Ids(reg)
  {
    var i, ids := FirstIndex(reg, id), Ids(reg);
    if i < |reg| {
      assert ids[i] == id;
    } else {
      forall k | 0 <= k < |ids| ensures ids[k] != id {
        assert ids[k] == reg[k].0;
      }
    }
  }

  /**
   * `del` keeps the insertion order of the entries that remain: an absent
   * id leaves the registry as it is, and otherwise exactly the first entry
   * with that id is cut out.
   */
  lemma {:induction false} RemoveKeepsOrder(reg: Registry, id: nat)
    ensures var i := FirstIndex(reg, id);
      && (i == |reg| ==> Remove(reg, id) == reg)
      && (i < |reg| ==> Remove(reg, id) == reg[..i] + reg[i + 1..])
  {
    if reg == [] {
    } else if reg[0].0 == id {
      assert reg[..0] + reg[0 + 1..] == reg[1..];
    } else {
      RemoveKeepsOrder(reg[1..], id);
      RemoveLater(reg, id);
    }
  }

  /** The step of RemoveKeepsOrder: the first entry has another id. */
  lemma RemoveLater(reg: Registry, id: nat)
    requires reg != [] && reg[0].0 != id
    requires var rest, j := reg[1..], FirstIndex(reg[1..], id);
      && (j == |rest| ==> Remove(rest, id) == rest)
      && (j < |rest| ==> Remove(rest, id) == rest[..j] + rest[j + 1..])
    ensures var i := FirstIndex(reg, id);
      && (i == |reg| ==> Remove(reg, id) == reg)
      && (i < |reg| ==> Remove(reg, id) == reg[..i] + reg[i + 1..])
  {
    var rest := reg[1..];
    var j := FirstIndex(rest, id);
    assert FirstIndex(reg, id) == j + 1;
    assert Remove(reg, id) == [reg[0]] + Remove(rest, id);
    if j < |rest| {
      ConsCut(reg, j);
    } else {
      HeadCons(reg);
    }
  }

  lemma UniqueTail(reg: Registry)
    requires reg != [] && UniqueIds(reg)
    ensures UniqueIds(reg[1..]) && reg[0].0 !in Ids(reg[1..])
  {
    IdsCons(reg);
    var ids := Ids(reg);
    var tail := Ids(reg[1..]);
    forall i, j | 0 <= i < j < |tail| ensures tail[i] != tail[j] {
      assert tail[i] == ids[i + 1] && tail[j] == ids[j + 1];
    }
    forall i | 0 <= i < |tail| ensures tail[i] != reg[0].0 {
      assert tail[i] == ids[i + 1] && ids[0] == reg[0].0;
    }
  }

  /** Registering an edge makes it the one found under its id, and no other lookup changes. */
  lemma {:induction false} LookupAssign(reg: Registry, id: nat, e: EdgeStarted, other: nat)
    ensures Lookup(Assign(reg, id, e), id) == Some(e)
    ensures other != id ==> Lookup(Assign(reg, id, e), other) == Lookup(reg, other)
  {
    if reg != [] && reg[0].0 != id {
      LookupAssign(reg[1..], id, e, other);
      assert Assign(reg, id, e)[1..] == Assign(reg[1..], id, e);
    }
  }

  /** Removing an edge makes its id unknown, and no other lookup changes. */
  lemma {:induction false} LookupRemove(reg: Registry, id: nat, other: nat)
    requires UniqueIds(reg)
    ensures Lookup(Remove(reg, id), id) == None
    ensures other != id ==> Lookup(Remove(reg, id), other) == Lookup(reg, other)
  {
    if reg != [] {
      UniqueTail(reg);
      LookupRemove(reg[1..], id, other);
      if reg[0].0 != id {
        assert Remove(reg, id)[1..] == Remove(reg[1..], id);
      }
    }
  }

  /** Finishing an edge that was not running before it started restores the registry. */
  lemma {:induction false} RemoveAssign(reg: Registry, id: nat, e: EdgeStarted)
    requires id !in Ids(reg)
    ensures Remove(Assign(reg, id, e), id) == reg
  {
    if reg != [] {
      IdsCons(reg);
      RemoveAssign(reg[1..], id, e);
      assert Assign(reg, id, e) == [reg[0]] + Assign(reg[1..], id, e);
    }
  }

  lemma AssignKeepsUnique(reg: Registry, id: nat, e: EdgeStarted)
    requires UniqueIds(reg)
    ensures UniqueIds(Assign(reg, id, e))
  {
    var ids := Ids(reg);
    if id !in ids {
      var r := ids + [id];
      forall i, j | 0 <= i < j < |r| ensures r[i] != r[j] {
        if j == |ids| {
          assert r[i] == ids[i];
        }
      }
    }
  }

  lemma {:induction false} RemoveKeepsUnique(reg: Registry, id: nat)
    requires UniqueIds(reg)
    ensures UniqueIds(Remove(reg, id))
  {
    if reg != [] {
      UniqueTail(reg);
      if reg[0].0 != id {
        RemoveKeepsUnique(reg[1..], id);
        var rest := Remove(reg[1..], id);
        var r := [reg[0]] + rest;
        assert r == Remove(reg, id);
        IdsCons(r);
        assert r[1..] == rest;
        var ids := Ids(r);
        forall i, j | 0 <= i < j < |ids| ensures ids[i] != ids[j] {
          assert ids[j] == Ids(rest)[j - 1];
          if i > 0 {
            assert ids[i] == Ids(rest)[i - 1];
          }
        }
      }
    }
  }

  // ---------------------------------------------------------------------------
  // State

  /** The fields of a `NinjaNativeFrontend` (its unused `console_locked` aside). */
  datatype Tracker = Tracker(
    totalEdges: nat,
    runningEdges: int,
    startedEdges: nat,
    finishedEdges: nat,
    running: Registry,
    lastStartedEdge: Option<EdgeStarted>,
    timeMillis: nat,
    statusFormat: string,        // progress_status_format
    rate: Rate.RateWindow,       // current_rate
    verbose: bool,
    printer: Printer.PrinterState)

  predicate Wf(st: Tracker) {
    Rate.Bounded(st.rate)
  }

  /** The counters agree: running edges are those started and not finished. */
  predicate Consistent(st: Tracker) {
    st.runningEdges == st.startedEdges - st.finishedEdges
  }

  /** `NinjaNativeFrontend()`, given `$NINJA_STATUS` and the terminal's capability. */
  function Initial(ninjaStatus: Option<string>, smart: bool): (st: Tracker)
    ensures Wf(st) && Consistent(st) && st.running == [] && Printer.Quiet(st.printer)
    ensures st.totalEdges == 0 && st.startedEdges == 0 && st.finishedEdges == 0 && st.runningEdges == 0
    ensures st.timeMillis == 0 && st.lastStartedEdge.None? && !st.verbose
    ensures st.statusFormat == (if ninjaStatus.Some? then ninjaStatus.value else " ETA: %a ")
    ensures st.rate == Rate.Fresh(32) && st.rate.capacity == 32 && st.rate.times == []
    ensures st.printer == Printer.Initial(smart) && st.printer.haveBlankLine && !st.printer.consoleLocked
  {
    Tracker(0, 0, 0, 0, [], None, 0,
            match ninjaStatus case Some(f) => f case None => " ETA: %a ",
            Rate.Fresh(32), false, Printer.Initial(smart))
  }

  /** The state after a step, and its value or the exception it raised. */
  datatype Outcome<T> = Outcome(state: Tracker, result: Result<T, Fault>)

  // ---------------------------------------------------------------------------
  // format_progress_status

  /** `'{:.3f}'.format(ms / 1e3)` for a whole number of milliseconds. */
  function Seconds3(ms: nat): (r: string)
    ensures |r| >= 5 && r[|r| - 4] == '.'
  {
    NatToString(ms / 1000) + "." + Millis(ms % 1000)
  }

  /** `f` as exactly three digits, zero-padded. */
  function Millis(f: nat): (t: string)
    requires f < 1000
    ensures |t| == 3 && DigitsValue(t) == f
    ensures forall i :: 0 <= i < |t| ==> '0' <= t[i] <= '9'
  {
    ThreeDigits(f / 100, f / 10 % 10, f % 10);
    DecimalSplit(f);
    [Digit(f / 100), Digit(f / 10 % 10), Digit(f % 10)]
  }

  /** Three digits read back as a number below 1000. */
  lemma ThreeDigits(a: nat, b: nat, c: nat)
    requires a < 10 && b < 10 && c < 10
    ensures var t := [Digit(a), Digit(b), Digit(c)];
      DigitsValue(t) == 100 * a + 10 * b + c && forall i :: 0 <= i < |t| ==> '0' <= t[i] <= '9'
  {
    var one, two, t := [Digit(a)], [Digit(a), Digit(b)], [Digit(a), Digit(b), Digit(c)];
    assert one[..0] == [] && DigitsValue(one) == a;
    assert two[..1] == one && DigitsValue(two) == 10 * a + b;
    assert t[..2] == two;
  }

  /** The hundreds, tens and units of a number below 1000. */
  lemma DecimalSplit(f: nat)
    requires f < 1000
    ensures f == 100 * (f / 100) + 10 * (f / 10 % 10) + f % 10
  {
    assert f / 10 / 10 == f / 100;
  }

  /** Python's `round(a / b)`: to the nearest integer, ties to even. */
  function RoundHalfEven(a: nat, b: nat): (r: nat)
    requires b > 0
    ensures 2 * a - b <= 2 * (r * b) <= 2 * a + b
    ensures 2 * (r * b) == 2 * a - b || 2 * (r * b) == 2 * a + b ==> r % 2 == 0
  {
    var q, rem := a / b, a % b;
    QuotientBounds(a, b, q, rem);
    if 2 * rem < b then q
    else if 2 * rem > b then q + 1
    else if q % 2 == 0 then q else q + 1
  }

  lemma QuotientBounds(a: nat, b: nat, q: nat, rem: nat)
    requires b > 0 && q == a / b && rem == a % b
    ensures q * b == a - rem && (q + 1) * b == a - rem + b && 0 <= rem < b
  {
  }

  /** The text one placeholder `%c` stands for, and the state after it. */
  function Placeholder(st: Tracker, ext: Foreign, c: char): (o: Outcome<string>)
    requires Wf(st)
    ensures Wf(o.state) && o.state == st.(rate := o.state.rate)
    ensures c != 'c' ==> o.state == st
    ensures o.result.Failure? ==> StatusFault(o.result.error)
  {
    match c
    case '%' => Outcome(st, Success("%"))
    case 's' => Outcome(st, Success(NatToString(st.startedEdges)))
    case 't' => Outcome(st, Success(NatToString(st.totalEdges)))
    case 'r' => Outcome(st, Success(IntToString(st.runningEdges)))
    case 'u' => Outcome(st, Success(IntToString(st.totalEdges - st.startedEdges)))
    case 'f' => Outcome(st, Success(NatToString(st.finishedEdges)))
    case 'o' =>
      Outcome(st, Success(
        if st.timeMillis > 0 then ext.oneDecimal((st.finishedEdges as real) * 1000.0 / (st.timeMillis as real))
        else "?"))
    case 'c' =>
      var w := Rate.Updated(st.rate, st.finishedEdges, st.timeMillis);
      if Rate.UpdateFails(st.rate, st.finishedEdges) then Outcome(st.(rate := w), Failure(EmptyRateWindow))
      else Outcome(st.(rate := w), Success(if w.rate == -1.0 then "?" else ext.oneDecimal(w.rate)))
    case 'p' =>
      if st.totalEdges == 0 then Outcome(st, Failure(ZeroDivision))
      else Outcome(st, Success(PadLeft(NatToString(100 * st.finishedEdges / st.totalEdges), 3) + "%"))
    case 'e' => Outcome(st, Success(Seconds3(st.timeMillis)))
    case 'a' =>
      Outcome(st, Success(
        if st.finishedEdges > 0 then
          ext.naturalDelta((st.timeMillis as real) / (st.finishedEdges as real)
                           * ((st.totalEdges - st.finishedEdges) as real) / 1000.0)
        else "?"))
    case _ => Outcome(st, Failure(UnknownPlaceholder(c)))
  }

  /** The template from index `i` on, expanded after `out`. */
  function ExpandFrom(st: Tracker, ext: Foreign, fmt: string, i: nat, out: string): (o: Outcome<string>)
    requires Wf(st)
    ensures Wf(o.state) && o.state == st.(rate := o.state.rate)
    ensures o.result.Success? ==> out <= o.result.value
    decreases |fmt| - i
    ensures o.result.Failure? ==> StatusFault(o.result.error)
  {
    if i >= |fmt| then Outcome(st, Success(out))
    else if fmt[i] != '%' then ExpandFrom(st, ext, fmt, i + 1, out + [fmt[i]])
    else if i + 1 == |fmt| then Outcome(st, Failure(DanglingPercent))
    else
      var p := Placeholder(st, ext, fmt[i + 1]);
      match p.result
      case Failure(f) => Outcome(p.state, Failure(f))
      case Success(text) => ExpandFrom(p.state, ext, fmt, i + 2, out + text)
  }

  const Cyan: string := "\U{1B}[0;36m"
  const Highlight: string := "\U{1B}[1;37;46m"   // bold white on cyan
  const Reset: string := "\U{1B}[0m"
  const Bold: string := "\U{1B}[1m"
  const LeftEnd: char := '\U{2595}'
  const RightEnd: char := '\U{258F}'

  /**
   * The status text as a bar: its first `bar` characters highlighted,
   * between the two bar ends.
   */
  function Bar(out: string, bar: nat): string {
    var cut := if bar > |out| then |out| else bar;
    Cyan + ([LeftEnd] + (Highlight + (out[..cut] + (Reset + (Bold + (out[cut..] + (Cyan + ([RightEnd] + Reset))))))))
  }

  /**
   * `format_progress_status(fmt)`: the expanded template, padded to 17
   * characters, drawn as a progress bar whose highlighted part is the
   * finished fraction; no bar at all when there is just one edge.
   */
  function FormatProgressStatusStep(st: Tracker, ext: Foreign, fmt: string): (o: Outcome<string>)
    requires Wf(st)
    ensures Wf(o.state) && o.state == st.(rate := o.state.rate)
    ensures o.result.Success? ==> st.totalEdges > 0
    ensures o.result.Success? && st.totalEdges == 1 ==> o.result.value == ""
    ensures o.result.Failure? ==> StatusFault(o.result.error)
  {
    var e := ExpandFrom(st, ext, fmt, 0, "");
    match e.result
    case Failure(f) => e
    case Success(text) =>
      var out := PadRight(text, 17);
      if st.totalEdges == 0 then Outcome(e.state, Failure(ZeroDivision))
      else
        var bar := RoundHalfEven(|out| * st.finishedEdges, st.totalEdges);
        if st.totalEdges == 1 then Outcome(e.state, Success(""))
        else Outcome(e.state, Success(Bar(out, bar)))
  }

  /** A template without placeholders is copied as it is, and changes nothing. */
  lemma {:induction false} ExpandLiteral(st: Tracker, ext: Foreign, fmt: string, i: nat, out: string)
    requires Wf(st) && i <= |fmt| && forall k :: i <= k < |fmt| ==> fmt[k] != '%'
    ensures ExpandFrom(st, ext, fmt, i, out) == Outcome(st, Success(out + fmt[i..]))
    decreases |fmt| - i
  {
    if i < |fmt| {
      ExpandLiteral(st, ext, fmt, i + 1, out + [fmt[i]]);
      assert fmt[i..] == [fmt[i]] + fmt[i + 1..];
      assert out + [fmt[i]] + fmt[i + 1..] == out + fmt[i..];
    } else {
      assert out + fmt[i..] == out;
    }
  }

  /** The counter placeholders and `%%`, expanded. */
  lemma CounterPlaceholders(st: Tracker, ext: Foreign)
    requires Wf(st)
    ensures Placeholder(st, ext, 's') == Outcome(st, Success(NatToString(st.startedEdges)))
    ensures Placeholder(st, ext, 't') == Outcome(st, Success(NatToString(st.totalEdges)))
    ensures Placeholder(st, ext, 'f') == Outcome(st, Success(NatToString(st.finishedEdges)))
    ensures DigitsValue(Placeholder(st, ext, 's').result.value) == st.startedEdges
    ensures DigitsValue(Placeholder(st, ext, 't').result.value) == st.totalEdges
    ensures DigitsValue(Placeholder(st, ext, 'f').result.value) == st.finishedEdges
  {
    NatToStringValue(st.startedEdges);
    NatToStringValue(st.totalEdges);
    NatToStringValue(st.finishedEdges);
  }

  /** `%%`, and the running and unstarted edge counts, which may be negative. */
  lemma RunningPlaceholders(st: Tracker, ext: Foreign)
    requires Wf(st)
    ensures Placeholder(st, ext, '%') == Outcome(st, Success("%"))
    ensures Placeholder(st, ext, 'r') == Outcome(st, Success(IntToString(st.runningEdges)))
    ensures Placeholder(st, ext, 'u') == Outcome(st, Success(IntToString(st.totalEdges - st.startedEdges)))
    ensures IntValue(Placeholder(st, ext, 'r').result.value) == st.runningEdges
    ensures IntValue(Placeholder(st, ext, 'u').result.value) == st.totalEdges - st.startedEdges
  {
    IntToStringValue(st.runningEdges);
    IntToStringValue(st.totalEdges - st.startedEdges);
  }

  /** `%p`: the finished percentage, rounded down, right-aligned in 3 characters. */
  lemma PercentPlaceholder(st: Tracker, ext: Foreign)
    requires Wf(st) && st.totalEdges > 0
    ensures var r := Placeholder(st, ext, 'p').result;
      && r.Success? && |r.value| >= 4 && r.value[|r.value| - 1] == '%'
      && r.value[..|r.value| - 1] == PadLeft(NatToString(100 * st.finishedEdges / st.totalEdges), 3)
      && DigitsValue(LStrip(r.value[..|r.value| - 1])) == 100 * st.finishedEdges / st.totalEdges
  {
    var pct := 100 * st.finishedEdges / st.totalEdges;
    assert Placeholder(st, ext, 'p').result == Success(PadLeft(NatToString(pct), 3) + "%");
    NatToStringValue(pct);
    PercentForm(NatToString(pct), PadLeft(NatToString(pct), 3) + "%");
  }

  lemma PercentForm(d: string, t: string)
    requires d != [] && '0' <= d[0] <= '9' && t == PadLeft(d, 3) + "%"
    ensures |t| >= 4 && t[|t| - 1] == '%' && t[..|t| - 1] == PadLeft(d, 3)
    ensures LStrip(t[..|t| - 1]) == d
  {
    assert t[..|t| - 1] == PadLeft(d, 3);
    PadLeftNumeral(d, 3);
  }

  /** Any character other than `%strufocpea` after `%` is an error. */
  lemma UnknownPlaceholderFails(st: Tracker, ext: Foreign, c: char)
    requires Wf(st) && c !in "%strufocpea"
    ensures Placeholder(st, ext, c) == Outcome(st, Failure(UnknownPlaceholder(c)))
  {
  }

  /** With no edges to build, rendering any template that expands fails. */
  lemma NoEdgesNoStatus(st: Tracker, ext: Foreign, fmt: string)
    requires Wf(st) && st.totalEdges == 0
    ensures FormatProgressStatusStep(st, ext, fmt).result.Failure?
  {
  }

  /** An escape sequence followed by plain text strips to the text. */
  lemma StripPiece(e: string, t: string, b: string)
    requires Ansi.IsEscape(e, Ansi.Csi) && Ansi.Esc !in t
    ensures Ansi.StripAnsiEscapeCodes(e + (t + b)) == t + Ansi.StripAnsiEscapeCodes(b)
  {
    Ansi.StripPlainThen(t, b, Ansi.Csi);
    Ansi.StripEscapeThen(e, t + b, Ansi.Csi);
  }

  lemma BarEscapes()
    ensures Ansi.IsEscape(Cyan, Ansi.Csi) && Ansi.IsEscape(Highlight, Ansi.Csi)
    ensures Ansi.IsEscape(Reset, Ansi.Csi) && Ansi.IsEscape(Bold, Ansi.Csi)
  {
  }

  lemma AppendSplit(s: string, k: nat, t: string)
    requires k <= |s|
    ensures s[..k] + (s[k..] + t) == s + t
  {
    assert s[..k] + s[k..] == s;
  }

  /** The part of the bar after the highlighted text strips to the rest of the text and the right end. */
  lemma BarTail(o2: string)
    requires Ansi.Esc !in o2
    ensures Ansi.StripAnsiEscapeCodes(Reset + (Bold + (o2 + (Cyan + ([RightEnd] + Reset))))) == o2 + [RightEnd]
  {
    BarEscapes();
    assert Ansi.StripAnsiEscapeCodes(Cyan + ([RightEnd] + Reset)) == [RightEnd] by {
      Ansi.StripEscapeThen(Reset, [], Ansi.Csi);
      Ansi.StripPlainText([], Ansi.Csi);
      assert Reset + [] == Reset;
      StripPiece(Cyan, [RightEnd], Reset);
    }
    StripPiece(Bold, o2, Cyan + ([RightEnd] + Reset));
    Ansi.StripEscapeThen(Reset, Bold + (o2 + (Cyan + ([RightEnd] + Reset))), Ansi.Csi);
  }

  /**
   * The visible text of the progress bar is the padded status between the
   * two bar ends; only the highlighting shows progress.
   */
  lemma BarShowsStatus(out: string, bar: nat)
    requires Ansi.Esc !in out
    ensures Ansi.StripAnsiEscapeCodes(Bar(out, bar)) == [LeftEnd] + out + [RightEnd]
  {
    var cut := if bar > |out| then |out| else bar;
    var o1, o2 := out[..cut], out[cut..];
    assert Ansi.Esc !in o1 && Ansi.Esc !in o2;
    var tail := Reset + (Bold + (o2 + (Cyan + ([RightEnd] + Reset))));
    BarTail(o2);
    BarHead(o1, tail);
    AppendSplit(out, cut, [RightEnd]);
  }

  /** The left end and the highlighted part of the bar show as they are. */
  lemma BarHead(o1: string, tail: string)
    requires Ansi.Esc !in o1
    ensures Ansi.StripAnsiEscapeCodes(Cyan + ([LeftEnd] + (Highlight + (o1 + tail))))
      == [LeftEnd] + (o1 + Ansi.StripAnsiEscapeCodes(tail))
  {
    BarEscapes();
    StripPiece(Highlight, o1, tail);
    StripPiece(Cyan, [LeftEnd], Highlight + (o1 + tail));
  }

  /**
   * With at least two edges, `format_progress_status` succeeds exactly when
   * the template expands, and an expansion without escapes shows as the
   * expansion padded to 17 characters between the two bar ends.
   */
  lemma StatusShowsPaddedText(st: Tracker, ext: Foreign, fmt: string)
    requires Wf(st) && st.totalEdges >= 2
    ensures var o, e := FormatProgressStatusStep(st, ext, fmt), ExpandFrom(st, ext, fmt, 0, "");
      && (o.result.Success? <==> e.result.Success?)
      && (e.result.Success? && Ansi.Esc !in e.result.value ==>
            Ansi.StripAnsiEscapeCodes(o.result.value) == [LeftEnd] + PadRight(e.result.value, 17) + [RightEnd])
  {
    var e := ExpandFrom(st, ext, fmt, 0, "");
    if e.result.Success? && Ansi.Esc !in e.result.value {
      var text := e.result.value;
      var out := PadRight(text, 17);
      BarShowsStatus(out, RoundHalfEven(|out| * st.finishedEdges, st.totalEdges));
    }
  }

  // ---------------------------------------------------------------------------
  // print_status

  /**
   * The colour number of an edge's description: adler32 of its first word
   * and the first character of its third word, modulo 10, or 0 when there
   * is no third word.
   */
  function HashNumber(ext: Foreign, desc: string): (h: nat)
    ensures h < 10
    ensures |SplitOn(desc, " ")| < 3 ==> h == 0
  {
    var words := SplitOn(desc, " ");
    if |words| < 3 then 0
    else ext.adler32(words[0] + (if |words[2]| > 0 then words[2][..1] else "")) % 10
  }

  /** The description in hue `h % 5 + 2` (green to cyan), bold when `h > 4`. */
  function Colourise(desc: string, h: nat): (r: string)
    requires h < 10
    ensures |r| > |desc|
    ensures Ansi.Esc !in desc ==> Ansi.StripAnsiEscapeCodes(r) == desc
  {
    var open := "\U{1B}[" + (if h > 4 then "1" else "0") + ";3" + [Digit(h % 5 + 2)] + "m";
    var close := "\U{1B}[0m";
    ColouredText(open, desc, close);
    open + desc + close
  }

  lemma ColouredText(open: string, desc: string, close: string)
    requires Ansi.IsEscape(open, Ansi.Csi) && Ansi.IsEscape(close, Ansi.Csi)
    ensures Ansi.Esc !in desc ==> Ansi.StripAnsiEscapeCodes(open + desc + close) == desc
  {
    if Ansi.Esc !in desc {
      StripEscapeAlone(close);
      Ansi.StripPlainThen(desc, close, Ansi.Csi);
      assert desc + [] == desc;
      Ansi.StripEscapeThen(open, desc + close, Ansi.Csi);
      Assoc(open, desc, close);
    }
  }

  /** An escape sequence on its own strips to nothing. */
  lemma StripEscapeAlone(e: string)
    requires Ansi.IsEscape(e, Ansi.Csi)
    ensures Ansi.StripAnsiEscapeCodes(e) == []
  {
    Ansi.StripEscapeThen(e, [], Ansi.Csi);
    Ansi.StripPlainText([], Ansi.Csi);
    assert e + [] == e;
  }

  /**
   * What the status line says about an edge. The coloured description is
   * never empty, so the command is shown exactly when verbose, even for an
   * edge without a description.
   */
  function EdgeText(verbose: bool, ext: Foreign, edge: EdgeStarted): (r: string)
    ensures r == if verbose then edge.command else Colourise(edge.desc, HashNumber(ext, edge.desc))
  {
    var coloured := Colourise(edge.desc, HashNumber(ext, edge.desc));
    if verbose || coloured == "" then edge.command else coloured
  }

  /**
   * `print_status(edge)`: the progress status followed by the coloured
   * description (the command when verbose), printed as an elided status
   * line, or as a full line when verbose.
   */
  function PrintStatusStep(st: Tracker, ext: Foreign, cols: nat, edge: EdgeStarted): (o: Outcome<()>)
    requires Wf(st)
    ensures Wf(o.state) && o.state == st.(rate := o.state.rate, printer := o.state.printer)
    ensures st.printer.stdout <= o.state.printer.stdout
    ensures Printer.Quiet(st.printer) ==> Printer.Quiet(o.state.printer)
    ensures o.state.printer.consoleLocked == st.printer.consoleLocked
    ensures o.result.Failure? ==> StatusFault(o.result.error)
  {
    var text := EdgeText(st.verbose, ext, edge);
    var f := FormatProgressStatusStep(st, ext, st.statusFormat);
    match f.result
    case Failure(e) => Outcome(f.state, Failure(e))
    case Success(status) =>
      var lineType := if st.verbose then Printer.Full else Printer.Elide;
      Outcome(f.state.(printer := Printer.PrintLineStep(f.state.printer, status + text, lineType, cols)), Success(()))
  }

  // ---------------------------------------------------------------------------
  // handle, field by field

  /** `build_started`: a fresh rate window; counters and registry cleared; `total_edges` kept. */
  function BuildStartedStep(st: Tracker, b: BuildStarted): (r: Tracker)
    ensures Wf(r) && Consistent(r) && r.running == [] && r.totalEdges == st.totalEdges
    ensures r.startedEdges == 0 && r.finishedEdges == 0 && r.runningEdges == 0
    ensures r.printer == st.printer && r.timeMillis == st.timeMillis
  {
    st.(verbose := b.verbose, rate := Rate.Fresh(b.parallelism),
        runningEdges := 0, startedEdges := 0, finishedEdges := 0, running := [])
  }

  /** The build's duration: `XhYmZs`, `YmZs`, or seconds with three decimals. */
  function Duration(ms: nat): (r: string)
    ensures |r| >= 2 && r[|r| - 1] == 's'
  {
    var hours := ms / 3600000;
    var minutes := ms % 3600000 / 60000;
    var seconds := ms % 60000 / 1000;
    if hours > 0 then NatToString(hours) + "h" + NatToString(minutes) + "m" + NatToString(seconds) + "s"
    else if minutes > 0 then NatToString(minutes) + "m" + NatToString(seconds) + "s"
    else Seconds3(ms % 60000) + "s"
  }

  /**
   * `'{:.3f}'` of whole milliseconds reads back: the digits before the
   * point are the whole seconds, and exactly three digits after it are the
   * milliseconds.
   */
  lemma Seconds3Fields(ms: nat)
    ensures var r := Seconds3(ms);
      && DigitsValue(Before(r, '.')) == ms / 1000
      && |After(r, '.')| == 3 && DigitsValue(After(r, '.')) == ms % 1000
      && 'h' !in r && 'm' !in r && 's' !in r
  {
    NatToStringValue(ms / 1000);
    PointForm(NatToString(ms / 1000), Millis(ms % 1000), Seconds3(ms));
  }

  /** Reading digits, a point and digits. */
  lemma PointForm(x: string, t: string, r: string)
    requires forall i :: 0 <= i < |x| ==> '0' <= x[i] <= '9'
    requires forall i :: 0 <= i < |t| ==> '0' <= t[i] <= '9'
    requires r == x + "." + t
    ensures Before(r, '.') == x && After(r, '.') == t
    ensures 'h' !in r && 'm' !in r && 's' !in r
    ensures Before(r + "s", '.') == x && Before(After(r + "s", '.'), 's') == t
  {
    assert r == x + ['.'] + t;
    FieldThen(x, '.', t);
    assert r + "s" == x + ['.'] + (t + "s");
    FieldThen(x, '.', t + "s");
    FieldThen(t, 's', []);
    assert t + "s" == t + ['s'] + [];
  }

  /**
   * The duration reads back field by field: hours, minutes and whole
   * seconds when there are hours; minutes and whole seconds when there are
   * minutes; otherwise seconds and milliseconds around the point.
   */
  lemma DurationFields(ms: nat)
    ensures var r := Duration(ms);
      var h, m, sec := ms / 3600000, ms % 3600000 / 60000, ms % 60000 / 1000;
      && (h > 0 ==>
            && DigitsValue(Before(r, 'h')) == h
            && DigitsValue(Before(After(r, 'h'), 'm')) == m
            && DigitsValue(Before(After(r, 'm'), 's')) == sec)
      && (h == 0 && m > 0 ==>
            && 'h' !in r
            && DigitsValue(Before(r, 'm')) == m
            && DigitsValue(Before(After(r, 'm'), 's')) == sec)
      && (h == 0 && m == 0 ==>
            && 'h' !in r && 'm' !in r
            && DigitsValue(Before(r, '.')) == sec
            && DigitsValue(Before(After(r, '.'), 's')) == ms % 1000)
  {
    var r := Duration(ms);
    var h, m, sec := ms / 3600000, ms % 3600000 / 60000, ms % 60000 / 1000;
    if h > 0 {
      HoursForm(NatToString(h), NatToString(m), NatToString(sec), r);
      NatToStringValue(h);
      NatToStringValue(m);
      NatToStringValue(sec);
    } else if m > 0 {
      MinutesForm(NatToString(m), NatToString(sec), r);
      NatToStringValue(m);
      NatToStringValue(sec);
    } else {
      SecondsForm(ms);
    }
  }

  /** Reading an `XhYmZs` string. */
  lemma HoursForm(x: string, y: string, z: string, r: string)
    requires forall i :: 0 <= i < |x| ==> '0' <= x[i] <= '9'
    requires forall i :: 0 <= i < |y| ==> '0' <= y[i] <= '9'
    requires forall i :: 0 <= i < |z| ==> '0' <= z[i] <= '9'
    requires r == x + "h" + y + "m" + z + "s"
    ensures Before(r, 'h') == x && Before(After(r, 'h'), 'm') == y && Before(After(r, 'm'), 's') == z
  {
    assert r == x + ['h'] + (y + "m" + z + "s");
    FieldThen(x, 'h', y + "m" + z + "s");
    assert y + "m" + z + "s" == y + ['m'] + (z + "s");
    FieldThen(y, 'm', z + "s");
    assert 'm' !in x + "h" + y;
    assert r == (x + "h" + y) + ['m'] + (z + "s");
    FieldThen(x + "h" + y, 'm', z + "s");
    FieldThen(z, 's', []);
    assert z + "s" == z + ['s'] + [];
  }

  /** Reading a `YmZs` string. */
  lemma MinutesForm(y: string, z: string, r: string)
    requires forall i :: 0 <= i < |y| ==> '0' <= y[i] <= '9'
    requires forall i :: 0 <= i < |z| ==> '0' <= z[i] <= '9'
    requires r == y + "m" + z + "s"
    ensures 'h' !in r && Before(r, 'm') == y && Before(After(r, 'm'), 's') == z
  {
    assert r == y + ['m'] + (z + "s");
    FieldThen(y, 'm', z + "s");
    FieldThen(z, 's', []);
    assert z + "s" == z + ['s'] + [];
  }

  /** Under a minute, the duration is the seconds with three decimals. */
  lemma SecondsForm(ms: nat)
    requires ms / 3600000 == 0 && ms % 3600000 / 60000 == 0
    ensures var r := Duration(ms);
      && 'h' !in r && 'm' !in r
      && DigitsValue(Before(r, '.')) == ms % 60000 / 1000
      && DigitsValue(Before(After(r, '.'), 's')) == ms % 1000
  {
    assert ms < 60000 && ms % 60000 == ms;
    var x, t := NatToString(ms / 1000), Millis(ms % 1000);
    assert Duration(ms) == Seconds3(ms) + "s";
    NatToStringValue(ms / 1000);
    PointForm(x, t, Seconds3(ms));
  }

  /** `build_finished`: unlock the console and print the summary line. */
  function BuildFinishedStep(st: Tracker, cols: nat): (r: Tracker)
    requires Wf(st)
    ensures Wf(r) && r.running == st.running && !r.printer.consoleLocked
    ensures st.printer.stdout <= r.printer.stdout
    ensures Printer.Quiet(st.printer) ==> Printer.Quiet(r.printer)
  {
    var p1 := Printer.SetConsoleLockedStep(st.printer, false, cols);
    var line := "\U{1B}[1;32mfinished " + NatToString(st.totalEdges) + " job"
                + (if st.totalEdges != 1 then "s" else "") + " in " + Duration(st.timeMillis) + ".\U{1B}[0m";
    st.(printer := Printer.PrintLineStep(p1, line, Printer.Full, cols))
  }

  /**
   * Showing a started edge: its status line on a smart terminal or for a
   * console edge, then the console locked for a console edge.
   */
  function ShowStartedStep(st: Tracker, ext: Foreign, cols: nat, e: EdgeStarted): (o: Outcome<()>)
    requires Wf(st)
    ensures Wf(o.state) && o.state == st.(rate := o.state.rate, printer := o.state.printer)
    ensures st.printer.stdout <= o.state.printer.stdout
    ensures o.state.printer.smart == st.printer.smart
    ensures o.result.Success? && e.console ==> o.state.printer.consoleLocked
    ensures !e.console && !st.printer.smart ==> o == Outcome(st, Success(()))
    ensures o.result.Failure? ==> StatusFault(o.result.error)
  {
    var o := if e.console || st.printer.smart then PrintStatusStep(st, ext, cols, e) else Outcome(st, Success(()));
    if o.result.Success? && e.console then
      Outcome(o.state.(printer := Printer.SetConsoleLockedStep(o.state.printer, true, cols)), Success(()))
    else o
  }

  /**
   * `edge_started`: count and register the edge, advance the clock, then
   * show it.
   */
  function EdgeStartedStep(st: Tracker, ext: Foreign, cols: nat, e: EdgeStarted): (o: Outcome<()>)
    requires Wf(st)
    ensures Wf(o.state)
    ensures o.state.running == Assign(st.running, e.id, e) && o.state.lastStartedEdge == Some(e)
    ensures o.state.startedEdges == st.startedEdges + 1 && o.state.runningEdges == st.runningEdges + 1
    ensures o.state.finishedEdges == st.finishedEdges && o.state.timeMillis == e.startTime
    ensures o.state.totalEdges == st.totalEdges && o.state.verbose == st.verbose
    ensures st.printer.stdout <= o.state.printer.stdout
    ensures UniqueIds(st.running) ==> UniqueIds(o.state.running)
  {
    var st1 := st.(startedEdges := st.startedEdges + 1, runningEdges := st.runningEdges + 1,
                   running := Assign(st.running, e.id, e), lastStartedEdge := Some(e),
                   timeMillis := e.startTime);
    assert UniqueIds(st.running) ==> UniqueIds(st1.running) by {
      if UniqueIds(st.running) {
        AssignKeepsUnique(st.running, e.id, e);
      }
    }
    ShowStartedStep(st1, ext, cols, e)
  }

  /** The line printed before a finished edge's output, if any. */
  function FinishedTemplate(f: EdgeFinished, command: string): Option<string> {
    if f.status != 0 then
      Some("\U{1B}[1;31m" + command + "\U{1B}[0;31m failed with exit code " + IntToString(f.status) + ".\U{1B}[0m")
    else if f.output != "" then Some("\U{1B}[1;34m" + command + "\U{1B}[0m")
    else None
  }

  /**
   * Printing a finished edge's output when it failed or printed something:
   * a fresh status line, the command (when verbose or there is no output),
   * then the output without its trailing newlines, stripped of escape
   * sequences unless the terminal is smart.
   */
  function ShowOutput(st: Tracker, cols: nat, f: EdgeFinished, command: string): (r: Tracker)
    ensures r == st.(printer := r.printer)
    ensures st.printer.stdout <= r.printer.stdout
    ensures r.printer.consoleLocked == st.printer.consoleLocked && r.printer.smart == st.printer.smart
    ensures f.status == 0 && f.output == "" ==> r == st
  {
    match FinishedTemplate(f, command)
    case None => st
    case Some(template) =>
      var p1 := Printer.PrintLineStep(st.printer, "", Printer.Elide, cols);
      var p2 := if st.verbose || f.output == "" then Printer.PrintLineStep(p1, template, Printer.Full, cols) else p1;
      var output := if !st.printer.smart then Ansi.StripAnsiEscapeCodes(f.output) else f.output;
      st.(printer := Printer.PrintLineStep(p2, RStripChar(output, '\n'), Printer.Full, cols))
  }

  /**
   * After a finished edge that did not fail, the status line is shown again
   * for the first edge still running. The value is whether the edge failed.
   */
  function ResumeStep(st: Tracker, ext: Foreign, cols: nat, failed: bool): (o: Outcome<bool>)
    requires Wf(st)
    ensures Wf(o.state) && o.state == st.(rate := o.state.rate, printer := o.state.printer)
    ensures st.printer.stdout <= o.state.printer.stdout
    ensures o.result.Success? ==> o.result.value == failed
    ensures failed || st.running == [] ==> o == Outcome(st, Success(failed))
    ensures o.result.Failure? ==> StatusFault(o.result.error)
  {
    if !failed && st.running != [] then
      var o := ShowStartedStep(st, ext, cols, st.running[0].1);
      Outcome(o.state, if o.result.Failure? then Failure(o.result.error) else Success(false))
    else Outcome(st, Success(failed))
  }

  /** The edge leaves the registry and its output is printed. */
  function Unregister(st: Tracker, cols: nat, f: EdgeFinished, command: string): (r: Tracker)
    ensures r == st.(running := Remove(st.running, f.id), runningEdges := st.runningEdges - 1, printer := r.printer)
    ensures st.printer.stdout <= r.printer.stdout
  {
    ShowOutput(st.(runningEdges := st.runningEdges - 1, running := Remove(st.running, f.id)), cols, f, command)
  }

  /** A finished edge gives the console back if it held it, and otherwise shows the status. */
  function AnnounceStep(st: Tracker, ext: Foreign, cols: nat, started: EdgeStarted): (o: Outcome<()>)
    requires Wf(st)
    ensures Wf(o.state) && o.state == st.(rate := o.state.rate, printer := o.state.printer)
    ensures st.printer.stdout <= o.state.printer.stdout
    ensures started.console ==> o.result.Success? && !o.state.printer.consoleLocked
    ensures o.result.Failure? ==> StatusFault(o.result.error)
  {
    if started.console then Outcome(st.(printer := Printer.SetConsoleLockedStep(st.printer, false, cols)), Success(()))
    else PrintStatusStep(st, ext, cols, started)
  }

  /** The rest of `edge_finished` once the edge is found. */
  function FinishStartedStep(st: Tracker, ext: Foreign, cols: nat, f: EdgeFinished, started: EdgeStarted): (o: Outcome<bool>)
    requires Wf(st)
    ensures Wf(o.state)
    ensures o.result.Success? ==>
      o.state == st.(running := Remove(st.running, f.id), runningEdges := st.runningEdges - 1,
                     rate := o.state.rate, printer := o.state.printer)
      && o.result.value == (f.status != 0)
    ensures o.state == st.(running := o.state.running, runningEdges := o.state.runningEdges,
                           rate := o.state.rate, printer := o.state.printer)
    ensures o.state.running == st.running || o.state.running == Remove(st.running, f.id)
    ensures st.printer.stdout <= o.state.printer.stdout
    ensures o.result.Failure? ==> StatusFault(o.result.error)
  {
    var o3 := AnnounceStep(st, ext, cols, started);
    assert o3.state == st.(rate := o3.state.rate, printer := o3.state.printer);
    if o3.result.Failure? then Outcome(o3.state, Failure(o3.result.error))
    else
      var st4 := Unregister(o3.state, cols, f, started.command);
      assert st4 == st.(running := Remove(st.running, f.id), runningEdges := st.runningEdges - 1,
                        rate := st4.rate, printer := st4.printer);
      ResumeStep(st4, ext, cols, f.status != 0)
  }

  /**
   * `edge_finished`: count it and advance the clock, then look the edge up
   * (an unknown id raises KeyError with the counter and clock already
   * advanced), unlock or show the status, remove it, print its output,
   * and show a still running edge again unless this one failed. The value
   * is whether the edge failed.
   */
  function EdgeFinishedStep(st: Tracker, ext: Foreign, cols: nat, f: EdgeFinished): (o: Outcome<bool>)
    requires Wf(st)
    ensures Wf(o.state)
    ensures o.state.finishedEdges == st.finishedEdges + 1 && o.state.timeMillis == f.endTime
    ensures o.state.startedEdges == st.startedEdges && o.state.totalEdges == st.totalEdges
    ensures o.state.verbose == st.verbose
    ensures f.id !in Ids(st.running) <==> o.result == Failure(UnknownEdge(f.id))
    ensures o.state.running == st.running || o.state.running == Remove(st.running, f.id)
    ensures UniqueIds(st.running) ==> UniqueIds(o.state.running)
    ensures f.id !in Ids(st.running) ==> o.state == st.(finishedEdges := st.finishedEdges + 1, timeMillis := f.endTime)
    ensures o.result.Success? ==>
      o.state.running == Remove(st.running, f.id) && o.state.runningEdges == st.runningEdges - 1
      && o.result.value == (f.status != 0)
    ensures st.printer.stdout <= o.state.printer.stdout
  {
    var st1 := st.(finishedEdges := st.finishedEdges + 1, timeMillis := f.endTime);
    match Lookup(st1.running, f.id)
    case None => Outcome(st1, Failure(UnknownEdge(f.id)))
    case Some(started) =>
      assert UniqueIds(st.running) ==> UniqueIds(Remove(st.running, f.id)) by {
        if UniqueIds(st.running) {
          RemoveKeepsUnique(st.running, f.id);
        }
      }
      FinishStartedStep(st1, ext, cols, f, started)
  }

  /** `message`: print it styled by level; an error-level message marks the build failed. */
  function MessageStep(st: Tracker, ext: Foreign, cols: nat, m: LogMessage): (o: Outcome<bool>)
    ensures o.state.running == st.running && o.state.rate == st.rate
    ensures o.state.startedEdges == st.startedEdges && o.state.finishedEdges == st.finishedEdges
    ensures o.state.runningEdges == st.runningEdges
    ensures o.result.Failure? <==> m.level !in {0, 1, 2}
    ensures o.result.Success? ==> o.result.value == (m.level == 2)
    ensures st.printer.stdout <= o.state.printer.stdout
    ensures Printer.Quiet(st.printer) ==> Printer.Quiet(o.state.printer)
  {
    if m.level !in {0, 1, 2} then Outcome(st, Failure(UnknownLevel(m.level)))
    else
      var prefix := if m.level == 0 then "" else if m.level == 1 then "warning: " else "error: ";
      var colour := if m.level == 0 then Green else if m.level == 1 then Magenta else Red;
      var line := ext.style(prefix + m.text, colour);
      Outcome(st.(printer := Printer.PrintLineStep(st.printer, line, Printer.Full, cols)), Success(m.level == 2))
  }

  /** The first three fields: the edge total, the start and the end of the build. */
  function Prelude(st: Tracker, cols: nat, msg: Status): (r: Tracker)
    requires Wf(st)
    ensures Wf(r) && st.printer.stdout <= r.printer.stdout
    ensures msg.buildStarted.Some? ==> r.running == [] && Consistent(r)
    ensures msg.buildStarted.None? ==> r.running == st.running && (Consistent(st) ==> Consistent(r))
    ensures r.totalEdges == if msg.totalEdges.Some? then msg.totalEdges.value else st.totalEdges
  {
    var st1 := if msg.totalEdges.Some? then st.(totalEdges := msg.totalEdges.value) else st;
    var st2 := if msg.buildStarted.Some? then BuildStartedStep(st1, msg.buildStarted.value) else st1;
    if msg.buildFinished then BuildFinishedStep(st2, cols) else st2
  }

  /** A message without any field changes nothing and reports no failure. */
  lemma EmptyMessage(st: Tracker, ext: Foreign, cols: nat)
    requires Wf(st)
    ensures HandleStep(st, ext, cols, Status(None, None, false, None, None, None)) == Outcome(st, Success(false))
  {
  }

  /** The `edge_started` field, when present. */
  function StartedField(st: Tracker, ext: Foreign, cols: nat, e: Option<EdgeStarted>): (o: Outcome<()>)
    requires Wf(st)
    ensures Wf(o.state) && st.printer.stdout <= o.state.printer.stdout
    ensures UniqueIds(st.running) ==> UniqueIds(o.state.running)
    ensures Consistent(st) ==> Consistent(o.state)
  {
    if e.Some? then EdgeStartedStep(st, ext, cols, e.value) else Outcome(st, Success(()))
  }

  /** The `edge_finished` field, when present; the value is whether the edge failed. */
  function FinishedField(st: Tracker, ext: Foreign, cols: nat, f: Option<EdgeFinished>): (o: Outcome<bool>)
    requires Wf(st)
    ensures Wf(o.state) && st.printer.stdout <= o.state.printer.stdout
    ensures UniqueIds(st.running) ==> UniqueIds(o.state.running)
    ensures Consistent(st) && o.result.Success? ==> Consistent(o.state)
    ensures o.result.Success? ==> o.result.value == (f.Some? && f.value.status != 0)
  {
    if f.Some? then EdgeFinishedStep(st, ext, cols, f.value) else Outcome(st, Success(false))
  }

  /** The `message` field, when present; the value is whether it is an error. */
  function MessageField(st: Tracker, ext: Foreign, cols: nat, m: Option<LogMessage>): (o: Outcome<bool>)
    requires Wf(st)
    ensures Wf(o.state) && st.printer.stdout <= o.state.printer.stdout
    ensures o.state.running == st.running
    ensures Consistent(st) ==> Consistent(o.state)
    ensures o.result.Success? ==> o.result.value == (m.Some? && m.value.level == 2)
  {
    if m.Some? then MessageStep(st, ext, cols, m.value) else Outcome(st, Success(false))
  }

  /** The last two fields, after the edge has started. */
  function LaterFields(st: Tracker, ext: Foreign, cols: nat, msg: Status): (o: Outcome<bool>)
    requires Wf(st)
    ensures Wf(o.state) && st.printer.stdout <= o.state.printer.stdout
    ensures UniqueIds(st.running) ==> UniqueIds(o.state.running)
    ensures Consistent(st) && o.result.Success? ==> Consistent(o.state)
    ensures o.result.Success? ==>
              o.result.value == ((msg.edgeFinished.Some? && msg.edgeFinished.value.status != 0)
                                 || (msg.message.Some? && msg.message.value.level == 2))
  {
    var o3 := FinishedField(st, ext, cols, msg.edgeFinished);
    if o3.result.Failure? then o3
    else
      var o4 := MessageField(o3.state, ext, cols, msg.message);
      if o4.result.Failure? then o4
      else Outcome(o4.state, Success(o3.result.value || o4.result.value))
  }

  /**
   * `handle(msg)`: each present field in turn; the first exception ends
   * the handling, with the state it left. The value is whether an edge
   * failed or an error was logged.
   */
  function HandleStep(st: Tracker, ext: Foreign, cols: nat, msg: Status): (o: Outcome<bool>)
    requires Wf(st)
    ensures Wf(o.state)
    ensures st.printer.stdout <= o.state.printer.stdout
    ensures UniqueIds(st.running) ==> UniqueIds(o.state.running)
    ensures Consistent(st) && o.result.Success? ==> Consistent(o.state)
    ensures o.result.Success? ==>
              o.result.value == ((msg.edgeFinished.Some? && msg.edgeFinished.value.status != 0)
                                 || (msg.message.Some? && msg.message.value.level == 2))
  {
    var st1 := Prelude(st, cols, msg);
    var o2 := StartedField(st1, ext, cols, msg.edgeStarted);
    if o2.result.Failure? then Outcome(o2.state, Failure(o2.result.error))
    else LaterFields(o2.state, ext, cols, msg)
  }

  // ---------------------------------------------------------------------------
  // The frontend object

  /**
   * A `NinjaNativeFrontend` object, with its rate window and line printer.
   * The foreign functions are fixed at construction; the terminal width is
   * passed to each call that prints.
   */
  class NinjaNativeFrontend {
    const ext: Foreign
    var totalEdges: nat
    var runningEdges: int
    var startedEdges: nat
    var finishedEdges: nat
    var running: Registry
    var lastStartedEdge: Option<EdgeStarted>
    var timeMillis: nat
    var statusFormat: string
    var currentRate: Rate.SlidingRateInfo
    var verbose: bool
    const printer: Printer.LinePrinter

    function Snapshot(): Tracker
      reads this, currentRate, printer
    {
      Tracker(totalEdges, runningEdges, startedEdges, finishedEdges, running, lastStartedEdge,
              timeMillis, statusFormat, currentRate.Snapshot(), verbose, printer.Snapshot())
    }

    ghost predicate Valid()
      reads this, currentRate
    {
      currentRate.Valid()
    }

    constructor(ext: Foreign, ninjaStatus: Option<string>, smart: bool)
      ensures Valid() && Snapshot() == Initial(ninjaStatus, smart)
      ensures fresh(currentRate) && fresh(printer)
    {
      this.ext := ext;
      totalEdges := 0;
      runningEdges := 0;
      startedEdges := 0;
      finishedEdges := 0;
      running := [];
      lastStartedEdge := None;
      timeMillis := 0;
      statusFormat := match ninjaStatus case Some(f) => f case None => " ETA: %a ";
      currentRate := new Rate.SlidingRateInfo(32);
      printer := new Printer.LinePrinter(smart);
      verbose := false;
    }

    /** `%c`: the rate window is updated with the edges finished so far. */
    method RateText() returns (res: Result<string, Fault>)
      requires Valid()
      modifies currentRate
      ensures Valid() && Outcome(Snapshot(), res) == Placeholder(old(Snapshot()), ext, 'c')
    {
      var ok := currentRate.UpdateRate(finishedEdges, timeMillis);
      if !ok {
        res := Failure(EmptyRateWindow);
      } else if currentRate.rate == -1.0 {
        res := Success("?");
      } else {
        res := Success(ext.oneDecimal(currentRate.rate));
      }
    }

    /**
     * The text of one placeholder. Only `%c` changes anything (the rate
     * window); every other placeholder is a function of the counters.
     */
    method ExpandPlaceholder(c: char) returns (res: Result<string, Fault>)
      requires Valid()
      modifies currentRate
      ensures Valid() && Outcome(Snapshot(), res) == Placeholder(old(Snapshot()), ext, c)
    {
      if c == 'c' {
        res := RateText();
      } else {
        res := Placeholder(Snapshot(), ext, c).result;
      }
    }

    /** `format_progress_status(fmt)`. */
    method FormatProgressStatus(fmt: string) returns (res: Result<string, Fault>)
      requires Valid()
      modifies currentRate
      ensures Valid() && Outcome(Snapshot(), res) == FormatProgressStatusStep(old(Snapshot()), ext, fmt)
    {
      var out := "";
      var i := 0;
      while i < |fmt|
        invariant i <= |fmt| && Valid()
        invariant ExpandFrom(Snapshot(), ext, fmt, i, out) == ExpandFrom(old(Snapshot()), ext, fmt, 0, "")
        decreases |fmt| - i
      {
        var c := fmt[i];
        if c == '%' {
          if i + 1 == |fmt| {
            return Failure(DanglingPercent);
          }
          var text := ExpandPlaceholder(fmt[i + 1]);
          if text.Failure? {
            return Failure(text.error);
          }
          out := out + text.value;
          i := i + 2;
        } else {
          out := out + [c];
          i := i + 1;
        }
      }
      out := PadRight(out, 17);
      if totalEdges == 0 {
        return Failure(ZeroDivision);
      }
      var barEnd := RoundHalfEven(|out| * finishedEdges, totalEdges);
      if totalEdges == 1 {
        return Success("");
      }
      return Success(Bar(out, barEnd));
    }

    /** `print_status(edge)`. */
    method PrintStatus(edge: EdgeStarted, cols: nat) returns (res: Result<(), Fault>)
      requires Valid()
      modifies currentRate, printer
      ensures Valid() && Outcome(Snapshot(), res) == PrintStatusStep(old(Snapshot()), ext, cols, edge)
    {
      var text := EdgeText(verbose, ext, edge);
      var status := FormatProgressStatus(statusFormat);
      if status.Failure? {
        return Failure(status.error);
      }
      printer.PrintLine(status.value + text, if verbose then Printer.Full else Printer.Elide, cols);
      return Success(());
    }

    /** The block of `handle` for `build_started`. */
    method BuildStarted(b: BuildStarted)
      modifies this
      ensures Valid() && Snapshot() == BuildStartedStep(old(Snapshot()), b)
      ensures fresh(currentRate)
    {
      verbose := b.verbose;
      currentRate := new Rate.SlidingRateInfo(b.parallelism);
      runningEdges := 0;
      startedEdges := 0;
      finishedEdges := 0;
      running := [];
    }

    /** The block of `handle` for `build_finished`. */
    method BuildFinished(cols: nat)
      requires Valid()
      modifies printer
      ensures Valid() && Snapshot() == BuildFinishedStep(old(Snapshot()), cols)
    {
      printer.SetConsoleLocked(false, cols);
      var hours := timeMillis / 3600000;
      var minutes := timeMillis % 3600000 / 60000;
      var seconds := timeMillis % 60000 / 1000;
      var timePassed;
      if hours > 0 {
        timePassed := NatToString(hours) + "h" + NatToString(minutes) + "m" + NatToString(seconds) + "s";
      } else if minutes > 0 {
        timePassed := NatToString(minutes) + "m" + NatToString(seconds) + "s";
      } else {
        timePassed := Seconds3(timeMillis % 60000) + "s";
      }
      assert timePassed == Duration(timeMillis);
      printer.PrintLine("\U{1B}[1;32mfinished " + NatToString(totalEdges) + " job"
                        + (if totalEdges != 1 then "s" else "") + " in " + timePassed + ".\U{1B}[0m",
                        Printer.Full, cols);
    }

    /** Showing a started edge, as `edge_started` and `edge_finished` both do. */
    method ShowStarted(e: EdgeStarted, cols: nat) returns (res: Result<(), Fault>)
      requires Valid()
      modifies currentRate, printer
      ensures Valid() && Outcome(Snapshot(), res) == ShowStartedStep(old(Snapshot()), ext, cols, e)
    {
      res := Success(());
      if e.console || printer.smartTerminal {
        res := PrintStatus(e, cols);
        if res.Failure? {
          return;
        }
      }
      if e.console {
        printer.SetConsoleLocked(true, cols);
      }
    }

    /** The block of `handle` for `edge_started`. */
    method EdgeStarted(e: EdgeStarted, cols: nat) returns (res: Result<(), Fault>)
      requires Valid()
      modifies this, currentRate, printer
      ensures Valid() && Outcome(Snapshot(), res) == EdgeStartedStep(old(Snapshot()), ext, cols, e)
      ensures currentRate == old(currentRate)
    {
      Register(e);
      res := ShowStarted(e, cols);
    }

    /** A started edge is counted and registered, and the clock advanced. */
    method Register(e: EdgeStarted)
      modifies this
      ensures Snapshot() == old(Snapshot()).(startedEdges := old(startedEdges) + 1,
        runningEdges := old(runningEdges) + 1, running := Assign(old(running), e.id, e),
        lastStartedEdge := Some(e), timeMillis := e.startTime)
      ensures currentRate == old(currentRate)
    {
      startedEdges := startedEdges + 1;
      runningEdges := runningEdges + 1;
      running := Assign(running, e.id, e);
      lastStartedEdge := Some(e);
      timeMillis := e.startTime;
    }

    /** The block of `handle` for `edge_finished`. */
    method EdgeFinished(f: EdgeFinished, cols: nat) returns (res: Result<bool, Fault>)
      requires Valid()
      modifies this, currentRate, printer
      ensures Valid() && Outcome(Snapshot(), res) == EdgeFinishedStep(old(Snapshot()), ext, cols, f)
      ensures currentRate == old(currentRate)
    {
      CountFinished(f);
      var found := Lookup(running, f.id);
      if found.None? {
        return Failure(UnknownEdge(f.id));
      }
      res := FinishStarted(f, found.value, cols);
    }

    /** A finished edge is counted and the clock advanced, before the edge is looked up. */
    method CountFinished(f: EdgeFinished)
      modifies this
      ensures Snapshot() == old(Snapshot()).(finishedEdges := old(finishedEdges) + 1, timeMillis := f.endTime)
      ensures currentRate == old(currentRate)
    {
      finishedEdges := finishedEdges + 1;
      timeMillis := f.endTime;
    }

    /** The rest of `edge_finished` once the edge is found. */
    method FinishStarted(f: EdgeFinished, started: EdgeStarted, cols: nat) returns (res: Result<bool, Fault>)
      requires Valid()
      modifies this, currentRate, printer
      ensures Valid() && Outcome(Snapshot(), res) == FinishStartedStep(old(Snapshot()), ext, cols, f, started)
      ensures currentRate == old(currentRate)
    {
      var shown := Announce(started, cols);
      if shown.Failure? {
        return Failure(shown.error);
      }
      Retire(f, started.command, cols);
      res := Resume(f.status != 0, cols);
    }

    /** The finished edge leaves the registry, and its output is printed. */
    method Retire(f: EdgeFinished, command: string, cols: nat)
      requires Valid()
      modifies this, printer
      ensures Valid() && Snapshot() == Unregister(old(Snapshot()), cols, f, command)
      ensures currentRate == old(currentRate)
    {
      runningEdges := runningEdges - 1;
      running := Remove(running, f.id);
      PrintOutput(f, command, cols);
    }

    /** Giving the console back, or showing the status, for a finished edge. */
    method Announce(started: EdgeStarted, cols: nat) returns (res: Result<(), Fault>)
      requires Valid()
      modifies currentRate, printer
      ensures Valid() && Outcome(Snapshot(), res) == AnnounceStep(old(Snapshot()), ext, cols, started)
    {
      if started.console {
        printer.SetConsoleLocked(false, cols);
      }
      res := Success(());
      if !started.console {
        res := PrintStatus(started, cols);
      }
    }

    /** Showing a still running edge again after one that did not fail. */
    method Resume(failed: bool, cols: nat) returns (res: Result<bool, Fault>)
      requires Valid()
      modifies currentRate, printer
      ensures Valid() && Outcome(Snapshot(), res) == ResumeStep(old(Snapshot()), ext, cols, failed)
    {
      if !failed && running != [] {
        var shown := ShowStarted(running[0].1, cols);
        if shown.Failure? {
          return Failure(shown.error);
        }
      }
      return Success(failed);
    }

    /** A finished edge's output, with the command before it when needed. */
    method PrintOutput(f: EdgeFinished, command: string, cols: nat)
      requires Valid()
      modifies printer
      ensures Valid() && Snapshot() == ShowOutput(old(Snapshot()), cols, f, command)
    {
      var template := FinishedTemplate(f, command);
      if template.Some? {
        printer.PrintLine("", Printer.Elide, cols);
        if verbose || f.output == "" {
          printer.PrintLine(template.value, Printer.Full, cols);
        }
        var output := if !printer.smartTerminal then Ansi.StripAnsiEscapeCodes(f.output) else f.output;
        printer.PrintLine(RStripChar(output, '\n'), Printer.Full, cols);
      }
    }

    /** The block of `handle` for `message`. */
    method Message(m: LogMessage, cols: nat) returns (res: Result<bool, Fault>)
      requires Valid()
      modifies printer
      ensures Valid() && Outcome(Snapshot(), res) == MessageStep(old(Snapshot()), ext, cols, m)
    {
      var prefix, colour;
      if m.level == 0 {
        prefix, colour := "", Green;
      } else if m.level == 1 {
        prefix, colour := "warning: ", Magenta;
      } else if m.level == 2 {
        prefix, colour := "error: ", Red;
      } else {
        return Failure(UnknownLevel(m.level));
      }
      printer.PrintLine(ext.style(prefix + m.text, colour), Printer.Full, cols);
      return Success(m.level == 2);
    }

    /** The blocks of `handle` for the edge total, `build_started` and `build_finished`. */
    method HandlePrelude(msg: Status, cols: nat)
      requires Valid()
      modifies this, printer
      ensures Valid() && Snapshot() == Prelude(old(Snapshot()), cols, msg)
      ensures currentRate == old(currentRate) || fresh(currentRate)
    {
      if msg.totalEdges.Some? {
        totalEdges := msg.totalEdges.value;
      }
      if msg.buildStarted.Some? {
        BuildStarted(msg.buildStarted.value);
      }
      if msg.buildFinished {
        BuildFinished(cols);
      }
    }

    /** The blocks of `handle` for `edge_finished` and `message`. */
    method HandleLater(msg: Status, cols: nat) returns (res: Result<bool, Fault>)
      requires Valid()
      modifies this, currentRate, printer
      ensures Valid() && Outcome(Snapshot(), res) == LaterFields(old(Snapshot()), ext, cols, msg)
    {
      var edgeFailed := false;
      if msg.edgeFinished.Some? {
        var finished := EdgeFinished(msg.edgeFinished.value, cols);
        if finished.Failure? {
          return finished;
        }
        edgeFailed := finished.value;
      }
      if msg.message.Some? {
        var logged := Message(msg.message.value, cols);
        if logged.Failure? {
          return logged;
        }
        edgeFailed := edgeFailed || logged.value;
      }
      return Success(edgeFailed);
    }

    /** `handle(msg)`. */
    method Handle(msg: Status, cols: nat) returns (res: Result<bool, Fault>)
      requires Valid()
      modifies this, currentRate, printer
      ensures Valid() && Outcome(Snapshot(), res) == HandleStep(old(Snapshot()), ext, cols, msg)
    {
      HandlePrelude(msg, cols);
      if msg.edgeStarted.Some? {
        var started := EdgeStarted(msg.edgeStarted.value, cols);
        if started.Failure? {
          return Failure(started.error);
        }
      }
      res := HandleLater(msg, cols);
    }
  }
}

=== FILE: printer.dfy ===
/**
 * `LinePrinter` of ja/native.py: writes status and output lines to the
 * terminal, eliding status lines on a smart terminal, and holds back
 * output while a console edge owns the terminal. Standard output is an
 * append-only log; the terminal width is passed in at each print, as the
 * source queries it there.
 */
module Printer {
  import Ansi

  datatype LineType = Full | Elide

  /** "Clear to end of line". */
  const ClearToEol: string := "\U{1B}[K"

  /** The fields of a `LinePrinter`, and what has been written to standard output. */
  datatype PrinterState = PrinterState(
    smart: bool,             // smart_terminal
    haveBlankLine: bool,     // the caret is at the start of a blank line
    consoleLocked: bool,
    lineBuffer: string,      // the current line, kept while locked
    lineType: LineType,
    outputBuffer: string,    // output held back while locked
    stdout: string)

  function Initial(smart: bool): (p: PrinterState)
    ensures Quiet(p) && p.stdout == [] && p.smart == smart
    ensures p.haveBlankLine && !p.consoleLocked && p.lineType == Full
    ensures p.lineBuffer == "" && p.outputBuffer == ""
  {
    PrinterState(smart, true, false, "", Full, "", "")
  }

  /** Buffers are only in use while the console is locked. */
  predicate Quiet(p: PrinterState) {
    !p.consoleLocked ==> p.lineBuffer == "" && p.outputBuffer == ""
  }

  /** What `print_line` writes for a line of the given type. */
  function LineOutput(smart: bool, toPrint: string, lineType: LineType, cols: nat): string {
    var cr := if smart then "\r" else "";
    if smart && lineType == Elide then cr + Ansi.Elided(toPrint, cols) + ClearToEol
    else cr + toPrint + "\n"
  }

  /**
   * `print_line`: records the line while locked, and writes it in any
   * case. Only an elided status line leaves the caret off a blank line;
   * a full line leaves `have_blank_line` as it was.
   */
  function PrintLineStep(p: PrinterState, toPrint: string, lineType: LineType, cols: nat): (r: PrinterState)
    ensures r.stdout == p.stdout + LineOutput(p.smart, toPrint, lineType, cols)
    ensures r.consoleLocked == p.consoleLocked && r.outputBuffer == p.outputBuffer && r.smart == p.smart
    ensures r.lineBuffer == (if p.consoleLocked then toPrint else p.lineBuffer)
    ensures r.lineType == (if p.consoleLocked then lineType else p.lineType)
    ensures r.haveBlankLine == (p.haveBlankLine && !(p.smart && lineType == Elide))
    ensures Quiet(p) ==> Quiet(r)
  {
    var p1 := if p.consoleLocked then p.(lineBuffer := toPrint, lineType := lineType) else p;
    var p2 := p1.(stdout := p1.stdout + LineOutput(p.smart, toPrint, lineType, cols));
    if p.smart && lineType == Elide then p2.(haveBlankLine := false) else p2
  }

  /** `print_or_buffer`. */
  function PrintOrBufferStep(p: PrinterState, toPrint: string): (r: PrinterState)
    ensures p.consoleLocked ==> r.stdout == p.stdout && r.outputBuffer == p.outputBuffer + toPrint
    ensures !p.consoleLocked ==> r.stdout == p.stdout + toPrint && r.outputBuffer == p.outputBuffer
    ensures r.consoleLocked == p.consoleLocked && r.lineBuffer == p.lineBuffer && r.smart == p.smart
    ensures r.haveBlankLine == p.haveBlankLine && r.lineType == p.lineType
  {
    if p.consoleLocked then p.(outputBuffer := p.outputBuffer + toPrint)
    else p.(stdout := p.stdout + toPrint)
  }

  /**
   * `print_on_new_line`: moves a pending line into the output buffer, ends
   * the current line if needed, prints `toPrint`, and records whether the
   * caret is now at a blank line, judged by the first character of
   * `toPrint`.
   */
  function PrintOnNewLineStep(p: PrinterState, toPrint: string): (r: PrinterState)
    ensures r.consoleLocked == p.consoleLocked && r.smart == p.smart
    ensures r.haveBlankLine == (toPrint == "" || toPrint[0] == '\n')
    ensures p.consoleLocked ==> r.stdout == p.stdout
    ensures !p.consoleLocked ==>
      r.stdout == p.stdout + (if p.haveBlankLine then "" else "\n") + toPrint
    ensures r.outputBuffer == (if p.consoleLocked then
        p.outputBuffer + p.lineBuffer + "\n" + (if p.haveBlankLine then "" else "\n") + toPrint
      else if p.lineBuffer != "" then p.outputBuffer + p.lineBuffer + "\n"
      else p.outputBuffer)
    ensures r.lineType == p.lineType
    ensures r.lineBuffer == (if p.consoleLocked || p.lineBuffer != "" then "" else p.lineBuffer)
    ensures Quiet(p) ==> Quiet(r)
  {
    var p1 := if p.consoleLocked || p.lineBuffer != "" then
      p.(outputBuffer := p.outputBuffer + p.lineBuffer + "\n", lineBuffer := "")
    else p;
    var p2 := if !p1.haveBlankLine then PrintOrBufferStep(p1, "\n") else p1;
    var p3 := if toPrint != "" then PrintOrBufferStep(p2, toPrint) else p2;
    p3.(haveBlankLine := toPrint == "" || toPrint[0] == '\n')
  }

  /**
   * `set_console_locked`. Locking starts a fresh line; unlocking prints the
   * held-back output on a new line and empties both buffers.
   */
  function SetConsoleLockedStep(p: PrinterState, locked: bool, cols: nat): (r: PrinterState)
    ensures r.consoleLocked == locked && r.smart == p.smart
    ensures p.stdout <= r.stdout
    ensures Quiet(p) ==> Quiet(r)
    ensures p.consoleLocked && !locked ==> Quiet(r)
  {
    if locked == p.consoleLocked then p
    else if locked then PrintOnNewLineStep(p, "\n").(consoleLocked := true)
    else
      var q1 := PrintOnNewLineStep(p.(consoleLocked := false), p.outputBuffer);
      var q2 := if q1.lineBuffer != "" then PrintLineStep(q1, q1.lineBuffer, q1.lineType, cols) else q1;
      q2.(outputBuffer := "", lineBuffer := "")
  }

  /** Asking for the state the console is already in changes nothing. */
  lemma LockIdempotent(p: PrinterState, cols: nat)
    ensures SetConsoleLockedStep(p, p.consoleLocked, cols) == p
  {
  }

  /** Locking ends the current line and leaves one blank line, with empty buffers. */
  lemma LockStartsFreshLine(p: PrinterState, cols: nat)
    requires Quiet(p) && !p.consoleLocked
    ensures var r := SetConsoleLockedStep(p, true, cols);
      && r.consoleLocked && r.haveBlankLine
      && r.stdout == p.stdout + (if p.haveBlankLine then "" else "\n") + "\n"
      && r.lineBuffer == "" && r.outputBuffer == ""
  {
  }

  /**
   * Unlocking writes the held-back output on a new line and nothing else:
   * the last line printed while locked, kept in `line_buffer`, is not
   * printed again, because `print_on_new_line` has already moved it into
   * the output buffer that unlocking then discards.
   */
  lemma UnlockFlushesOutputOnly(p: PrinterState, cols: nat)
    requires p.consoleLocked
    ensures var r := SetConsoleLockedStep(p, false, cols);
      && !r.consoleLocked && r.lineBuffer == "" && r.outputBuffer == ""
      && r.stdout == p.stdout + (if p.haveBlankLine then "" else "\n") + p.outputBuffer
      && r.haveBlankLine == (p.outputBuffer == "" || p.outputBuffer[0] == '\n')
  {
    var q := p.(consoleLocked := false);
    var q1 := PrintOnNewLineStep(q, p.outputBuffer);
    assert q1.lineBuffer == "";
    var p1 := if q.lineBuffer != "" then q.(outputBuffer := q.outputBuffer + q.lineBuffer + "\n", lineBuffer := "") else q;
    assert p1.stdout == p.stdout && !p1.consoleLocked;
    var p2 := if !p1.haveBlankLine then PrintOrBufferStep(p1, "\n") else p1;
    assert p2.stdout == p.stdout + (if p.haveBlankLine then "" else "\n");
  }

  /** While locked, print_line still writes the line out, as it would unlocked, and also keeps it. */
  lemma WritesThroughWhileLocked(p: PrinterState, toPrint: string, lineType: LineType, cols: nat)
    requires p.consoleLocked
    ensures var r := PrintLineStep(p, toPrint, lineType, cols);
      && r.stdout == PrintLineStep(p.(consoleLocked := false), toPrint, lineType, cols).stdout
      && r.lineBuffer == toPrint && r.lineType == lineType
  {
  }

  /** Standard output only grows, whatever the printer is asked to do. */
  lemma StdoutOnlyGrows(p: PrinterState, toPrint: string, lineType: LineType, cols: nat)
    ensures p.stdout <= PrintLineStep(p, toPrint, lineType, cols).stdout
    ensures p.stdout <= PrintOrBufferStep(p, toPrint).stdout
    ensures p.stdout <= PrintOnNewLineStep(p, toPrint).stdout
  {
    var p1 := if p.consoleLocked || p.lineBuffer != "" then
      p.(outputBuffer := p.outputBuffer + p.lineBuffer + "\n", lineBuffer := "")
    else p;
    var p2 := if !p1.haveBlankLine then PrintOrBufferStep(p1, "\n") else p1;
    assert p.stdout <= p2.stdout;
  }

  /**
   * A `LinePrinter` object; `stdout` is everything written to standard
   * output so far.
   */
  class LinePrinter {
    const smartTerminal: bool
    var haveBlankLine: bool
    var consoleLocked: bool
    var lineBuffer: string
    var lineType: LineType
    var outputBuffer: string
    var stdout: string

    function Snapshot(): PrinterState
      reads this
    {
      PrinterState(smartTerminal, haveBlankLine, consoleLocked, lineBuffer, lineType, outputBuffer, stdout)
    }

    constructor(smart: bool)
      ensures Snapshot() == Initial(smart)
    {
      smartTerminal := smart;
      haveBlankLine := true;
      consoleLocked := false;
      lineBuffer := "";
      lineType := Full;
      outputBuffer := "";
      stdout := "";
    }

    method PrintLine(toPrint: string, kind: LineType, cols: nat)
      modifies this
      ensures Snapshot() == PrintLineStep(old(Snapshot()), toPrint, kind, cols)
    {
      if consoleLocked {
        lineBuffer := toPrint;
        lineType := kind;
      }
      var written := if smartTerminal then "\r" else "";
      if smartTerminal && kind == Elide {
        var shown := Ansi.ElideMiddle(toPrint, cols);
        written := written + shown + ClearToEol;
        haveBlankLine := false;
      } else {
        written := written + toPrint + "\n";
      }
      assert written == LineOutput(smartTerminal, toPrint, kind, cols);
      stdout := stdout + written;
    }

    method PrintOrBuffer(toPrint: string)
      modifies this
      ensures Snapshot() == PrintOrBufferStep(old(Snapshot()), toPrint)
    {
      if consoleLocked {
        outputBuffer := outputBuffer + toPrint;
      } else {
        stdout := stdout + toPrint;
      }
    }

    method PrintOnNewLine(toPrint: string)
      modifies this
      ensures Snapshot() == PrintOnNewLineStep(old(Snapshot()), toPrint)
    {
      if consoleLocked || lineBuffer != "" {
        outputBuffer := outputBuffer + lineBuffer + "\n";
        lineBuffer := "";
      }
      if !haveBlankLine {
        PrintOrBuffer("\n");
      }
      if toPrint != "" {
        PrintOrBuffer(toPrint);
      }
      haveBlankLine := toPrint == "" || toPrint[0] == '\n';
    }

    method SetConsoleLocked(locked: bool, cols: nat)
      modifies this
      ensures Snapshot() == SetConsoleLockedStep(old(Snapshot()), locked, cols)
    {
      if locked == consoleLocked {
        return;
      }
      if locked {
        PrintOnNewLine("\n");
      }
      consoleLocked := locked;
      if !locked {
        PrintOnNewLine(outputBuffer);
        if lineBuffer != "" {
          // Never taken: print_on_new_line has just emptied the line buffer.
          assert false;
        }
        outputBuffer := "";
        lineBuffer := "";
      }
    }
  }
}

=== FILE: rate.dfy ===
/**
 * `SlidingRateInfo` of ja/native.py: the finishing times of the last `n`
 * edges in a bounded deque, and the rate they give, used by the `%c`
 * placeholder of the status line.
 */
module Rate {
  import opened Seqs

  /**
   * The state of a `SlidingRateInfo`: the deque's capacity (`maxlen`), the
   * retained times in milliseconds, oldest first, the hint of the last
   * update and the last computed rate in edges per second (-1 while unknown).
   */
  datatype RateWindow = RateWindow(capacity: nat, times: seq<int>, lastUpdate: int, rate: real)

  /** A deque never holds more than `maxlen` entries. */
  predicate Bounded(w: RateWindow) {
    |w.times| <= w.capacity
  }

  /** `SlidingRateInfo(n)`. */
  function Fresh(n: nat): (w: RateWindow)
    ensures Bounded(w) && w.times == [] && w.rate == -1.0
    ensures w.capacity == n && w.lastUpdate == -1
  {
    RateWindow(n, [], -1, -1.0)
  }

  /** Samples per second over the time the window spans. */
  function SampleRate(times: seq<int>): real
    requires |times| > 0 && times[0] != times[|times| - 1]
  {
    (|times| as real) * 1000.0 / ((times[|times| - 1] - times[0]) as real)
  }

  /**
   * `update_rate` raises IndexError when it has to evict from an empty
   * deque: a new hint on a window of capacity 0.
   */
  predicate UpdateFails(w: RateWindow, hint: int) {
    hint != w.lastUpdate && w.capacity == 0
  }

  /**
   * The window after `update_rate(hint, time)`. On failure the state is
   * the one left when the exception was raised: `last_update` already set.
   */
  function Updated(w: RateWindow, hint: int, time: int): (r: RateWindow)
    requires Bounded(w)
    ensures Bounded(r) && r.capacity == w.capacity && r.lastUpdate == hint
    ensures hint == w.lastUpdate || UpdateFails(w, hint) ==> r.times == w.times && r.rate == w.rate
    ensures !UpdateFails(w, hint) && hint != w.lastUpdate ==> |r.times| > 0 && r.times[|r.times| - 1] == time
  {
    if hint == w.lastUpdate then w
    else if w.capacity == 0 then w.(lastUpdate := hint)
    else
      var kept := if |w.times| == w.capacity then w.times[1..] else w.times;
      var times := kept + [time];
      var rate := if times[|times| - 1] != times[0] then SampleRate(times) else w.rate;
      RateWindow(w.capacity, times, hint, rate)
  }

  /** The last `n` elements of `s`, or all of it when it is shorter. */
  function LastN(s: seq<int>, n: nat): (r: seq<int>)
    ensures |r| <= n && |r| <= |s|
  {
    if |s| <= n then s else s[|s| - n..]
  }

  /** Updating with each hint and time in turn. */
  function UpdateAll(w: RateWindow, hints: seq<int>, times: seq<int>): (r: RateWindow)
    requires Bounded(w) && |hints| == |times|
    ensures Bounded(r) && r.capacity == w.capacity
  {
    if hints == [] then w
    else
      var k := |hints| - 1;
      Updated(UpdateAll(w, hints[..k], times[..k]), hints[k], times[k])
  }

  /** Each hint differs from the one before it; the first from the initial -1. */
  predicate Advancing(hints: seq<int>) {
    hints != [] ==>
      var k := |hints| - 1;
      hints[k] != (if k == 0 then -1 else hints[k - 1]) && Advancing(hints[..k])
  }

  /**
   * Updating a fresh window of capacity `n >= 1` with advancing hints
   * keeps exactly the last `n` times, in order, and remembers the last hint.
   */
  lemma {:induction false} WindowKeepsLatest(n: nat, hints: seq<int>, times: seq<int>)
    requires n >= 1 && |hints| == |times| && Advancing(hints)
    ensures UpdateAll(Fresh(n), hints, times).times == LastN(times, n)
    ensures UpdateAll(Fresh(n), hints, times).lastUpdate == (if hints == [] then -1 else hints[|hints| - 1])
  {
    if hints != [] {
      var k := |hints| - 1;
      WindowKeepsLatest(n, hints[..k], times[..k]);
      WindowStep(n, hints, times);
    }
  }

  /** The step of WindowKeepsLatest: one more update on the window of the earlier ones. */
  lemma WindowStep(n: nat, hints: seq<int>, times: seq<int>)
    requires n >= 1 && |hints| == |times| && Advancing(hints) && hints != []
    requires var k := |hints| - 1; var w := UpdateAll(Fresh(n), hints[..k], times[..k]);
      w.times == LastN(times[..k], n) && w.lastUpdate == (if k == 0 then -1 else hints[k - 1])
    ensures UpdateAll(Fresh(n), hints, times).times == LastN(times, n)
    ensures UpdateAll(Fresh(n), hints, times).lastUpdate == hints[|hints| - 1]
  {
    var k := |hints| - 1;
    var w := UpdateAll(Fresh(n), hints[..k], times[..k]);
    assert UpdateAll(Fresh(n), hints, times) == Updated(w, hints[k], times[k]);
    UpdatedTimes(w, hints[k], times[k]);
    LastNStep(times[..k], times[k], n);
    InitLast(times);
  }

  lemma UpdatedTimes(w: RateWindow, hint: int, time: int)
    requires Bounded(w) && w.capacity >= 1 && hint != w.lastUpdate
    ensures Updated(w, hint, time).times == (if |w.times| == w.capacity then w.times[1..] else w.times) + [time]
  {
  }

  /** Appending to a full window drops its oldest element. */
  lemma LastNStep(s: seq<int>, t: int, n: nat)
    requires n >= 1
    ensures var w := LastN(s, n);
      LastN(s + [t], n) == (if |w| == n then w[1..] else w) + [t]
  {
    var w := LastN(s, n);
    if |s| + 1 > n {
      assert |w| == n;
      assert w[1..] == s[|s| + 1 - n..];
      assert (s + [t])[|s| + 1 - n..] == s[|s| + 1 - n..] + [t];
    }
  }

  /** While every time seen is the same, the rate stays unknown. */
  lemma {:induction false} RateUnknownWhileConstant(n: nat, hints: seq<int>, times: seq<int>, t: int)
    requires |hints| == |times| && forall i :: 0 <= i < |times| ==> times[i] == t
    ensures UpdateAll(Fresh(n), hints, times).rate == -1.0
    ensures forall i :: 0 <= i < |UpdateAll(Fresh(n), hints, times).times| ==> UpdateAll(Fresh(n), hints, times).times[i] == t
  {
    if hints != [] {
      var k := |hints| - 1;
      RateUnknownWhileConstant(n, hints[..k], times[..k], t);
    }
  }

  /**
   * Once the retained times span a non-zero interval, the rate is the
   * number of retained samples (not the number of intervals between them)
   * per second of that span.
   */
  lemma RateOfRecentHistory(n: nat, hints: seq<int>, times: seq<int>)
    requires n >= 1 && |hints| == |times| && Advancing(hints) && hints != []
    requires var recent := LastN(times, n); recent[0] != recent[|recent| - 1]
    ensures UpdateAll(Fresh(n), hints, times).rate == SampleRate(LastN(times, n))
  {
    WindowKeepsLatest(n, hints, times);
    var k := |hints| - 1;
    WindowKeepsLatest(n, hints[..k], times[..k]);
  }

  /**
   * Two distinct hints at two distinct times give two samples over their
   * span: with 2 seconds between them that is 1 edge per second.
   */
  lemma TwoSamples(n: nat, h0: int, h1: int, t0: int, t1: int)
    requires n >= 2 && h0 != -1 && h1 != h0 && t0 != t1
    ensures UpdateAll(Fresh(n), [h0, h1], [t0, t1]).rate == 2000.0 / ((t1 - t0) as real)
  {
    assert [h0, h1][..1] == [h0];
    assert Advancing([h0, h1]);
    assert LastN([t0, t1], n) == [t0, t1];
    RateOfRecentHistory(n, [h0, h1], [t0, t1]);
  }

  /** A `SlidingRateInfo` object. */
  class SlidingRateInfo {
    const capacity: nat
    var times: seq<int>
    var lastUpdate: int
    var rate: real

    function Snapshot(): RateWindow
      reads this
    {
      RateWindow(capacity, times, lastUpdate, rate)
    }

    ghost predicate Valid()
      reads this
    {
      Bounded(Snapshot())
    }

    constructor(n: nat)
      ensures Valid() && Snapshot() == Fresh(n)
    {
      capacity := n;
      times := [];
      lastUpdate := -1;
      rate := -1.0;
    }

    /**
     * `update_rate`; `ok` is false where the source raises IndexError, and
     * the fields are then as the exception left them.
     */
    method UpdateRate(hint: int, time: int) returns (ok: bool)
      requires Valid()
      modifies this
      ensures Valid() && Snapshot() == Updated(old(Snapshot()), hint, time)
      ensures ok == !UpdateFails(old(Snapshot()), hint)
    {
      if hint == lastUpdate {
        return true;
      }
      lastUpdate := hint;
      if |times| == capacity {
        if times == [] {
          return false;
        }
        times := times[1..];
      }
      times := times + [time];
      if times[|times| - 1] != times[0] {
        rate := (|times| as real) * 1000.0 / ((times[|times| - 1] - times[0]) as real);
      }
      return true;
    }
  }
}

=== FILE: seqs.dfy ===
/**
 * Small facts about sequences, each proved on its own so that the proofs
 * using them stay small.
 */
module Seqs {
  lemma SplitAt<T>(s: seq<T>, n: nat)
    requires n <= |s|
    ensures s[..n] + s[n..] == s
  {
  }

  lemma HeadCons<T>(s: seq<T>)
    requires s != []
    ensures [s[0]] + s[1..] == s
  {
  }

  lemma SliceSplit<T>(s: seq<T>, i: nat, j: nat)
    requires i <= j <= |s|
    ensures s[i..] == s[i..j] + s[j..]
  {
  }

  lemma LeadingPart<T>(a: seq<T>, b: seq<T>)
    ensures (a + b)[0..|a|] == a
  {
  }

  /** Cutting element `j` out of the tail, with the head put back, cuts element `j + 1` out of the whole. */
  lemma ConsCut<T>(s: seq<T>, j: nat)
    requires j + 1 < |s|
    ensures [s[0]] + (s[1..][..j] + s[1..][j + 1..]) == s[..j + 1] + s[j + 2..]
  {
    assert s[..j + 1] == [s[0]] + s[1..][..j];
    assert s[j + 2..] == s[1..][j + 1..];
  }

  /** A slice holding `a + b` holds `a`, then `b`. */
  lemma SliceParts<T>(s: seq<T>, i: nat, a: seq<T>, b: seq<T>)
    requires i + |a| + |b| <= |s| && s[i..i + |a| + |b|] == a + b
    ensures s[i..i + |a|] == a && s[i + |a|..i + |a| + |b|] == b
  {
    assert s[i..i + |a|] == s[i..i + |a| + |b|][..|a|];
    assert s[i + |a|..i + |a| + |b|] == s[i..i + |a| + |b|][|a|..];
  }

  lemma HeadTail<T>(a: seq<T>, b: seq<T>)
    requires a != []
    ensures (a + b)[0] == a[0] && (a + b)[1..] == a[1..] + b
  {
  }

  lemma ConsParts<T>(x: T, s: seq<T>)
    ensures ([x] + s)[0] == x && ([x] + s)[1..] == s
  {
  }

  lemma Assoc<T>(x: seq<T>, y: seq<T>, z: seq<T>)
    ensures x + (y + z) == (x + y) + z
  {
  }

  lemma InitLast<T>(s: seq<T>)
    requires s != []
    ensures s[..|s| - 1] + [s[|s| - 1]] == s
  {
  }

  lemma TakeOneMore<T>(s: seq<T>, i: nat)
    requires i < |s|
    ensures s[..i + 1] == s[..i] + [s[i]]
  {
  }

  /** Every element of a prefix is an element of the whole. */
  lemma PrefixWithin<T>(t: seq<T>, s: seq<T>)
    requires t <= s
    ensures forall x :: x in t ==> x in s
  {
    forall x | x in t
      ensures x in s
    {
      var i :| 0 <= i < |t| && t[i] == x;
      assert s[i] == x;
    }
  }

  /** Every element of a suffix is an element of the whole. */
  lemma SuffixWithin<T>(t: seq<T>, s: seq<T>)
    requires |t| <= |s| && t == s[|s| - |t|..]
    ensures forall x :: x in t ==> x in s
  {
    forall x | x in t
      ensures x in s
    {
      var i :| 0 <= i < |t| && t[i] == x;
      assert s[|s| - |t| + i] == x;
    }
  }
}

=== FILE: strings.dfy ===
/** The handful of Python `str` operations the front end relies on, over `seq<char>`. */
module Strings {
  import opened Wrappers
  import opened Seqs

  function Digit(d: nat): (c: char)
    requires d < 10
    ensures '0' <= c <= '9' && (c as int) - ('0' as int) == d
  {
    (('0' as int) + d) as char
  }

  /** `str(n)` for a non-negative integer. */
  function NatToString(n: nat): (r: string)
    ensures |r| >= 1
    ensures forall i :: 0 <= i < |r| ==> '0' <= r[i] <= '9'
    decreases n
  {
    if n < 10 then [Digit(n)] else NatToString(n / 10) + [Digit(n % 10)]
  }

  /** The number a string of decimal digits denotes; a character other than a digit counts as 0. */
  function DigitsValue(s: string): nat {
    if s == [] then 0
    else
      var c := s[|s| - 1];
      DigitsValue(s[..|s| - 1]) * 10 + (if '0' <= c <= '9' then (c as int) - ('0' as int) else 0)
  }

  /**
   * `str(n)` reads back as `n`, and is the canonical numeral: no leading
   * zero unless it is "0" itself.
   */
  lemma {:induction false} NatToStringValue(n: nat)
    ensures DigitsValue(NatToString(n)) == n
    ensures NatToString(n)[0] == '0' ==> n == 0
    decreases n
  {
    if n >= 10 {
      NatToStringValue(n / 10);
      var a := NatToString(n / 10);
      var d := Digit(n % 10);
      assert (a + [d])[..|a + [d]| - 1] == a;
      assert (a + [d])[0] == a[0];
    }
  }

  /** `str(i)` for any integer. */
  function IntToString(i: int): (r: string)
    ensures |r| >= 1
    ensures (r[0] == '-') <==> i < 0
  {
    if i < 0 then "-" + NatToString(-i) else NatToString(i)
  }

  predicate StartsWith(s: string, prefix: string) {
    |prefix| <= |s| && s[..|prefix|] == prefix
  }

  /** Characters Python's `str.isspace` accepts. */
  predicate IsSpace(c: char) {
    c in {'\U{20}', '\U{9}', '\U{A}', '\U{D}', '\U{B}', '\U{C}', '\U{1C}', '\U{1D}',
          '\U{1E}', '\U{1F}', '\U{85}', '\U{A0}', '\U{1680}', '\U{2000}', '\U{2001}', '\U{2002}',
          '\U{2003}', '\U{2004}', '\U{2005}', '\U{2006}', '\U{2007}', '\U{2008}', '\U{2009}', '\U{200A}',
          '\U{2028}', '\U{2029}', '\U{202F}', '\U{205F}', '\U{3000}'}
  }

  /** The number `str(i)` denotes: a leading '-' negates the digits after it. */
  function IntValue(s: string): int {
    if s != [] && s[0] == '-' then -(DigitsValue(s[1..]) as int) else DigitsValue(s)
  }

  /** `str(i)` reads back as `i`. */
  lemma IntToStringValue(i: int)
    ensures IntValue(IntToString(i)) == i
  {
    if i < 0 {
      NatToStringValue(-i);
      assert IntToString(i)[1..] == NatToString(-i);
    } else {
      NatToStringValue(i);
    }
  }

  /** The part of `s` before the first `c`, all of `s` when there is none. */
  function Before(s: string, c: char): (r: string)
    ensures r <= s && c !in r
  {
    if s == [] || s[0] == c then [] else [s[0]] + Before(s[1..], c)
  }

  /** The part of `s` after the first `c`, empty when there is none. */
  function After(s: string, c: char): (r: string)
    ensures |r| <= |s|
  {
    if s == [] then [] else if s[0] == c then s[1..] else After(s[1..], c)
  }

  /** A field followed by its terminator `c` and the rest: reading up to `c` finds the field. */
  lemma {:induction false} FieldThen(a: string, c: char, b: string)
    requires c !in a
    ensures Before(a + [c] + b, c) == a && After(a + [c] + b, c) == b
  {
    if a != [] {
      FieldThen(a[1..], c, b);
      assert (a + [c] + b)[1..] == a[1..] + [c] + b;
      assert a == [a[0]] + a[1..];
    } else {
      assert a + [c] + b == [c] + b;
    }
  }

  /** A numeral holds no character other than digits. */
  lemma NumeralHasNo(n: nat, c: char)
    requires !('0' <= c <= '9')
    ensures c !in NatToString(n)
  {
  }

  /** `s.rstrip()`: drops trailing white space. */
  function RStrip(s: string): (r: string)
    ensures r <= s
    ensures r == [] || !IsSpace(r[|r| - 1])
    ensures forall i :: |r| <= i < |s| ==> IsSpace(s[i])
  {
    if s == [] || !IsSpace(s[|s| - 1]) then s else RStrip(s[..|s| - 1])
  }

  /** `s.lstrip()`: drops leading white space. */
  function LStrip(s: string): (r: string)
    ensures |r| <= |s| && r == s[|s| - |r|..]
    ensures r == [] || !IsSpace(r[0])
  {
    if s == [] || !IsSpace(s[0]) then s else LStrip(s[1..])
  }

  /** `s.strip()`. */
  function Strip(s: string): string {
    LStrip(RStrip(s))
  }

  /** `s.rstrip(c)` for a single character `c`. */
  function RStripChar(s: string, c: char): (r: string)
    ensures r <= s
    ensures r == [] || r[|r| - 1] != c
    ensures forall i :: |r| <= i < |s| ==> s[i] == c
  {
    if s == [] || s[|s| - 1] != c then s else RStripChar(s[..|s| - 1], c)
  }

  /** `'{:w}'.format(s)`: left-aligned, padded with spaces to at least `w` characters. */
  function PadRight(s: string, w: nat): (r: string)
    ensures |r| == if |s| < w then w else |s|
    ensures r[..|s|] == s
    ensures forall i :: |s| <= i < |r| ==> r[i] == ' '
  {
    if |s| < w then s + seq(w - |s|, _ => ' ') else s
  }

  /** `'{:wd}'.format(n)`: right-aligned, padded with spaces to at least `w` characters. */
  function PadLeft(s: string, w: nat): (r: string)
    ensures |r| == if |s| < w then w else |s|
    ensures r[|r| - |s|..] == s
    ensures forall i :: 0 <= i < |r| - |s| ==> r[i] == ' '
  {
    if |s| < w then seq(w - |s|, _ => ' ') + s else s
  }

  /** Leading white space in front of a numeral is what `lstrip` takes off again. */
  lemma PadLeftNumeral(s: string, w: nat)
    requires s != [] && '0' <= s[0] <= '9'
    ensures LStrip(PadLeft(s, w)) == s
  {
    SpacesThen(PadLeft(s, w), |PadLeft(s, w)| - |s|);
  }

  lemma {:induction false} SpacesThen(r: string, k: nat)
    requires k < |r| && '0' <= r[k] <= '9'
    requires forall i :: 0 <= i < k ==> r[i] == ' '
    ensures LStrip(r) == r[k..]
    decreases k
  {
    if k > 0 {
      assert IsSpace(r[0]);
      SpacesThen(r[1..], k - 1);
      assert r[1..][k - 1..] == r[k..];
    } else {
      assert !IsSpace(r[0]);
    }
  }

  /** `s.count(c)` for a single character. */
  function Count(s: string, c: char): nat {
    if s == [] then 0 else Count(s[..|s| - 1], c) + (if s[|s| - 1] == c then 1 else 0)
  }

  /** `pat` occurs in `s` at index `j`. */
  predicate OccursAt(s: string, pat: string, j: nat) {
    j + |pat| <= |s| && s[j..j + |pat|] == pat
  }

  /** The first occurrence of `pat` in `s` at or after `j`, as `s.find(pat, j)` gives it. */
  function FirstIndexFrom(s: string, pat: string, j: nat): (r: Option<nat>)
    ensures r.Some? ==> j <= r.value && OccursAt(s, pat, r.value)
    ensures r.Some? ==> forall k :: j <= k < r.value ==> !OccursAt(s, pat, k)
    ensures r.None? ==> forall k :: j <= k ==> !OccursAt(s, pat, k)
    decreases |s| - j
  {
    if j + |pat| > |s| then None
    else if OccursAt(s, pat, j) then Some(j)
    else FirstIndexFrom(s, pat, j + 1)
  }

  /**
   * `s.split(sep)` for a non-empty separator: the pieces between
   * occurrences of `sep`, found left to right without overlapping.
   */
  function SplitOn(s: string, sep: string): (r: seq<string>)
    requires |sep| > 0
    ensures |r| >= 1
    ensures |r| == 1 <==> FirstIndexFrom(s, sep, 0).None?
    ensures forall i :: 0 <= i < |r| ==> FirstIndexFrom(r[i], sep, 0).None?
    decreases |s|
  {
    match FirstIndexFrom(s, sep, 0)
    case None => [s]
    case Some(k) =>
      var rest := SplitOn(s[k + |sep|..], sep);
      BeforeFirstFree(s, sep, k);
      assert forall i :: 1 <= i < 1 + |rest| ==> ([s[..k]] + rest)[i] == rest[i - 1];
      [s[..k]] + rest
  }

  /** The text before the first occurrence of `sep` holds no occurrence of it. */
  lemma BeforeFirstFree(s: string, sep: string, k: nat)
    requires |sep| > 0 && FirstIndexFrom(s, sep, 0) == Some(k)
    ensures FirstIndexFrom(s[..k], sep, 0).None?
  {
    var r := FirstIndexFrom(s[..k], sep, 0);
    if r.Some? {
      OccursInPrefix(s, sep, k, r.value);
      assert false;
    }
  }

  /** An occurrence inside a prefix of `s` is an occurrence in `s`, ending within the prefix. */
  lemma OccursInPrefix(s: string, pat: string, k: nat, m: nat)
    requires k <= |s| && OccursAt(s[..k], pat, m)
    ensures OccursAt(s, pat, m) && m + |pat| <= k
  {
    assert s[..k][m..m + |pat|] == s[m..m + |pat|];
  }

  /** `sep.join(parts)`. */
  function Join(sep: string, parts: seq<string>): string {
    if parts == [] then ""
    else if |parts| == 1 then parts[0]
    else parts[0] + sep + Join(sep, parts[1..])
  }

  /** Joining the pieces of a split with its separator gives back the string. */
  lemma {:induction false} JoinSplit(s: string, sep: string)
    requires |sep| > 0
    ensures Join(sep, SplitOn(s, sep)) == s
    decreases |s|
  {
    match FirstIndexFrom(s, sep, 0)
    case None =>
    case Some(k) =>
      var rest := SplitOn(s[k + |sep|..], sep);
      JoinSplit(s[k + |sep|..], sep);
      JoinSplitStep(s, sep, k, rest);
  }

  /** The step of JoinSplit: the first piece, the separator found after it, and the rest. */
  lemma JoinSplitStep(s: string, sep: string, k: nat, rest: seq<string>)
    requires OccursAt(s, sep, k) && |rest| >= 1
    requires Join(sep, rest) == s[k + |sep|..]
    ensures Join(sep, [s[..k]] + rest) == s
  {
    var parts := [s[..k]] + rest;
    ConsParts(s[..k], rest);
    assert Join(sep, parts) == s[..k] + sep + Join(sep, rest);
    RejoinAround(s, k, k + |sep|);
  }

  lemma RejoinAround(s: string, i: nat, j: nat)
    requires i <= j <= |s|
    ensures s[..i] + s[i..j] + s[j..] == s
  {
  }

  /** All but the last piece, joined, then the separator and the last piece. */
  lemma {:induction false} JoinInit(sep: string, parts: seq<string>)
    requires |parts| >= 2
    ensures Join(sep, parts[..|parts| - 1]) + sep + parts[|parts| - 1] == Join(sep, parts)
    decreases |parts|
  {
    var n := |parts|;
    if n > 2 {
      JoinInit(sep, parts[1..]);
      assert parts[1..][..n - 2] == parts[..n - 1][1..];
      assert parts[..n - 1][0] == parts[0];
    }
  }
}

=== FILE: wrappers.dfy ===
/** Option and Result, the failure-carrying values used throughout the model. */
module Wrappers {

  datatype Option<+T> = None | Some(value: T)

  /** A Python call that either returns a value or raises `error`. */
  datatype Result<+T, +E> = Success(value: T) | Failure(error: E)
}
